=== FILE: README.md ===
# School website back office — a Dafny model

This project models the server side of a school's website: the server actions that the pages
call, the zod schemas those actions validate their input with, and the request middleware that
guards the administration pages. The site keeps four collections in its database:

- **administrator accounts**, with registration, login, profile update, password change and
  reset, activation toggling, deletion, listing and statistics, and the rule that at least one
  Super Admin must remain;
- **admission applications**, with submission (the application number `BW<year><seq>` is
  generated from a count), lookup by id or number, review (status, remarks, reviewer), bulk
  review, deletion, listing and per-year statistics;
- **notices**, with their **attachments**: creation with a unique slug, update, lookup by id or
  slug with the attachments included, deletion that cascades to the attachments, view
  counting, the pinned and recent feeds, publish and pin toggles, listing and statistics;
- **contact inquiries**, with public submission, status updates, bulk status updates,
  deletion, bulk deletion, listing, statistics and the feed of recent new inquiries.

Each collection is a sequence of `Row`s (`id`, `createdAt`, `updatedAt`, data) in insertion
order. Each action is a pure function from the store (and its arguments) to the new store and
the action's response (`Success(data, message)` or `Failure(error)`), carrying the exact
messages the actions return. Every failure leaves the store unchanged. A predicate per
collection states the database's integrity constraints: distinct ids, unique administrator
emails, unique application numbers and Aadhar numbers, unique notice slugs, and no attachment
without its notice. Lemmas show which actions preserve them.

Things outside the program are parameters:

- the clock (`now`) and the id the database would generate (`newId`);
- zod's `.email()`, `.cuid()` and `.url()` format checks, as a `Formats` record of predicates;
- the bcrypt comparison and the fresh hash;
- the JWT verification the middleware performs.

An id the database would generate twice counts as a unique-key violation, which the actions
report through their `P2002` branch.

Modules, following the source files:

| module | file | models |
|---|---|---|
| `Wrappers` | wrappers.dfy | `Option`, the `Parsed` outcome of a schema, the `Field` absent/null/value update rule, the `Response` shape |
| `Text`, `Decimal` | text.dfy, decimal.dfy | the string operations the actions rely on: `contains`, `trim`, `toLowerCase`, number to text and `padStart` |
| `Ordering`, `Pagination`, `Listing` | ordering.dfy, pagination.dfy, listing.dfy | `orderBy`, the shared page/limit/sort query fields, `skip`/`take` and the pagination metadata |
| `Table` | table.dfy | `findUnique`, `findMany`, `count`, `updateMany`, `deleteMany` on a table |
| `AdminSchemas`, `AdmissionSchemas`, `NoticeSchemas`, `InquirySchemas` | *_schemas.dfy | validation/admin.ts, validation/admission.ts, validation/notice.ts, validation/inquiry.ts |
| `AdminActions`, `AdmissionActions`, `NoticeActions`, `InquiryActions` | *_actions.dfy | actions/admin.ts, actions/admission.ts, actions/notice.ts, actions/inquery.ts |
| `Gate` | gate.dfy | middleware.ts |

## Model

| member | source | states |
|---|---|---|
| Wrappers.Apply | actions/admission.ts:258-265 | an update field left undefined keeps the stored value, `null` clears it, a value replaces it |
| Text.ContainsIffOccurs | actions/admin.ts:405-410 | the `contains` filter holds exactly when the search text occurs at some position of the column |
| Text.TrimStart | actions/admission.ts:217 | `trim` drops a prefix made only of whitespace and leaves a suffix that starts with a non-whitespace character |
| Text.TrimEnd | actions/admission.ts:217 | `trim` drops a suffix made only of whitespace and leaves a prefix that ends with a non-whitespace character |
| Text.TrimEmptyIffBlank | actions/admission.ts:217-222 | a trimmed application number is empty exactly when the number is all whitespace |
| Text.ToLower | validation/admin.ts:16-20 | `toLowerCase` keeps the length and lower-cases each character on its own |
| Text.ToLowerNormalises | validation/admin.ts:16-20 | a lower-cased email has no upper-case letter, keeps every other character, and lower-casing it again changes nothing |
| Decimal.NatToString | actions/admission.ts:23 | `toString` of a count is a non-empty digit string with no leading zero |
| Decimal.ParseNatToString | actions/admission.ts:23 | the digits of a count read back as the count |
| Decimal.NatToStringLength | actions/admission.ts:23 | a count has at most 4 digits exactly when it is at most 9999 (also for 3 and 2 digits) |
| Decimal.PadStart | actions/admission.ts:23 | `padStart(4, "0")` ends with the original text, is filled with the pad character before it, and has the requested width unless the text is already longer |
| Decimal.Pad4RoundTrip | actions/admission.ts:23 | the padded sequence number is all digits, reads back as the number, and has exactly 4 characters exactly when the number is at most 9999 |
| Decimal.Pad4Injective | actions/admission.ts:23 | two sequence numbers pad to the same text exactly when they are equal |
| Ordering.Sort | actions/admin.ts:416-433 | `orderBy` returns a permutation of the rows, ordered by the key in the requested direction |
| Ordering.InOrderTotalPreorder | actions/admin.ts:416-433 | the order on sort keys is total and transitive in both directions |
| Ordering.SortedUnique | actions/admin.ts:416-426 | when no two distinct rows share a key, `orderBy` admits a single arrangement: any two sorted permutations of the same rows are equal, however ties would be broken |
| Pagination.ParsePage | validation/admin.ts:108 | a missing page is 1, a given page must be a positive integer |
| Pagination.ParseLimit | validation/admin.ts:109 | a missing limit is 10, a given limit must be an integer from 1 to 100 |
| Pagination.ParseOrder | validation/admin.ts:114 | a missing sort order is descending, only `asc` and `desc` are accepted, and ascending is chosen only by `asc` |
| Pagination.CeilDiv | actions/admin.ts:436-438 | `Math.ceil(total / limit)` is the least page count whose pages cover all rows, and is zero only for no rows |
| Pagination.Paginate | actions/admin.ts:436-450 | the metadata echoes the page, limit and total; the page count covers the total with no empty page; there is no next page when nothing matches; a previous page is announced exactly when rows are skipped |
| Pagination.TakePage | actions/admin.ts:416-433 | `skip: (page-1)*limit, take: limit` returns the contiguous run of rows at that offset: `limit` rows while that many remain, the rest of the rows on the last page, nothing past the end |
| Pagination.PageFlagsMatchRows | actions/admin.ts:436-450 | `hasNextPage` holds exactly when the next page is non-empty, and a page is non-empty exactly when it is within the page count |
| Pagination.PagingRoundTrips | validation/admin.ts:108-114 | every page, every limit from 1 to 100 and each sort order, written back as query fields, parse to themselves |
| Pagination.AllPagesAreRows | actions/admin.ts:392-438 | the pages 1 to `totalPages` laid end to end are the rows themselves: no row is skipped or repeated between consecutive pages |
| Table.Count | actions/admin.ts:731-737 | `count({ where })` is the number of rows satisfying the predicate, at most the table size |
| Table.Filter | actions/admin.ts:416-433 | a `where` keeps exactly the rows that pass it, counted by `count` with the same `where` |
| Table.Find | actions/admin.ts:480-500 | `findUnique` by id returns a stored row with that id, and nothing exactly when no row has it |
| Table.FindBy | actions/admin.ts:36-45 | `findUnique` by a unique column returns a stored row with that value, and nothing exactly when no row has it |
| Table.FindUnique | actions/admin.ts:480-500 | with distinct ids, `findUnique` by a stored row's id returns that row |
| Table.FindByUnique | actions/admin.ts:36-45 | with a unique column, `findUnique` by a stored row's value returns that row |
| Table.RemoveIds | actions/admin.ts:798-802 | `deleteMany` keeps exactly the rows whose id was not named, and the number removed is the number of rows named |
| Table.UpdateWhere | actions/admission.ts:407-416 | `updateMany` rewrites exactly the named rows, stamps their `updatedAt`, and leaves the others as they were |
| Table.UpdateKeepsIds | actions/admission.ts:407-416 | an update keeps the set of ids and their distinctness |
| Table.UpdateKeepsUnique | actions/admin.ts:211-223 | an update that never changes a unique column keeps it unique |
| Table.AppendKeepsUnique | actions/admin.ts:51-58 | a `create` with a fresh id and a fresh unique value keeps ids distinct and the column unique |
| Listing.ListPage | actions/admin.ts:416-438 | page `k` is exactly the `k`-th run of `limit` rows of the matches in the requested order, as many rows as the offset and limit leave, with metadata counted over all matches |
| Listing.Ordered | actions/admin.ts:416-426 | the matches in the requested order are a permutation of the matching rows, sorted by the key |
| Listing.PagesCoverMatches | actions/admin.ts:416-438 | with every page cut from one ordering of the matches, all announced pages together hold every matching row exactly as often as it matches, in order |
| Listing.LaterPagesFollow | actions/admin.ts:416-426 | every row on a later page comes after every row on an earlier page in the requested order |
| Listing.EveryMatchOnSomePage | actions/admin.ts:416-438 | with every page cut from one ordering of the matches, every matching row is on one of the pages 1 to `totalPages` |
| Listing.TieFreeOrderIsForced | actions/admin.ts:416-438 | when no two matching rows share the sort key, every sorted arrangement the database may return is the model's ordering, so each page query returns the model's page |
| Listing.TopIsFirstPage | actions/notice.ts:516-529 | a feed of `n` rows is page 1 of a listing with `n` rows per page |
| Listing.NextPageAnnounced | actions/admin.ts:436-450 | a listing announces a next page exactly when the following page holds rows |
| Listing.Top | actions/notice.ts:516-529 | `findMany` with `take: n` and no `skip` returns `n` matching rows (all of them when fewer), in order, drawn from the matches, and every match it leaves out comes no earlier in the order than any row it returns |
| Gate.Session | middleware.ts:28-29 | a missing or empty cookie is no session; any other cookie's session is exactly what its verification returns |
| Gate.Middleware | middleware.ts:18-42 | a protected path without a session redirects to `/login`; the login page with a session redirects to `/admin`; everything else passes |
| Gate.LoginNotProtected | middleware.ts:22-25 | the login page is not under any protected route |
| Gate.AdminIsProtected | middleware.ts:22-24 | `/admin` is protected |
| Gate.NoRedirectLoop | middleware.ts:32-39 | following a redirect with the same cookie reaches a page the middleware lets through |
| Gate.DescendantsProtected | middleware.ts:22-24 | every path below a protected path is protected |
| Gate.RouteBoundaries | middleware.ts:22-24 | a route covers only itself and paths after a `/`: `/adminx` and `/notice` are public, `/admin-admission` and `/notices/create` are protected |
| Gate.ProtectedNeedsSession | middleware.ts:22-34 | a protected path is let through exactly when a session is present |
| AdminSchemas.ParseRole | validation/admin.ts:4-9 | exactly the four role names are accepted, each as its own role |
| AdminSchemas.RoleRoundTrip | validation/admin.ts:4-9 | every role parses back from its name |
| AdminSchemas.CheckPassword | validation/admin.ts:12 | the one-pass scan accepts exactly the passwords of 8 to 100 characters drawn from letters, digits and `@$!%*?&` that contain a lower-case letter, an upper-case letter, a digit and a special character |
| AdminSchemas.PasswordPoliciesDiffer | validation/admin.ts:22-29 | every registration password is acceptable as a new password, but a change or reset also accepts weak ones registration refuses |
| AdminSchemas.ParseAccountEmail | validation/admin.ts:16-20 | an email is accepted when well formed and at most 100 characters, and stored lower-cased |
| AdminSchemas.ParseRegistration | validation/admin.ts:15-37 | a registration is accepted exactly when email, password, name and role each pass, and the email is stored lower-cased |
| AdminSchemas.RegistrationIdempotent | validation/admin.ts:15-37 | a parsed registration passes the schema again unchanged |
| AdminSchemas.ParseLogin | validation/admin.ts:40-49 | a login needs a well-formed email (no length bound) and a non-empty password; the email is lower-cased |
| AdminSchemas.ParseLookupEmail | validation/admin.ts:128-130 | an email lookup needs a well-formed email and lower-cases it |
| AdminSchemas.ParseOptionalEmail | validation/admin.ts:55-61 | an update's email may be absent or empty; otherwise it must be a well-formed address of at most 100 characters and is lower-cased |
| AdminSchemas.ParseOptionalName | validation/admin.ts:63-68 | an update's name may be absent or empty; otherwise it must have 2 to 100 characters |
| AdminSchemas.ParseUpdate | validation/admin.ts:52-73 | an update needs a cuid id, and each given field must pass its check; name and activity pass through |
| AdminSchemas.ChangePasswordIssues | validation/admin.ts:76-94 | each field is reported exactly when it fails its check, and a confirmation that differs from the new password is reported on the confirmation field even when other fields fail |
| AdminSchemas.ParseChangePassword | validation/admin.ts:76-94 | a password change is accepted exactly when no issue is reported, and passes through unchanged |
| AdminSchemas.ChangePasswordNeedsConfirmation | validation/admin.ts:91-94 | an accepted change has a confirmation equal to an acceptable new password; a mismatch is always reported on the confirmation |
| AdminSchemas.ParseResetPassword | validation/admin.ts:97-104 | a reset needs a cuid id and a new password of 6 to 100 characters |
| AdminSchemas.ParseAdminSortField | validation/admin.ts:113 | the sort column defaults to `createdAt` and must be one of the five listed columns |
| AdminSchemas.ParseAdminQuery | validation/admin.ts:107-115 | a query is valid exactly when page, limit, role, sort column and order each are; the given page, limit, column and order are kept (1, 10, `createdAt`, descending when absent) and the filters pass through, the role by name |
| AdminSchemas.AdminQueryRoundTrip | validation/admin.ts:107-115 | every valid query, written back as query fields, parses to itself |
| AdminSchemas.AtPageMovesOnlyPage | validation/admin.ts:108 | asking for page `k` of a valid query changes the parsed page to `k` and nothing else |
| AdminActions.ViewHidesOnlyPassword | actions/admin.ts:59-68 | the returned account shows every column except the password: two rows look the same exactly when they differ at most in the password |
| AdminActions.HolderIsOtherIffHeld | actions/admin.ts:197-208 | with unique emails, looking up the address and comparing ids is the same as asking whether another account holds it |
| AdminActions.Register | actions/admin.ts:30-100 | an invalid registration fails validation; a taken email fails; otherwise a new active account is appended with the lower-cased email and the hash, and the password is not returned |
| AdminActions.RegisterKeepsValid | actions/admin.ts:36-58 | registration keeps ids distinct and emails unique |
| AdminActions.RegisteredIsFoundById | actions/admin.ts:474-521 | a registered account is found by its id, as registration returned it |
| AdminActions.Login | actions/admin.ts:106-177 | a login succeeds only for an active account whose email matches and whose hash accepts the password; it stamps `lastLogin` on that account alone |
| AdminActions.LoginOutcomes | actions/admin.ts:116-159 | for an existing account: a deactivated one fails with the deactivation message whatever the password, a wrong password fails with the generic message, a right one succeeds |
| AdminActions.UpdateAdmin | actions/admin.ts:190-264 | an update succeeds exactly when it validates, the new email is not another account's, the id exists, and the resulting email is held by no other account; failures are reported in that order; on success only the named account changes, field by field as given |
| AdminActions.UpdateKeepsValid | actions/admin.ts:190-264 | an update keeps ids distinct and emails unique |
| AdminActions.ResaveOwnEmail | actions/admin.ts:197-208 | re-submitting an account's own email is not a conflict |
| AdminActions.UpdateCanDemoteLastSuperAdmin | actions/admin.ts:190-264 | the update action has no Super Admin guard: the only Super Admin can be demoted |
| AdminActions.ChangePassword | actions/admin.ts:270-329 | a change fails validation, on an unknown id, or on a wrong current password; on success only the account's hash changes |
| AdminActions.ChangedPasswordLogsIn | actions/admin.ts:270-329 | after a change, the account logs in with the new password |
| AdminActions.ResetPassword | actions/admin.ts:335-379 | a reset succeeds exactly on a valid request for an existing account, and replaces that account's hash alone |
| AdminActions.ResetPasswordLogsIn | actions/admin.ts:335-379 | after a reset the table stays valid and a login with the new password that the hash comparison accepts succeeds for an active account |
| AdminActions.Views | actions/admin.ts:423-433 | the listing projects every account through the same column selection |
| AdminActions.ListAdmins | actions/admin.ts:385-468 | a malformed query fails; otherwise the page is exactly the requested run of the matching accounts (role, activity, name-or-email search) in the requested order, without hashes, as many as the page leaves, drawn from the matches, with metadata counted over all matches |
| AdminActions.EveryMatchingAccountIsListed | actions/admin.ts:385-468 | under the model's single tie order, every matching account appears, without its hash, on one of the pages the listing announces |
| AdminActions.GetById | actions/admin.ts:474-521 | a malformed id fails as invalid; otherwise the account is returned exactly when it exists |
| AdminActions.GetByEmail | actions/admin.ts:527-574 | a malformed email fails as invalid; otherwise the account whose stored email equals the lower-cased input is returned exactly when one exists |
| AdminActions.LookupIgnoresCase | actions/admin.ts:527-574 | two spellings of an email that differ only in case find the same account |
| AdminActions.Delete | actions/admin.ts:580-646 | a delete succeeds exactly on a well-formed id of an existing account that is not the last Super Admin (counting inactive ones), and then exactly the rows with that id are gone and the table shrinks by their number |
| AdminActions.RemoveKeepsValid | actions/admin.ts:612-614 | removing accounts keeps ids distinct and emails unique |
| AdminActions.DeleteKeepsSuperAdmin | actions/admin.ts:598-614 | if a Super Admin exists before a delete, one exists after it |
| AdminActions.DeleteCanRemoveLastActiveSuperAdmin | actions/admin.ts:598-614 | the delete guard counts inactive Super Admins, so the last active one can be deleted |
| AdminActions.Toggle | actions/admin.ts:652-714 | a toggle succeeds exactly on a well-formed id of an existing account unless it would deactivate the last active Super Admin; on success only that account's activity flips and the message names the new state |
| AdminActions.ToggleTwiceRestores | actions/admin.ts:685-689 | two successful toggles of the same account restore every account's data |
| AdminActions.ToggleKeepsActiveSuperAdmin | actions/admin.ts:670-682 | if an active Super Admin exists before a toggle, one exists after it |
| AdminActions.BulkDelete | actions/admin.ts:767-819 | an empty selection fails; a selection holding every Super Admin fails; otherwise exactly the selected accounts are removed and the message reports how many: the number of stored accounts whose id was selected |
| AdminActions.BulkDeleteKeepsSuperAdmin | actions/admin.ts:781-794 | if a Super Admin exists before a bulk delete, one exists after it |
| AdminActions.RoleCountsCoverTable | actions/admin.ts:731-737 | the four per-role counts add up to the number of accounts |
| AdminActions.Statistics | actions/admin.ts:720-761 | each count is the number of accounts with that role or activity, and the active and inactive counts, and the role counts, each add up to the total |
| AdmissionSchemas.ParseGender | validation/admission.ts:4 | exactly the three gender names are accepted |
| AdmissionSchemas.ParseCategory | validation/admission.ts:5 | exactly the five category names are accepted |
| AdmissionSchemas.ParseStatus | validation/admission.ts:6-13 | exactly the six status names are accepted |
| AdmissionSchemas.EnumRoundTrips | validation/admission.ts:4-13 | every gender, category and status parses back from its name |
| AdmissionSchemas.PhoneAsNumber | validation/admission.ts:16 | a phone number is ten digits whose value is at least 6000000000 |
| AdmissionSchemas.BloodGroupsExactly | validation/admission.ts:54-58 | the blood-group pattern accepts exactly the eight groups |
| AdmissionSchemas.AcademicYearParts | validation/admission.ts:82-84 | an academic year is four digits, a hyphen and two digits; the second part is not checked against the first |
| AdmissionSchemas.NameCharacterSet | validation/admission.ts:23-40 | names allow ASCII letters and whitespace only, so an all-space name passes and an accented one does not; the middle name may be empty |
| AdmissionSchemas.AgeIgnoresDayOfYear | validation/admission.ts:42-50 | the age check compares calendar years only |
| AdmissionSchemas.ParseApplication | validation/admission.ts:21-190 | a form is accepted exactly when every group of fields passes, and an explicit null nationality is refused; names, dates, blood group, religion and the other fields pass through, enums by name, and a missing nationality becomes `Indian` |
| AdmissionSchemas.AcceptedFormFormats | validation/admission.ts:16-18 | an accepted form has a well-formed academic year, father's phone, pincodes, Aadhar number and blood group |
| AdmissionSchemas.ParseStatusUpdate | validation/admission.ts:193-198 | a review needs a cuid id, a known status, remarks of at most 1000 characters and a reviewer |
| AdmissionSchemas.ParseApplicationSortField | validation/admission.ts:208 | the sort column defaults to `createdAt` and must be one of the three listed |
| AdmissionSchemas.ParseApplicationQuery | validation/admission.ts:201-210 | a query is valid exactly when page, limit, status, sort column and order each are; the given page, limit, column and order are kept (1, 10, `createdAt`, descending when absent); year, class, search and status pass through |
| AdmissionSchemas.ApplicationQueryRoundTrip | validation/admission.ts:201-210 | every valid query, written back as query fields, parses to itself |
| AdmissionSchemas.AtPageMovesOnlyPage | validation/admission.ts:202 | asking for page `k` of a valid query changes the parsed page to `k` and nothing else |
| AdmissionActions.YearPrefix | actions/admission.ts:19 | `split("-")[0]` is the longest prefix without a hyphen |
| AdmissionActions.YearPrefixOfJoin | actions/admission.ts:19 | the part before the first hyphen of `a-b` is `a` when `a` has no hyphen |
| AdmissionActions.ApplicationNumberShape | actions/admission.ts:18-25 | a number is `BW`, the start year, and the year's count plus one in four digits |
| AdmissionActions.StartYear | actions/admission.ts:19 | for a well-formed academic year the prefix is its first four characters |
| AdmissionActions.NextNumberAdvances | actions/admission.ts:18-25 | adding an application of a year changes the next number generated for that year |
| AdmissionActions.SharedStartYearCollides | actions/admission.ts:18-25 | `2025-26` and `2025-27` both start at `BW20250001`: the number depends on the start year only |
| AdmissionActions.FirstNumberOf2025 | actions/admission.ts:18-25 | the first application of any year starting 2025 is `BW20250001` |
| AdmissionActions.FirstSequenceNumber | actions/admission.ts:23 | the first sequence number is `0001` |
| AdmissionActions.Create | actions/admission.ts:31-80 | an invalid form fails validation; a clash on id, number or Aadhar fails as a duplicate; otherwise a PENDING application is appended and its number is in the message |
| AdmissionActions.CreateKeepsValid | actions/admission.ts:31-80 | submission keeps ids, numbers and Aadhar numbers unique |
| AdmissionActions.NumberRepeatsAfterDelete | actions/admission.ts:18-25 | after a delete the generator can produce a number that is still in use |
| AdmissionActions.ListApplications | actions/admission.ts:86-166 | a malformed query fails; otherwise the page is exactly the requested run of the applications matching status, year, class and search in the requested order, as many as the page leaves, drawn from the matches, with metadata counted over all matches |
| AdmissionActions.EveryMatchingApplicationIsListed | actions/admission.ts:86-166 | under the model's single tie order, every matching application appears on one of the pages the listing announces |
| AdmissionActions.GetById | actions/admission.ts:172-209 | a malformed id fails as invalid; otherwise the application is returned exactly when it exists |
| AdmissionActions.GetByNumber | actions/admission.ts:215-246 | a blank number is required; otherwise the application with that number is returned exactly when one exists |
| AdmissionActions.SubmittedIsFoundByNumber | actions/admission.ts:31-80 | the number announced after a submission finds the submitted application |
| AdmissionActions.SubmittedIsFoundById | actions/admission.ts:172-209 | a submitted application is found by its id, as submission returned it |
| AdmissionActions.UpdateStatus | actions/admission.ts:252-300 | a review fails validation or on an unknown id; on success only that application changes: status, reviewer and review time set, remarks by the update rule, form and number kept |
| AdmissionActions.ReviewKeepsValid | actions/admission.ts:262-266 | a review keeps ids, numbers and Aadhar numbers unique |
| AdmissionActions.BulkUpdateStatus | actions/admission.ts:393-433 | an empty selection fails; an unknown status fails; otherwise exactly the selected applications get the status and reviewer, and the message reports how many |
| AdmissionActions.BulkUpdatedReadsBack | actions/admission.ts:393-433 | after a bulk review each selected application that exists reads back by id with the new status, the reviewer and the review time, its remarks unchanged |
| AdmissionActions.Delete | actions/admission.ts:306-346 | a delete fails on a malformed or unknown id; on success exactly that application is gone |
| AdmissionActions.DeleteKeepsValid | actions/admission.ts:306-346 | a delete keeps the table's constraints |
| AdmissionActions.StatusCountsAddUp | actions/admission.ts:363-367 | the four reported status counts plus the unreported statuses add up to the total |
| AdmissionActions.Statistics | actions/admission.ts:352-387 | the total counts the year's applications (all of them without a year), each status count is the number of those applications with that status, and the reported counts with the unreported ones add up to the total |
| NoticeSchemas.ParseCategory | validation/notice.ts:4-19 | exactly the fourteen category names are accepted |
| NoticeSchemas.ParsePriority | validation/notice.ts:21-26 | exactly the four priority names are accepted |
| NoticeSchemas.EnumRoundTrips | validation/notice.ts:4-26 | every category and priority parses back from its name |
| NoticeSchemas.JoinHasShape | validation/notice.ts:29 | groups of lower-case letters and digits joined by single hyphens form a slug |
| NoticeSchemas.Split | validation/notice.ts:29 | every slug is such a join of groups |
| NoticeSchemas.SlugGrammarIffShape | validation/notice.ts:29 | the slug pattern and the character-level slug shape accept the same strings |
| NoticeSchemas.MatchSlug | validation/notice.ts:29 | the one-pass matcher accepts exactly the slugs |
| NoticeSchemas.LookupSlugIsLaxer | validation/notice.ts:70-74 | every storable slug can be looked up, but the lookup also accepts slugs over 200 characters; doubled, leading and trailing hyphens are refused |
| NoticeSchemas.ParseNotice | validation/notice.ts:32-75 | a notice is accepted exactly when each field passes; title, slug, description, content and the dates pass through; priority by name or `NORMAL`; the publish date is the given one or now; published and pinned only when set true, active unless set false |
| NoticeSchemas.ParseOptionalCategory | validation/notice.ts:99 | an update's category may be absent, otherwise it must be a category name |
| NoticeSchemas.ParseOptionalPriority | validation/notice.ts:101 | an update's priority may be absent, otherwise it must be a priority name |
| NoticeSchemas.ParseNoticeUpdate | validation/notice.ts:78-121 | an update needs a cuid id and each given field must pass; every field passes through |
| NoticeSchemas.FormFieldsUpdatable | validation/notice.ts:78-121 | any notice the creation schema accepts can be written back through the update schema |
| NoticeSchemas.ParseAttachment | validation/notice.ts:124-136 | an attachment needs a cuid notice id, a name of 1 to 255 characters, a URL, a type of 1 to 50 characters and a positive integer size, and passes every field through unchanged |
| NoticeSchemas.ParseNoticeSortField | validation/notice.ts:148 | the sort column defaults to `publishDate` and must be one of the four listed |
| NoticeSchemas.ParseNoticeQuery | validation/notice.ts:139-150 | a query is valid exactly when page, limit, category, priority, sort column and order each are; the given page, limit, column and order are kept (1, 10, `publishDate`, descending when absent); the filters pass through, enums by name |
| NoticeSchemas.NoticeQueryRoundTrip | validation/notice.ts:139-150 | every valid query, written back as query fields, parses to itself |
| NoticeSchemas.AtPageMovesOnlyPage | validation/notice.ts:140 | asking for page `k` of a valid query changes the parsed page to `k` and nothing else |
| NoticeActions.Include | actions/notice.ts:197-207 | each returned notice carries exactly the attachments that point at it |
| NoticeActions.Create | actions/notice.ts:25-82 | an invalid notice fails validation; a taken slug fails; an id clash fails through the unique-key branch; otherwise the notice is appended with zero views |
| NoticeActions.CreateKeepsValid | actions/notice.ts:25-82 | creation keeps ids distinct, slugs unique and attachments attached |
| NoticeActions.CreatedIsFoundBySlug | actions/notice.ts:294-334 | a new notice is found by its slug, with no attachments |
| NoticeActions.SlugHolderIsOtherIffHeld | actions/notice.ts:95-106 | with unique slugs, looking up the slug and comparing ids is the same as asking whether another notice holds it |
| NoticeActions.Update | actions/notice.ts:88-147 | an update fails validation, then on a slug held by another notice, then on an unknown id; on success only that notice changes, field by field as given, views and attachments kept |
| NoticeActions.UpdateSlugRule | actions/notice.ts:95-106 | an update is refused for its slug exactly when another notice holds it |
| NoticeActions.ResaveOwnSlug | actions/notice.ts:95-106 | re-submitting a notice's own slug succeeds |
| NoticeActions.UpdateKeepsValid | actions/notice.ts:88-147 | an update keeps the store's constraints |
| NoticeActions.ListNotices | actions/notice.ts:153-242 | a malformed query fails; otherwise the page is exactly the requested run of the notices matching every given filter and the search, in the requested order, each with its attachments, as many as the page leaves, with metadata counted over all matches |
| NoticeActions.EveryMatchingNoticeIsListed | actions/notice.ts:153-242 | under the model's single tie order, every matching notice appears, with its attachments, on one of the pages the listing announces |
| NoticeActions.GetById | actions/notice.ts:248-288 | a malformed id fails as invalid; otherwise the notice and its attachments are returned exactly when it exists |
| NoticeActions.GetBySlug | actions/notice.ts:294-334 | a slug the lookup pattern refuses fails as invalid; otherwise the notice with that slug and its attachments are returned exactly when one exists |
| NoticeActions.Detach | actions/notice.ts:345-348 | the cascade keeps exactly the attachments whose notice is not removed |
| NoticeActions.RemoveNoticesKeepsValid | actions/notice.ts:345-348 | removing notices with their attachments keeps the store's constraints |
| NoticeActions.Delete | actions/notice.ts:340-381 | a delete fails on a malformed or unknown id; on success exactly that notice and its attachments are gone |
| NoticeActions.DeletedIsGone | actions/notice.ts:340-381 | after a delete, lookup by the id reports not found and no attachment points at it |
| NoticeActions.BulkDelete | actions/notice.ts:633-665 | an empty selection fails; otherwise exactly the selected notices and their attachments are removed and the message reports how many |
| NoticeActions.BulkDeleteKeepsValid | actions/notice.ts:633-665 | a bulk delete keeps the store's constraints and reports the number of selected notices that existed |
| NoticeActions.AddAttachment | actions/notice.ts:387-429 | an invalid attachment fails validation; an unknown notice fails as not found; otherwise the attachment is appended |
| NoticeActions.AddedAttachmentIsListed | actions/notice.ts:387-429 | a new attachment shows up among its notice's attachments |
| NoticeActions.DeleteAttachment | actions/notice.ts:435-476 | a delete fails on a malformed or unknown id; on success exactly that attachment is gone and the notices are unchanged |
| NoticeActions.DeleteAttachmentKeepsValid | actions/notice.ts:435-476 | removing an attachment keeps the store's constraints |
| NoticeActions.IncrementViews | actions/notice.ts:482-508 | every failure has the one message and changes nothing; success happens exactly for an existing cuid and raises that notice's views by one, changing nothing else |
| NoticeActions.ViewsAddUp | actions/notice.ts:488-495 | two view counts on a notice raise its views by two |
| NoticeActions.Feed | actions/notice.ts:516-561 | a feed holds `n` matching notices (all when fewer), newest publish date first, each with its attachments, and every matching notice it leaves out was published no later than any it shows |
| NoticeActions.Pinned | actions/notice.ts:514-542 | the pinned feed holds up to the limit (5 by default) of pinned, published, active notices, newest first, or all of them when fewer; a pinned live notice left out is no newer than any shown |
| NoticeActions.Recent | actions/notice.ts:548-575 | the recent feed holds up to the limit (10 by default) of published, active notices, newest first, or all of them when fewer; a live notice left out is no newer than any shown |
| NoticeActions.PinnedWithinRecent | actions/notice.ts:514-575 | with the same limit the pinned feed is never longer than the recent feed |
| NoticeActions.CategoryCountsBounded | actions/notice.ts:593-600 | counts of three distinct categories among active notices never exceed the active total |
| NoticeActions.Statistics | actions/notice.ts:581-627 | each count is the number of active notices that are published, drafts, pinned, urgent, or of the category; published and drafts add up to the total, and the others stay within it |
| NoticeActions.TogglePublish | actions/notice.ts:671-710 | a toggle fails exactly on an unknown id; on success only that notice's published flag flips and the message names the new state |
| NoticeActions.TogglePin | actions/notice.ts:716-755 | a toggle fails exactly on an unknown id; on success only that notice's pinned flag flips and the message names the new state |
| NoticeActions.TogglePublishTwice | actions/notice.ts:687-692 | publishing-toggling twice restores every notice |
| NoticeActions.TogglePinTwice | actions/notice.ts:732-737 | pin-toggling twice restores every notice |
| NoticeActions.TogglesKeepValid | actions/notice.ts:671-755 | both toggles keep the store's constraints |
| InquirySchemas.ParseSubject | validation/inquiry.ts:4-10 | exactly the five subject names are accepted |
| InquirySchemas.ParseStatus | validation/inquiry.ts:12-17 | exactly the four status names are accepted |
| InquirySchemas.EnumRoundTrips | validation/inquiry.ts:4-17 | every subject and status parses back from its name |
| InquirySchemas.ContactPhoneCases | validation/inquiry.ts:20-39 | the phone may be missing or empty, otherwise ten digits starting with 6 to 9 |
| InquirySchemas.ParseContact | validation/inquiry.ts:23-47 | an inquiry is accepted exactly when name, email, phone, subject and message pass; fields pass through |
| InquirySchemas.ParseStatusUpdate | validation/inquiry.ts:50-59 | a status update needs a cuid id, a known status, a response of at most 2000 characters and a responder |
| InquirySchemas.ParseInquirySortField | validation/inquiry.ts:68 | the sort column defaults to `createdAt` and is `createdAt` or `updatedAt` |
| InquirySchemas.ParseInquiryQuery | validation/inquiry.ts:62-70 | a query is valid exactly when page, limit, status, subject, sort column and order each are; the given page, limit, column and order are kept (1, 10, `createdAt`, descending when absent); status, subject and search pass through |
| InquirySchemas.InquiryQueryRoundTrip | validation/inquiry.ts:62-70 | every valid query, written back as query fields, parses to itself |
| InquirySchemas.AtPageMovesOnlyPage | validation/inquiry.ts:63 | asking for page `k` of a valid query changes the parsed page to `k` and nothing else |
| InquiryActions.Create | actions/inquery.ts:21-63 | an invalid inquiry fails validation; otherwise a NEW inquiry is appended, with the caller's address only when one was given and no response yet |
| InquiryActions.SubmittedIsFound | actions/inquery.ts:149-186 | a submitted inquiry is found by its id |
| InquiryActions.ListInquiries | actions/inquery.ts:69-143 | a malformed query fails; otherwise the page is exactly the requested run of the inquiries matching status, subject and search in the requested order, as many as the page leaves, drawn from the matches, with metadata counted over all matches |
| InquiryActions.EveryMatchingInquiryIsListed | actions/inquery.ts:69-143 | under the model's single tie order, every matching inquiry appears on one of the pages the listing announces |
| InquiryActions.GetById | actions/inquery.ts:149-186 | a malformed id fails as invalid; otherwise the inquiry is returned exactly when it exists |
| InquiryActions.UpdateStatus | actions/inquery.ts:192-240 | an update fails validation or on an unknown id; on success only that inquiry changes: status, responder and response time set, response by the update rule |
| InquiryActions.UpdatedStatusIsRead | actions/inquery.ts:192-240 | after an update, lookup shows the new status and responder |
| InquiryActions.BulkUpdateStatus | actions/inquery.ts:347-387 | an empty selection fails; an unknown status fails; otherwise exactly the selected inquiries get the status and responder, and the message reports how many |
| InquiryActions.BulkUpdateSetsStatus | actions/inquery.ts:361-370 | after a bulk update with a known status, at least as many inquiries have it as were updated |
| InquiryActions.Delete | actions/inquery.ts:246-286 | a delete fails on a malformed or unknown id; on success exactly that inquiry is gone |
| InquiryActions.DeletedIsGone | actions/inquery.ts:246-286 | after a delete the inquiry is no longer found, and every other inquiry is found as before |
| InquiryActions.BulkDelete | actions/inquery.ts:393-424 | an empty selection fails; otherwise exactly the selected inquiries are removed and the message reports how many |
| InquiryActions.BulkDeletedAreGone | actions/inquery.ts:403-415 | a bulk-deleted inquiry is no longer found, and the count reports the selected inquiries that existed |
| InquiryActions.StatusCountsAddUp | actions/inquery.ts:305-313 | the four status counts add up to the number of inquiries |
| InquiryActions.SubjectCountsAddUp | actions/inquery.ts:305-313 | the five subject counts add up to the number of inquiries |
| InquiryActions.Statistics | actions/inquery.ts:292-341 | each count is the number of inquiries with that status or subject; the status counts add up to the total, and the reported subject counts with `OTHERS` do too |
| InquiryActions.Recent | actions/inquery.ts:430-453 | the feed holds up to the limit (5 by default) of NEW inquiries, newest first, or all of them when fewer; a NEW inquiry left out is no newer than any shown |
| InquiryActions.SubmittedIsRecent | actions/inquery.ts:21-63 | an inquiry submitted after every stored one is in the feed of new inquiries for any positive limit |
| InquiryActions.NewestHeadsFeed | actions/inquery.ts:430-437 | a NEW inquiry strictly newer than all others is kept by a feed of any positive length |

## Left out

- Input and output: the database driver, `revalidatePath`, console logging and cookie writing are not modelled. Each action is a function of the store it reads.
- Concurrency: two actions are never interleaved. A count-then-create race on application numbers, or a check-then-write race on emails and slugs, is not modelled.
- Database failures other than the unique-key, missing-row and foreign-key errors the actions test for: the generic "Failed to … Please try again." branches are reachable in the model only where an input the schema does not check makes the database refuse it (an unknown bulk status, a toggled admin id that is not a cuid, an unknown notice id in `incrementNoticeViews`), or where the id the database would generate is already taken (`createContactInquiry`, `addNoticeAttachment`).
- The database schema file is not part of this model. Unique emails, slugs, application numbers and Aadhar numbers, the attachment foreign key and its cascade are read off the actions' own checks and error branches.
- Authentication helpers: `lib/auth` (session creation on login, `logoutAdmin`) and the JWT library are not part of this model. Login returns the account; the middleware receives token verification as a function.
- The middleware's `config.matcher` (which requests reach the middleware at all) is not modelled; the model decides for every path.
- zod's `.email()`, `.cuid()`, `.url()` formats are parameters, not implementations. `z.coerce.date()` is modelled as an already decoded instant, and the date of birth as a year, month and day.
- Numbers: page, limit and file size are reals without NaN or infinities. The feed limits are natural numbers; a negative or fractional `take` is not modelled.
- The `details` field of validation failures (zod's issue list) is dropped; a failure carries its message only. `AdminSchemas.ChangePasswordIssues` models the issue paths of the one schema whose refinement makes them matter.
- Database text comparison: `contains` and equality are case-sensitive and code-unit based, as on a case-sensitive collation. Ordering of strings is by code unit, and null sorts before every value. Other collations and null placements are not modelled.
- `select` lists: an administrator is returned as a view without its password; the narrower column selections of the listings and feeds are not modelled otherwise.
- Text.ToLower: lower-cases ASCII letters only. JavaScript's full Unicode case mapping is not modelled.
- `NoticeActions.IncrementViews` states the reported view count through the notice it increments (`exists`), since the store alone does not promise a single row per id.
- `AdmissionSchemas.AgeIgnoresDayOfYear` and the age check use the current year as a parameter; the clock is not modelled.
- Listing.PagesCoverMatches: every page is cut from one sorted sequence, in which rows with equal keys keep table order. Each page is in fact a separate `skip`/`take` query, and the database may break ties differently in each one. Then a row can appear on two pages and another row on none: two notices with 0 views, sorted by views, one per page. The lemma therefore holds for the program only when the sort key is distinct across the matches. `Listing.TieFreeOrderIsForced` proves that in that case any order the database picks is the model's. `Listing.LaterPagesFollow` holds under any tie order.
- Listing.EveryMatchOnSomePage: holds under the model's single tie order only, for the reason given for `Listing.PagesCoverMatches`.
- AdminActions.EveryMatchingAccountIsListed: holds under the model's single tie order only, as for `Listing.PagesCoverMatches`. Names and a null `lastLogin` can repeat.
- AdmissionActions.EveryMatchingApplicationIsListed: holds under the model's single tie order only, as for `Listing.PagesCoverMatches`. A bulk status update stamps one `updatedAt` on every row it touches.
- NoticeActions.EveryMatchingNoticeIsListed: holds under the model's single tie order only, as for `Listing.PagesCoverMatches`. Every new notice has 0 views, and publish dates can repeat.
- InquiryActions.EveryMatchingInquiryIsListed: holds under the model's single tie order only, as for `Listing.PagesCoverMatches`. A bulk status update stamps one `updatedAt` on every row it touches.
- The website's pages and components call these actions and are not part of this model.

=== FILE: admin_actions.dfy ===
/** The administrator-account server actions over the `admin` table: registration, login,
    profile and password changes, lookups, the paged listing, deletion, activation and the
    statistics. Each action is a pure function from the table (and the values the
    environment supplies: the clock, a fresh id, the password hasher's output and verdict)
    to the new table and the response envelope. */
module AdminActions {
  import opened Wrappers
  import opened Text
  import opened Decimal
  import opened Table
  import opened Ordering
  import opened Pagination
  import opened Listing
  import opened AdminSchemas

  /** The stored columns of an account; `password` holds the bcrypt hash. */
  datatype Account = Account(
    email: string,
    password: string,
    name: string,
    role: Role,
    isActive: bool,
    lastLogin: Option<int>)

  type Admins = seq<Row<Account>>

  function EmailOf(a: Account): string { a.email }

  /** The table's integrity constraints: unique primary keys and unique emails. */
  predicate ValidAdmins(t: Admins)
  {
    DistinctIds(t) && UniqueBy(t, EmailOf)
  }

  /** An account as the actions hand it out: every column except the password hash. */
  datatype AdminView = AdminView(
    id: Id,
    email: string,
    name: string,
    role: Role,
    isActive: bool,
    lastLogin: Option<int>,
    createdAt: int,
    updatedAt: int)

  function View(r: Row<Account>): AdminView
  {
    AdminView(r.id, r.data.email, r.data.name, r.data.role, r.data.isActive, r.data.lastLogin, r.createdAt, r.updatedAt)
  }

  /** The view is the row without its hash: rows that agree on everything but the password
      look the same, and the view determines every other column. */
  lemma ViewHidesOnlyPassword(a: Row<Account>, b: Row<Account>)
    ensures View(a) == View(b) <==> a == b.(data := b.data.(password := a.data.password))
  {
  }

  const EmailTaken := "An admin with this email already exists."
  const AdminNotFound := "Admin not found"
  const BadCredentials := "Invalid email or password"
  const Deactivated := "Your account has been deactivated. Please contact support."
  const InvalidAdminId := "Invalid admin ID"
  const WrongCurrentPassword := "Current password is incorrect"
  const LastSuperAdmin := "Cannot delete the last Super Admin"
  const LastActiveSuperAdmin := "Cannot deactivate the last active Super Admin"
  const AllSuperAdmins := "Cannot delete all Super Admins. At least one must remain."
  const ToggleFailed := "Failed to toggle admin status. Please try again."

  function IsSuperAdmin(r: Row<Account>): bool { r.data.role == SuperAdmin }

  function IsActiveSuperAdmin(r: Row<Account>): bool { r.data.role == SuperAdmin && r.data.isActive }

  /** Some account other than `id` holds `email`.  This is the database's unique-constraint
      test on a written email; the actions' own pre-checks look the address up with
      `findUnique` and compare ids, which `HolderIsOther` shows to be the same test. */
  predicate HeldByOther(t: Admins, email: string, id: Id)
  {
    exists i :: 0 <= i < |t| && t[i].id != id && t[i].data.email == email
  }

  /** The pre-check of the update action: the account `findUnique` returns for the address
      is not the one being updated. */
  predicate HolderIsOther(t: Admins, email: string, id: Id)
  {
    var holder := FindBy(t, EmailOf, email);
    holder.Some? && holder.value.id != id
  }

  /** On a table with unique emails, looking the holder up and comparing ids is the same as
      asking whether any other account holds the address. */
  lemma HolderIsOtherIffHeld(t: Admins, email: string, id: Id)
    requires ValidAdmins(t)
    ensures HolderIsOther(t, email, id) <==> HeldByOther(t, email, id)
  {
    if HeldByOther(t, email, id) {
      var i :| 0 <= i < |t| && t[i].id != id && t[i].data.email == email;
      assert t[i] in t;
      FindByUnique(t, EmailOf, t[i]);
    }
    if HolderIsOther(t, email, id) {
      var h := FindBy(t, EmailOf, email).value;
      var j :| 0 <= j < |t| && t[j] == h;
    }
  }

  // ------------------------------------------------------------------
  // registerAdmin
  // ------------------------------------------------------------------

  /** `registerAdmin`: validates, refuses a taken address, and appends an active account
      with the supplied hash. A primary-key clash (`newId` already used) is the database's
      unique violation, reported with the same message as a taken address. */
  function Register(t: Admins, f: Formats, x: RegistrationInput, hashed: string, newId: Id, now: int): (out: (Admins, Response<AdminView>))
    ensures ParseRegistration(f, x).Invalid? ==> out == (t, Failure(ValidationFailed))
    ensures out.1.Failure? ==> out.0 == t
    ensures ParseRegistration(f, x).Valid? && (exists i :: 0 <= i < |t| && t[i].data.email == ToLower(x.email)) ==>
      out == (t, Failure(EmailTaken))
    ensures out.1.Success? <==>
      && ParseRegistration(f, x).Valid?
      && (forall i :: 0 <= i < |t| ==> t[i].data.email != ToLower(x.email))
      && newId !in IdsOf(t)
    ensures out.1.Success? ==>
      && out.0 == t + [Row(newId, now, now, Account(ToLower(x.email), hashed, x.name, ParseRole(x.role).value, true, None))]
      && out.1 == Success(View(out.0[|t|]), "Admin registered successfully!")
  {
    match ParseRegistration(f, x)
    case Invalid => (t, Failure(ValidationFailed))
    case Valid(reg) =>
      if FindBy(t, EmailOf, reg.email).Some? then (t, Failure(EmailTaken))
      else if newId in IdsOf(t) then (t, Failure(EmailTaken))
      else
        var row := Row(newId, now, now, Account(reg.email, hashed, reg.name, reg.role, true, None));
        (t + [row], Success(View(row), "Admin registered successfully!"))
  }

  /** A registered account is found again by its id, as registration returned it. */
  lemma RegisteredIsFoundById(t: Admins, f: Formats, x: RegistrationInput, hashed: string, newId: Id, now: int)
    requires ValidAdmins(t) && f.isCuid(newId)
    requires Register(t, f, x, hashed, newId, now).1.Success?
    ensures var out := Register(t, f, x, hashed, newId, now);
      GetById(out.0, f, newId) == Success(out.1.data, "")
  {
    var out := Register(t, f, x, hashed, newId, now);
    RegisterKeepsValid(t, f, x, hashed, newId, now);
    assert out.0[|t|] in out.0;
    FindUnique(out.0, out.0[|t|]);
  }

  /** Registration keeps the table's integrity constraints. */
  lemma RegisterKeepsValid(t: Admins, f: Formats, x: RegistrationInput, hashed: string, newId: Id, now: int)
    requires ValidAdmins(t)
    ensures ValidAdmins(Register(t, f, x, hashed, newId, now).0)
  {
    var out := Register(t, f, x, hashed, newId, now);
    if out.1.Success? {
      AppendKeepsUnique(t, out.0[|t|], EmailOf);
      assert out.0 == t + [out.0[|t|]];
    }
  }

  // ------------------------------------------------------------------
  // loginAdmin
  // ------------------------------------------------------------------

  function StampLogin(now: int): Account -> Account
  {
    (a: Account) => a.(lastLogin := Some(now))
  }

  /** `loginAdmin`: the account is looked up by the lower-cased address; an unknown address
      and a wrong password get the same answer, a deactivated account is refused before the
      password is compared, and a successful login stamps `lastLogin` and returns the account
      as it was read, before the stamp. `compare` is bcrypt's verdict on (password, hash). */
  function Login(t: Admins, f: Formats, x: LoginInput, compare: (string, string) -> bool, now: int): (out: (Admins, Response<AdminView>))
    ensures ParseLogin(f, x).Invalid? ==> out == (t, Failure(ValidationFailed))
    ensures out.1.Failure? ==> out.0 == t
    ensures ParseLogin(f, x).Valid? && (forall i :: 0 <= i < |t| ==> t[i].data.email != ToLower(x.email)) ==>
      out == (t, Failure(BadCredentials))
    ensures out.1.Success? ==>
      && ParseLogin(f, x).Valid?
      && out.1.message == "Login successful!"
      && (exists i :: 0 <= i < |t| && out.1.data == View(t[i])
            && t[i].data.email == ToLower(x.email) && t[i].data.isActive
            && compare(x.password, t[i].data.password))
      && |out.0| == |t|
      && (forall i :: 0 <= i < |t| ==>
            out.0[i] == if t[i].id == out.1.data.id then t[i].(data := t[i].data.(lastLogin := Some(now)), updatedAt := now) else t[i])
  {
    match ParseLogin(f, x)
    case Invalid => (t, Failure(ValidationFailed))
    case Valid(cred) =>
      match FindBy(t, EmailOf, cred.email)
      case None => (t, Failure(BadCredentials))
      case Some(row) =>
        if !row.data.isActive then (t, Failure(Deactivated))
        else if !compare(cred.password, row.data.password) then (t, Failure(BadCredentials))
        else (UpdateWhere(t, {row.id}, StampLogin(now), now), Success(View(row), "Login successful!"))
  }

  /** The account's state decides the answer: a deactivated account is refused whatever the
      password checker says, and an active one with a rejected password gets the same answer
      as an unknown address. */
  lemma LoginOutcomes(t: Admins, f: Formats, x: LoginInput, c1: (string, string) -> bool, c2: (string, string) -> bool, now: int, i: int)
    requires ValidAdmins(t)
    requires ParseLogin(f, x).Valid?
    requires 0 <= i < |t| && t[i].data.email == ToLower(x.email)
    ensures !t[i].data.isActive ==>
      Login(t, f, x, c1, now) == Login(t, f, x, c2, now) == (t, Failure(Deactivated))
    ensures t[i].data.isActive && !c1(x.password, t[i].data.password) ==>
      Login(t, f, x, c1, now) == (t, Failure(BadCredentials))
    ensures t[i].data.isActive && c1(x.password, t[i].data.password) ==>
      Login(t, f, x, c1, now).1 == Success(View(t[i]), "Login successful!")
  {
    assert t[i] in t;
    FindByUnique(t, EmailOf, t[i]);
  }

  // ------------------------------------------------------------------
  // updateAdmin
  // ------------------------------------------------------------------

  /** `prisma.admin.update({ data: updateData })`: the supplied fields overwrite, the others
      stay. An empty email or name is written as given. */
  function ApplyUpdate(u: Update): Account -> Account
  {
    (a: Account) => a.(
      email := if u.email.Some? then u.email.value else a.email,
      name := if u.name.Some? then u.name.value else a.name,
      role := if u.role.Some? then u.role.value else a.role,
      isActive := if u.isActive.Some? then u.isActive.value else a.isActive)
  }

  /** `b` is `a` after an update with the raw fields of `x`, read field by field. */
  predicate WrittenFrom(a: Account, b: Account, x: UpdateInput)
  {
    && b.email == (if x.email.Some? then ToLower(x.email.value) else a.email)
    && b.name == (if x.name.Some? then x.name.value else a.name)
    && (if x.role.Some? then RoleName(b.role) == x.role.value else b.role == a.role)
    && b.isActive == (if x.isActive.Some? then x.isActive.value else a.isActive)
    && b.password == a.password && b.lastLogin == a.lastLogin
  }

  /** Writing a parsed update changes every field as the raw input says. */
  lemma ApplyUpdateFollowsInput(f: Formats, x: UpdateInput, a: Account)
    requires ParseUpdate(f, x).Valid?
    ensures WrittenFrom(a, ApplyUpdate(ParseUpdate(f, x).value)(a), x)
  {
  }

  /** `updateAdmin`. The order of the checks is the source's: a supplied (non-empty) address
      held by another account is refused first, then a missing account, and only then can the
      written row clash with another account's address (an empty address written over a
      second empty one). */
  function UpdateAdmin(t: Admins, f: Formats, x: UpdateInput, now: int): (out: (Admins, Response<AdminView>))
    ensures ParseUpdate(f, x).Invalid? ==> out == (t, Failure(ValidationFailed))
    ensures out.1.Failure? ==> out.0 == t
    ensures ParseUpdate(f, x).Valid? && Given(x.email) && HolderIsOther(t, ToLower(x.email.value), x.id) ==>
      out == (t, Failure(EmailTaken))
    ensures ParseUpdate(f, x).Valid? && !(Given(x.email) && HolderIsOther(t, ToLower(x.email.value), x.id))
            && x.id !in IdsOf(t) ==>
      out == (t, Failure(AdminNotFound))
    ensures out.1.Success? <==>
      && ParseUpdate(f, x).Valid?
      && !(Given(x.email) && HolderIsOther(t, ToLower(x.email.value), x.id))
      && Find(t, x.id).Some?
      && !HeldByOther(t, if x.email.Some? then ToLower(x.email.value) else Find(t, x.id).value.data.email, x.id)
    ensures out.1.Success? ==>
      && ParseUpdate(f, x).Valid?
      && out.1.message == "Admin updated successfully!"
      && out.1.data.id == x.id
      && |out.0| == |t|
      && (forall i :: 0 <= i < |t| ==> out.0[i].id == t[i].id && out.0[i].createdAt == t[i].createdAt)
      && (forall i :: 0 <= i < |t| && t[i].id != x.id ==> out.0[i] == t[i])
      && (forall i :: 0 <= i < |t| && t[i].id == x.id ==> WrittenFrom(t[i].data, out.0[i].data, x) && out.0[i].updatedAt == now)
      && !HeldByOther(t, out.1.data.email, x.id)
  {
    match ParseUpdate(f, x)
    case Invalid => (t, Failure(ValidationFailed))
    case Valid(u) =>
      if Given(u.email) && HolderIsOther(t, u.email.value, u.id) then (t, Failure(EmailTaken))
      else
        match Find(t, u.id)
        case None => (t, Failure(AdminNotFound))
        case Some(row) =>
          var written := ApplyUpdate(u)(row.data);
          if HeldByOther(t, written.email, u.id) then (t, Failure(EmailTaken))
          else
            var t' := UpdateWhere(t, {u.id}, ApplyUpdate(u), now);
            forall i | 0 <= i < |t| && t[i].id == x.id ensures WrittenFrom(t[i].data, t'[i].data, x) {
              ApplyUpdateFollowsInput(f, x, t[i].data);
            }
            (t',
             Success(View(row.(data := written, updatedAt := now)), "Admin updated successfully!"))
  }

  /** An update keeps the table's integrity constraints. */
  lemma UpdateKeepsValid(t: Admins, f: Formats, x: UpdateInput, now: int)
    requires ValidAdmins(t)
    ensures ValidAdmins(UpdateAdmin(t, f, x, now).0)
  {
    var out := UpdateAdmin(t, f, x, now);
    if out.1.Success? {
      var t' := out.0;
      forall i, j | 0 <= i < j < |t'| ensures t'[i].id != t'[j].id && t'[i].data.email != t'[j].data.email {
        if t[i].id == x.id {
          assert t[j].id != x.id;
          assert t'[i].data.email == out.1.data.email;
        } else if t[j].id == x.id {
          assert t'[j].data.email == out.1.data.email;
        }
      }
    }
  }

  /** Saving a profile with its own, unchanged address is not mistaken for a clash. */
  lemma ResaveOwnEmail(t: Admins, f: Formats, x: UpdateInput, now: int, i: int)
    requires ValidAdmins(t)
    requires ParseUpdate(f, x).Valid?
    requires 0 <= i < |t| && t[i].id == x.id
    requires x.email.Some? && ToLower(x.email.value) == t[i].data.email
    ensures UpdateAdmin(t, f, x, now).1.Success?
  {
    assert t[i] in t;
    FindUnique(t, t[i]);
    HolderIsOtherIffHeld(t, t[i].data.email, x.id);
  }

  /** Unlike deletion and deactivation, the update action has no guard for the last Super
      Admin: demoting the only one succeeds and leaves none. */
  lemma UpdateCanDemoteLastSuperAdmin(f: Formats, now: int)
    requires f.isCuid("a")
    ensures var t := [Row("a", 0, 0, Account("a@school.in", "h", "Ann", SuperAdmin, true, None))];
      var out := UpdateAdmin(t, f, UpdateInput("a", None, None, Some("VIEWER"), None), now);
      && Count(t, IsSuperAdmin) == 1
      && out.1.Success? && Count(out.0, IsSuperAdmin) == 0
  {
    var t := [Row("a", 0, 0, Account("a@school.in", "h", "Ann", SuperAdmin, true, None))];
    var x := UpdateInput("a", None, None, Some("VIEWER"), None);
    assert ParseRole("VIEWER") == Valid(Viewer);
    assert ParseUpdate(f, x).Valid?;
    assert Find(t, "a") == Some(t[0]);
    assert !HeldByOther(t, "a@school.in", "a");
    var out := UpdateAdmin(t, f, x, now);
    assert out.0[0].data.role == Viewer;
    assert out.0[1..] == [];
  }

  // ------------------------------------------------------------------
  // changeAdminPassword, resetAdminPassword
  // ------------------------------------------------------------------

  function SetPassword(hashed: string): Account -> Account
  {
    (a: Account) => a.(password := hashed)
  }

  /** `changeAdminPassword`: the current password must pass the checker before the new hash
      replaces the old one; nothing else about the account changes. */
  function ChangePassword(t: Admins, f: Formats, x: ChangePasswordInput, compare: (string, string) -> bool, hashed: string, now: int): (out: (Admins, Response<()>))
    ensures ParseChangePassword(f, x).Invalid? ==> out == (t, Failure(ValidationFailed))
    ensures out.1.Failure? ==> out.0 == t
    ensures ParseChangePassword(f, x).Valid? && x.id !in IdsOf(t) ==> out == (t, Failure(AdminNotFound))
    ensures out.1.Success? <==>
      && ParseChangePassword(f, x).Valid?
      && Find(t, x.id).Some?
      && compare(x.currentPassword, Find(t, x.id).value.data.password)
    ensures ParseChangePassword(f, x).Valid? && Find(t, x.id).Some? && !out.1.Success? ==>
      out.1 == Failure(WrongCurrentPassword)
    ensures out.1.Success? ==>
      && out.1.message == "Password changed successfully!"
      && |out.0| == |t|
      && (forall i :: 0 <= i < |t| ==>
            out.0[i] == if t[i].id == x.id then t[i].(data := t[i].data.(password := hashed), updatedAt := now) else t[i])
  {
    match ParseChangePassword(f, x)
    case Invalid => (t, Failure(ValidationFailed))
    case Valid(c) =>
      match Find(t, c.id)
      case None => (t, Failure(AdminNotFound))
      case Some(row) =>
        if !compare(c.currentPassword, row.data.password) then (t, Failure(WrongCurrentPassword))
        else (UpdateWhere(t, {c.id}, SetPassword(hashed), now), Success((), "Password changed successfully!"))
  }

  /** A password change keeps the constraints, and an active account can then log in with
      the new password (when the checker accepts it against the new hash). */
  lemma ChangedPasswordLogsIn(t: Admins, f: Formats, x: ChangePasswordInput, compare: (string, string) -> bool, hashed: string, now: int, i: int, email: string, later: int)
    requires ValidAdmins(t)
    requires ChangePassword(t, f, x, compare, hashed, now).1.Success?
    requires 0 <= i < |t| && t[i].id == x.id && t[i].data.isActive
    requires f.isEmail(email) && ToLower(email) == t[i].data.email
    requires compare(x.newPassword, hashed)
    ensures ValidAdmins(ChangePassword(t, f, x, compare, hashed, now).0)
    ensures Login(ChangePassword(t, f, x, compare, hashed, now).0, f, LoginInput(email, x.newPassword), compare, later).1.Success?
  {
    var t' := ChangePassword(t, f, x, compare, hashed, now).0;
    UpdateKeepsIds(t, {x.id}, SetPassword(hashed), now);
    UpdateKeepsUnique(t, {x.id}, SetPassword(hashed), now, EmailOf);
    assert x.newPassword != "" by {
      ChangePasswordNeedsConfirmation(f, x);
    }
    LoginOutcomes(t', f, LoginInput(email, x.newPassword), compare, compare, later, i);
  }

  /** `resetAdminPassword`: an administrator sets another account's hash without knowing
      the old password; a missing account is the update's not-found error. */
  function ResetPassword(t: Admins, f: Formats, x: ResetPasswordInput, hashed: string, now: int): (out: (Admins, Response<()>))
    ensures ParseResetPassword(f, x).Invalid? ==> out == (t, Failure(ValidationFailed))
    ensures out.1.Failure? ==> out.0 == t
    ensures out.1.Success? <==> ParseResetPassword(f, x).Valid? && x.id in IdsOf(t)
    ensures ParseResetPassword(f, x).Valid? && x.id !in IdsOf(t) ==> out.1 == Failure(AdminNotFound)
    ensures out.1.Success? ==>
      && out.1.message == "Password reset successfully!"
      && |out.0| == |t|
      && (forall i :: 0 <= i < |t| ==>
            out.0[i] == if t[i].id == x.id then t[i].(data := t[i].data.(password := hashed), updatedAt := now) else t[i])
  {
    match ParseResetPassword(f, x)
    case Invalid => (t, Failure(ValidationFailed))
    case Valid(r) =>
      if r.id !in IdsOf(t) then (t, Failure(AdminNotFound))
      else (UpdateWhere(t, {r.id}, SetPassword(hashed), now), Success((), "Password reset successfully!"))
  }

  /** After a reset, an active account logs in with the new password (when the checker
      accepts it against the new hash), and the constraints still hold. */
  lemma ResetPasswordLogsIn(t: Admins, f: Formats, x: ResetPasswordInput, hashed: string, now: int, i: int, email: string, compare: (string, string) -> bool, later: int)
    requires ValidAdmins(t)
    requires ResetPassword(t, f, x, hashed, now).1.Success?
    requires 0 <= i < |t| && t[i].id == x.id && t[i].data.isActive
    requires f.isEmail(email) && ToLower(email) == t[i].data.email
    requires compare(x.newPassword, hashed)
    ensures ValidAdmins(ResetPassword(t, f, x, hashed, now).0)
    ensures Login(ResetPassword(t, f, x, hashed, now).0, f, LoginInput(email, x.newPassword), compare, later).1.Success?
  {
    var t' := ResetPassword(t, f, x, hashed, now).0;
    UpdateKeepsIds(t, {x.id}, SetPassword(hashed), now);
    UpdateKeepsUnique(t, {x.id}, SetPassword(hashed), now, EmailOf);
    LoginOutcomes(t', f, LoginInput(email, x.newPassword), compare, compare, later, i);
  }

  // ------------------------------------------------------------------
  // getAllAdmins, getAdminById, getAdminByEmail
  // ------------------------------------------------------------------

  function Views(t: Admins): (v: seq<AdminView>)
    ensures |v| == |t|
    ensures forall i :: 0 <= i < |t| ==> v[i] == View(t[i])
  {
    seq(|t|, i requires 0 <= i < |t| => View(t[i]))
  }

  /** The `where` clause of the listing: role, activity and a substring of name or email. */
  function AdminMatches(q: AdminQuery): AdminView -> bool
  {
    (a: AdminView) =>
      && (q.role.None? || a.role == q.role.value)
      && (q.isActive.None? || a.isActive == q.isActive.value)
      && (!Given(q.searchQuery) || Contains(a.name, q.searchQuery.value) || Contains(a.email, q.searchQuery.value))
  }

  /** The column `orderBy: { [sortBy]: sortOrder }` reads; a never-used account has no
      `lastLogin`. */
  function AdminKey(field: AdminSortField): AdminView -> SortKey
  {
    (a: AdminView) =>
      match field
      case ByCreatedAt => Num(a.createdAt)
      case ByUpdatedAt => Num(a.updatedAt)
      case ByName => Str(a.name)
      case ByEmail => Str(a.email)
      case ByLastLogin => if a.lastLogin.Some? then Num(a.lastLogin.value) else Missing
  }

  /** `getAllAdmins`: one page of the matching accounts, without their hashes. */
  function ListAdmins(t: Admins, raw: Option<AdminQueryInput>): (r: Response<Page<AdminView>>)
    ensures r.Failure? <==> ParseAdminQuery(raw).Invalid?
    ensures r.Failure? ==> r.error == InvalidQuery
    ensures r.Success? ==>
      var q := ParseAdminQuery(raw).value;
      && r.data.pagination == Paginate(q.page, q.limit, Count(Views(t), AdminMatches(q)))
      && r.data.items == TakePage(Ordered(Views(t), AdminMatches(q), AdminKey(q.sortBy), q.sortOrder), q.page, q.limit)
      && |r.data.items| == PageSize(q.page, q.limit, Count(Views(t), AdminMatches(q)))
      && multiset(r.data.items) <= multiset(Filter(Views(t), AdminMatches(q)))
      && SortedBy(r.data.items, AdminKey(q.sortBy), q.sortOrder)
      && (forall i :: 0 <= i < |r.data.items| ==>
            && (exists j :: 0 <= j < |t| && r.data.items[i] == View(t[j]))
            && (q.role.Some? ==> r.data.items[i].role == q.role.value)
            && (q.isActive.Some? ==> r.data.items[i].isActive == q.isActive.value)
            && (Given(q.searchQuery) ==>
                  Contains(r.data.items[i].name, q.searchQuery.value) || Contains(r.data.items[i].email, q.searchQuery.value)))
  {
    match ParseAdminQuery(raw)
    case Invalid => Failure(InvalidQuery)
    case Valid(q) =>
      var v := Views(t);
      var page := ListPage(v, AdminMatches(q), AdminKey(q.sortBy), q.sortOrder, q.page, q.limit);
      assert forall i :: 0 <= i < |page.items| ==> page.items[i] in v;
      Success(page, "")
  }

  /** Every account the query matches is listed, without its hash, on one of the pages the
      listing announces. */
  lemma EveryMatchingAccountIsListed(t: Admins, raw: Option<AdminQueryInput>, i: int)
    requires ParseAdminQuery(raw).Valid?
    requires 0 <= i < |t| && AdminMatches(ParseAdminQuery(raw).value)(View(t[i]))
    ensures exists k :: 1 <= k <= ListAdmins(t, raw).data.pagination.totalPages
                        && View(t[i]) in ListAdmins(t, AtPage(raw, k)).data.items
  {
    var q := ParseAdminQuery(raw).value;
    var v := Views(t);
    assert v[i] == View(t[i]);
    EveryMatchOnSomePage(v, AdminMatches(q), AdminKey(q.sortBy), q.sortOrder, q.limit, View(t[i]));
    var k :| 1 <= k <= ListPage(v, AdminMatches(q), AdminKey(q.sortBy), q.sortOrder, 1, q.limit).pagination.totalPages
             && View(t[i]) in ListPage(v, AdminMatches(q), AdminKey(q.sortBy), q.sortOrder, k, q.limit).items;
    AtPageMovesOnlyPage(raw, k);
    assert View(t[i]) in ListAdmins(t, AtPage(raw, k)).data.items;
  }

  /** `getAdminById` */
  function GetById(t: Admins, f: Formats, id: string): (r: Response<AdminView>)
    ensures !f.isCuid(id) ==> r == Failure(InvalidAdminId)
    ensures f.isCuid(id) ==> (r.Success? <==> id in IdsOf(t))
    ensures f.isCuid(id) && r.Failure? ==> r.error == AdminNotFound
    ensures r.Success? ==> r.data.id == id && exists i :: 0 <= i < |t| && r.data == View(t[i])
  {
    if !f.isCuid(id) then Failure(InvalidAdminId)
    else match Find(t, id)
      case None => Failure(AdminNotFound)
      case Some(row) => Success(View(row), "")
  }

  /** `getAdminByEmail`: the address is lower-cased before the lookup. */
  function GetByEmail(t: Admins, f: Formats, email: string): (r: Response<AdminView>)
    ensures !f.isEmail(email) ==> r == Failure("Invalid email address")
    ensures f.isEmail(email) ==>
      (r.Success? <==> exists i :: 0 <= i < |t| && t[i].data.email == ToLower(email))
    ensures f.isEmail(email) && r.Failure? ==> r.error == AdminNotFound
    ensures r.Success? ==> r.data.email == ToLower(email) && exists i :: 0 <= i < |t| && r.data == View(t[i])
  {
    match ParseLookupEmail(f, email)
    case Invalid => Failure("Invalid email address")
    case Valid(e) =>
      match FindBy(t, EmailOf, e)
      case None => Failure(AdminNotFound)
      case Some(row) => Success(View(row), "")
  }

  /** Looking an account up by either casing of its address finds the same account, the one
      with that (lower-case) address. */
  lemma LookupIgnoresCase(t: Admins, f: Formats, e1: string, e2: string)
    requires ValidAdmins(t)
    requires f.isEmail(e1) && f.isEmail(e2) && ToLower(e1) == ToLower(e2)
    ensures GetByEmail(t, f, e1) == GetByEmail(t, f, e2)
    ensures GetByEmail(t, f, e1).Success? ==> GetById(t, f, GetByEmail(t, f, e1).data.id).Success? || !f.isCuid(GetByEmail(t, f, e1).data.id)
  {
    var r := GetByEmail(t, f, e1);
    if r.Success? {
      var i :| 0 <= i < |t| && r.data == View(t[i]);
      assert t[i] in t;
    }
  }

  // ------------------------------------------------------------------
  // deleteAdmin, toggleAdminStatus, bulkDeleteAdmins
  // ------------------------------------------------------------------

  /** `deleteAdmin`: a Super Admin can be deleted only while another Super Admin exists,
      active or not. */
  function Delete(t: Admins, f: Formats, id: string): (out: (Admins, Response<()>))
    ensures !f.isCuid(id) ==> out == (t, Failure(InvalidAdminId))
    ensures out.1.Failure? ==> out.0 == t
    ensures f.isCuid(id) && id !in IdsOf(t) ==> out == (t, Failure(AdminNotFound))
    ensures f.isCuid(id) && Find(t, id).Some? && IsSuperAdmin(Find(t, id).value) && Count(t, IsSuperAdmin) <= 1 ==>
      out == (t, Failure(LastSuperAdmin))
    ensures out.1.Success? <==>
      f.isCuid(id) && Find(t, id).Some? && !(IsSuperAdmin(Find(t, id).value) && Count(t, IsSuperAdmin) <= 1)
    ensures out.1.Success? ==>
      && out.1.message == "Admin deleted successfully"
      && |out.0| == |t| - Count(t, IdIn({id}))
      && (forall i :: 0 <= i < |out.0| ==> out.0[i] in t && out.0[i].id != id)
      && (forall i :: 0 <= i < |t| && t[i].id != id ==> t[i] in out.0)
  {
    if !f.isCuid(id) then (t, Failure(InvalidAdminId))
    else match Find(t, id)
      case None => (t, Failure(AdminNotFound))
      case Some(row) =>
        if IsSuperAdmin(row) && Count(t, IsSuperAdmin) <= 1 then (t, Failure(LastSuperAdmin))
        else (RemoveIds(t, {id}), Success((), "Admin deleted successfully"))
  }

  /** Deleting rows keeps the table's integrity constraints. */
  lemma RemoveKeepsValid(t: Admins, ids: set<Id>)
    requires ValidAdmins(t)
    ensures ValidAdmins(RemoveIds(t, ids))
  {
    FilterKeepsDistinct(t, IdNotIn(ids));
    FilterKeepsUnique(t, IdNotIn(ids), EmailOf);
  }

  /** Deletion never removes the last Super Admin: a table with one keeps one. */
  lemma DeleteKeepsSuperAdmin(t: Admins, f: Formats, id: string)
    requires ValidAdmins(t)
    requires Count(t, IsSuperAdmin) >= 1
    ensures ValidAdmins(Delete(t, f, id).0)
    ensures Count(Delete(t, f, id).0, IsSuperAdmin) >= 1
  {
    var out := Delete(t, f, id);
    if out.1.Success? {
      RemoveKeepsValid(t, {id});
      var row := Find(t, id).value;
      var gone := (r: Row<Account>) => IsSuperAdmin(r) && r.id in {id};
      var kept := (r: Row<Account>) => IsSuperAdmin(r) && r.id !in {id};
      CountPartition(t, IsSuperAdmin, gone, kept);
      CountOfFilter(t, IdNotIn({id}), IsSuperAdmin, kept);
      CountMonotone(t, gone, IdIn({id}));
      AtMostOneWithId(t, id);
      if !IsSuperAdmin(row) {
        forall i | 0 <= i < |t| ensures !gone(t[i]) {
          if t[i].id == id {
            assert t[i] in t;
            FindUnique(t, t[i]);
          }
        }
        CountZero(t, gone);
      }
    }
  }

  /** Because deletion counts every Super Admin while deactivation counts only the active
      ones, the last active Super Admin can be deleted when an inactive one remains. */
  lemma DeleteCanRemoveLastActiveSuperAdmin(f: Formats)
    requires f.isCuid("a")
    ensures var t := [Row("a", 0, 0, Account("a@school.in", "h", "Ann", SuperAdmin, true, None)),
                      Row("b", 0, 0, Account("b@school.in", "h", "Bob", SuperAdmin, false, None))];
      var out := Delete(t, f, "a");
      && Count(t, IsActiveSuperAdmin) == 1
      && out.1.Success? && Count(out.0, IsActiveSuperAdmin) == 0
  {
    var t := [Row("a", 0, 0, Account("a@school.in", "h", "Ann", SuperAdmin, true, None)),
              Row("b", 0, 0, Account("b@school.in", "h", "Bob", SuperAdmin, false, None))];
    assert t[1..][1..] == [];
    assert Find(t, "a") == Some(t[0]);
    assert Count(t, IsSuperAdmin) == 2;
    var left := RemoveIds(t, {"a"});
    assert t[1] in left;
    assert |left| == 1;
    assert left == [t[1]];
    assert left[1..] == [];
  }

  function Flip(a: Account): Account { a.(isActive := !a.isActive) }

  /** `toggleAdminStatus`: flips `isActive`, refusing to deactivate the last active Super
      Admin. An id the schema rejects is not reported as a validation error: the action has
      one catch-all message. */
  function Toggle(t: Admins, f: Formats, id: string, now: int): (out: (Admins, Response<AdminView>))
    ensures !f.isCuid(id) ==> out == (t, Failure(ToggleFailed))
    ensures out.1.Failure? ==> out.0 == t
    ensures f.isCuid(id) && id !in IdsOf(t) ==> out == (t, Failure(AdminNotFound))
    ensures f.isCuid(id) && Find(t, id).Some? && IsActiveSuperAdmin(Find(t, id).value) && Count(t, IsActiveSuperAdmin) <= 1 ==>
      out == (t, Failure(LastActiveSuperAdmin))
    ensures out.1.Success? <==>
      f.isCuid(id) && Find(t, id).Some? && !(IsActiveSuperAdmin(Find(t, id).value) && Count(t, IsActiveSuperAdmin) <= 1)
    ensures out.1.Success? ==>
      && out.1.data.id == id
      && out.1.message == (if out.1.data.isActive then "Admin activated successfully" else "Admin deactivated successfully")
      && |out.0| == |t|
      && (forall i :: 0 <= i < |t| ==> out.0[i].id == t[i].id)
      && (forall i :: 0 <= i < |t| ==> out.0[i].data == if t[i].id == id then t[i].data.(isActive := !t[i].data.isActive) else t[i].data)
      && (exists i :: 0 <= i < |t| && t[i].id == id && out.1.data.isActive == !t[i].data.isActive)
  {
    if !f.isCuid(id) then (t, Failure(ToggleFailed))
    else match Find(t, id)
      case None => (t, Failure(AdminNotFound))
      case Some(row) =>
        if IsActiveSuperAdmin(row) && Count(t, IsActiveSuperAdmin) <= 1 then (t, Failure(LastActiveSuperAdmin))
        else
          var updated := row.(data := Flip(row.data), updatedAt := now);
          (UpdateWhere(t, {id}, Flip, now),
           Success(View(updated), if updated.data.isActive then "Admin activated successfully" else "Admin deactivated successfully"))
  }

  /** Two toggles of an account that both succeed restore every account's columns (only
      `updatedAt` moves). The second can be refused: toggling back a Super Admin that the
      first toggle made the only active one is blocked by the last-active guard. */
  lemma ToggleTwiceRestores(t: Admins, f: Formats, id: string, now: int, later: int)
    ensures var first := Toggle(t, f, id, now);
      var second := Toggle(first.0, f, id, later);
      first.1.Success? && second.1.Success? ==>
        |second.0| == |t| && forall i :: 0 <= i < |t| ==> second.0[i].id == t[i].id && second.0[i].data == t[i].data
  {
  }

  /** Toggling never leaves a table without an active Super Admin when it had one. */
  lemma ToggleKeepsActiveSuperAdmin(t: Admins, f: Formats, id: string, now: int)
    requires ValidAdmins(t)
    requires Count(t, IsActiveSuperAdmin) >= 1
    ensures ValidAdmins(Toggle(t, f, id, now).0)
    ensures Count(Toggle(t, f, id, now).0, IsActiveSuperAdmin) >= 1
  {
    var out := Toggle(t, f, id, now);
    if out.1.Success? {
      UpdateKeepsIds(t, {id}, Flip, now);
      UpdateKeepsUnique(t, {id}, Flip, now, EmailOf);
      var row := Find(t, id).value;
      if IsActiveSuperAdmin(row) {
        CountUpdateBound(t, {id}, Flip, now, IsActiveSuperAdmin);
        AtMostOneWithId(t, id);
      } else {
        forall i | 0 <= i < |t| && t[i].id == id ensures t[i] == row {
          assert t[i] in t;
          FindUnique(t, t[i]);
        }
        CountUpdateKeeps(t, {id}, Flip, now, IsActiveSuperAdmin);
      }
    }
  }

  /** `bulkDeleteAdmins`: the ids are a set (repeats do not matter); Super Admins among them
      may go only while at least one Super Admin stays. Unknown ids are skipped, and the
      reported count is the number of rows actually removed. */
  function BulkDelete(t: Admins, ids: seq<Id>): (out: (Admins, Response<nat>))
    ensures |ids| == 0 ==> out == (t, Failure("No admins selected"))
    ensures out.1.Failure? ==> out.0 == t
    ensures |ids| > 0 ==>
      (out.1.Success? <==> Count(t, IsSuperAdmin) > Count(t, (r: Row<Account>) => IsSuperAdmin(r) && r.id in ids)
                           || Count(t, (r: Row<Account>) => IsSuperAdmin(r) && r.id in ids) == 0)
    ensures out.1.Failure? && |ids| > 0 ==> out.1.error == AllSuperAdmins
    ensures out.1.Success? ==>
      && out.1.data == |t| - |out.0|
      && out.1.data == Count(t, (r: Row<Account>) => r.id in ids)
      && out.1.message == NatToString(out.1.data) + " admin(s) deleted successfully"
      && (forall i :: 0 <= i < |out.0| ==> out.0[i] in t && out.0[i].id !in ids)
      && (forall i :: 0 <= i < |t| && t[i].id !in ids ==> t[i] in out.0)
  {
    if |ids| == 0 then (t, Failure("No admins selected"))
    else
      var s := set i | i in ids;
      var toDelete := Count(t, (r: Row<Account>) => IsSuperAdmin(r) && r.id in ids);
      if toDelete > 0 && Count(t, IsSuperAdmin) - toDelete < 1 then (t, Failure(AllSuperAdmins))
      else
        var left := RemoveIds(t, s);
        CountExt(t, IdIn(s), (r: Row<Account>) => r.id in ids);
        (left, Success(|t| - |left|, NatToString(|t| - |left|) + " admin(s) deleted successfully"))
  }

  /** Bulk deletion keeps at least one Super Admin, and the constraints. */
  lemma BulkDeleteKeepsSuperAdmin(t: Admins, ids: seq<Id>)
    requires ValidAdmins(t)
    requires Count(t, IsSuperAdmin) >= 1
    ensures ValidAdmins(BulkDelete(t, ids).0)
    ensures Count(BulkDelete(t, ids).0, IsSuperAdmin) >= 1
  {
    var out := BulkDelete(t, ids);
    if out.1.Success? {
      var s := set i | i in ids;
      RemoveKeepsValid(t, s);
      var gone := (r: Row<Account>) => IsSuperAdmin(r) && r.id in ids;
      var kept := (r: Row<Account>) => IsSuperAdmin(r) && r.id !in s;
      CountPartition(t, IsSuperAdmin, gone, kept);
      CountOfFilter(t, IdNotIn(s), IsSuperAdmin, kept);
    }
  }

  // ------------------------------------------------------------------
  // getAdminStatistics
  // ------------------------------------------------------------------

  datatype AdminStats = AdminStats(
    totalAdmins: nat,
    activeAdmins: nat,
    inactiveAdmins: nat,
    superAdmin: nat,
    admin: nat,
    editor: nat,
    viewer: nat)

  function HasRole(role: Role): Row<Account> -> bool
  {
    (r: Row<Account>) => r.data.role == role
  }

  function IsActive(r: Row<Account>): bool { r.data.isActive }

  function IsInactive(r: Row<Account>): bool { !r.data.isActive }

  function RoleCounts(t: Admins): nat
  {
    Count(t, HasRole(SuperAdmin)) + Count(t, HasRole(Admin)) + Count(t, HasRole(Editor)) + Count(t, HasRole(Viewer))
  }

  /** Every account has exactly one of the four roles. */
  lemma {:induction false} RoleCountsCoverTable(t: Admins)
    ensures RoleCounts(t) == |t|
  {
    if |t| > 0 {
      RoleCountsCoverTable(t[1..]);
    }
  }

  /** `getAdminStatistics`: the seven counts. Active and inactive accounts, and the four
      roles, each add up to the total. */
  function Statistics(t: Admins): (r: Response<AdminStats>)
    ensures r.Success? && r.message == ""
    ensures r.data.totalAdmins == |t|
    ensures r.data.activeAdmins + r.data.inactiveAdmins == r.data.totalAdmins
    ensures r.data.superAdmin + r.data.admin + r.data.editor + r.data.viewer == r.data.totalAdmins
    ensures r.data.superAdmin == Count(t, IsSuperAdmin) && r.data.admin == Count(t, HasRole(Admin))
    ensures r.data.editor == Count(t, HasRole(Editor)) && r.data.viewer == Count(t, HasRole(Viewer))
    ensures r.data.activeAdmins == Count(t, IsActive) && r.data.inactiveAdmins == Count(t, IsInactive)
  {
    CountPartition(t, _ => true, IsActive, IsInactive);
    CountAll(t, _ => true);
    RoleCountsCoverTable(t);
    CountExt(t, HasRole(SuperAdmin), IsSuperAdmin);
    Success(AdminStats(
      |t|, Count(t, IsActive), Count(t, IsInactive),
      Count(t, HasRole(SuperAdmin)), Count(t, HasRole(Admin)), Count(t, HasRole(Editor)), Count(t, HasRole(Viewer))), "")
  }
}

=== FILE: admin_schemas.dfy ===
/** The input schemas of the administrator actions: registration with its strong-password
    rule, login, profile update, password change and reset, and the listing query. */
module AdminSchemas {
  import opened Wrappers
  import opened Text
  import opened Ordering
  import opened Pagination

  datatype Role = SuperAdmin | Admin | Editor | Viewer

  function RoleName(r: Role): string
  {
    match r
    case SuperAdmin => "SUPER_ADMIN"
    case Admin => "ADMIN"
    case Editor => "EDITOR"
    case Viewer => "VIEWER"
  }

  /** `AdminRoleEnum`: exactly the four role names are accepted. */
  function ParseRole(s: string): (r: Parsed<Role>)
    ensures r.Valid? <==> exists role: Role :: RoleName(role) == s
    ensures r.Valid? ==> RoleName(r.value) == s
  {
    if s == "SUPER_ADMIN" then assert RoleName(SuperAdmin) == s; Valid(SuperAdmin)
    else if s == "ADMIN" then assert RoleName(Admin) == s; Valid(Admin)
    else if s == "EDITOR" then assert RoleName(Editor) == s; Valid(Editor)
    else if s == "VIEWER" then assert RoleName(Viewer) == s; Valid(Viewer)
    else Invalid
  }

  /** Every role parses back from its name. */
  lemma RoleRoundTrip(r: Role)
    ensures ParseRole(RoleName(r)) == Valid(r)
  {
  }

  // ------------------------------------------------------------------
  // The strong-password rule
  // ------------------------------------------------------------------

  predicate IsPasswordSpecial(c: char)
  {
    c == '@' || c == '$' || c == '!' || c == '%' || c == '*' || c == '?' || c == '&'
  }

  /** `[A-Za-z\d@$!%*?&]` */
  predicate IsPasswordChar(c: char)
  {
    IsLetter(c) || IsDigit(c) || IsPasswordSpecial(c)
  }

  /** `^(?=.*[a-z])(?=.*[A-Z])(?=.*\d)(?=.*[@$!%*?&])[A-Za-z\d@$!%*?&]{8,}$`. The body admits no
      line terminator, so each look-ahead `.*` can reach every character and reads as
      "occurs somewhere". */
  predicate MatchesPasswordPattern(s: string)
  {
    && |s| >= 8
    && (forall i :: 0 <= i < |s| ==> IsPasswordChar(s[i]))
    && (exists i :: 0 <= i < |s| && IsLower(s[i]))
    && (exists i :: 0 <= i < |s| && IsUpper(s[i]))
    && (exists i :: 0 <= i < |s| && IsDigit(s[i]))
    && (exists i :: 0 <= i < |s| && IsPasswordSpecial(s[i]))
  }

  /** The registration password: `.min(8).max(100).regex(passwordRegex)`. */
  predicate RegistrationPasswordOk(s: string)
  {
    8 <= |s| <= 100 && MatchesPasswordPattern(s)
  }

  /** The new password of a change or reset: only `.min(6).max(100)`. */
  predicate NewPasswordOk(s: string)
  {
    6 <= |s| <= 100
  }

  /** The password rule as one left-to-right scan: reject on the first character outside the
      class, remember which of the four required kinds were seen. */
  method CheckPassword(s: string) returns (ok: bool)
    ensures ok <==> RegistrationPasswordOk(s)
  {
    if |s| < 8 || |s| > 100 {
      return false;
    }
    var lower, upper, digit, special := false, false, false, false;
    var i := 0;
    while i < |s|
      invariant 0 <= i <= |s|
      invariant forall k :: 0 <= k < i ==> IsPasswordChar(s[k])
      invariant lower <==> exists k :: 0 <= k < i && IsLower(s[k])
      invariant upper <==> exists k :: 0 <= k < i && IsUpper(s[k])
      invariant digit <==> exists k :: 0 <= k < i && IsDigit(s[k])
      invariant special <==> exists k :: 0 <= k < i && IsPasswordSpecial(s[k])
    {
      var c := s[i];
      if !IsPasswordChar(c) {
        return false;
      }
      lower := lower || IsLower(c);
      upper := upper || IsUpper(c);
      digit := digit || IsDigit(c);
      special := special || IsPasswordSpecial(c);
      i := i + 1;
    }
    ok := lower && upper && digit && special;
  }

  /** A change or reset accepts every password registration accepts, and also weak ones that
      registration refuses. */
  lemma PasswordPoliciesDiffer()
    ensures forall s :: RegistrationPasswordOk(s) ==> NewPasswordOk(s)
    ensures NewPasswordOk("secret") && !RegistrationPasswordOk("secret")
  {
  }

  // ------------------------------------------------------------------
  // Schemas
  // ------------------------------------------------------------------

  /** `.email().max(100).toLowerCase()`: checked on the raw text, stored lower-cased. */
  function ParseAccountEmail(f: Formats, raw: string): (r: Parsed<string>)
    ensures r.Valid? <==> f.isEmail(raw) && |raw| <= 100
    ensures r.Valid? ==> r.value == ToLower(raw)
  {
    if f.isEmail(raw) && |raw| <= 100 then Valid(ToLower(raw)) else Invalid
  }

  /** `name: .min(2).max(100)` */
  predicate AccountNameOk(s: string)
  {
    2 <= |s| <= 100
  }

  datatype RegistrationInput = RegistrationInput(email: string, password: string, name: string, role: string)

  datatype Registration = Registration(email: string, password: string, name: string, role: Role)

  /** `adminRegistrationSchema` */
  function ParseRegistration(f: Formats, x: RegistrationInput): (r: Parsed<Registration>)
    ensures r.Valid? <==>
      && f.isEmail(x.email) && |x.email| <= 100
      && RegistrationPasswordOk(x.password)
      && AccountNameOk(x.name)
      && ParseRole(x.role).Valid?
    ensures r.Valid? ==> r.value == Registration(ToLower(x.email), x.password, x.name, ParseRole(x.role).value)
  {
    var email := ParseAccountEmail(f, x.email);
    var role := ParseRole(x.role);
    if email.Valid? && RegistrationPasswordOk(x.password) && AccountNameOk(x.name) && role.Valid? then
      Valid(Registration(email.value, x.password, x.name, role.value))
    else Invalid
  }

  /** Parsing is a normalisation: feeding a parsed registration back through the schema
      returns it unchanged. */
  lemma RegistrationIdempotent(f: Formats, x: RegistrationInput)
    requires EmailIgnoresCase(f)
    requires ParseRegistration(f, x).Valid?
    ensures var v := ParseRegistration(f, x).value;
      ParseRegistration(f, RegistrationInput(v.email, v.password, v.name, RoleName(v.role))) == Valid(v)
  {
    ToLowerNormalises(x.email);
  }

  datatype LoginInput = LoginInput(email: string, password: string)

  /** `adminLoginSchema`: a well-formed address (no length bound), lower-cased, and a
      non-empty password. */
  function ParseLogin(f: Formats, x: LoginInput): (r: Parsed<LoginInput>)
    ensures r.Valid? <==> f.isEmail(x.email) && |x.password| >= 1
    ensures r.Valid? ==> r.value == LoginInput(ToLower(x.email), x.password)
  {
    if f.isEmail(x.email) && |x.password| >= 1 then Valid(LoginInput(ToLower(x.email), x.password))
    else Invalid
  }

  /** `getAdminByEmailSchema` */
  function ParseLookupEmail(f: Formats, raw: string): (r: Parsed<string>)
    ensures r.Valid? <==> f.isEmail(raw)
    ensures r.Valid? ==> r.value == ToLower(raw)
  {
    if f.isEmail(raw) then Valid(ToLower(raw)) else Invalid
  }

  /** The raw fields of an update: each may be left out. */
  datatype UpdateInput = UpdateInput(
    id: string,
    email: Option<string>,
    name: Option<string>,
    role: Option<string>,
    isActive: Option<bool>)

  datatype Update = Update(
    id: string,
    email: Option<string>,
    name: Option<string>,
    role: Option<Role>,
    isActive: Option<bool>)

  /** `email: ….toLowerCase().optional().or(z.literal(""))`: absent, the empty string, or a
      bounded address (lower-cased). */
  function ParseOptionalEmail(f: Formats, raw: Option<string>): (r: Parsed<Option<string>>)
    ensures raw.None? ==> r == Valid(None)
    ensures raw == Some("") ==> r == Valid(Some(""))
    ensures raw.Some? && raw.value != "" ==>
      (r.Valid? <==> f.isEmail(raw.value) && |raw.value| <= 100)
    ensures r.Valid? && raw.Some? && raw.value != "" ==> r.value == Some(ToLower(raw.value))
  {
    match raw
    case None => Valid(None)
    case Some(s) =>
      var e := ParseAccountEmail(f, s);
      if e.Valid? then Valid(Some(e.value))
      else if s == "" then Valid(Some(""))
      else Invalid
  }

  /** `name: ….optional().or(z.literal(""))` */
  function ParseOptionalName(raw: Option<string>): (r: Parsed<Option<string>>)
    ensures r.Valid? <==> raw.None? || raw.value == "" || AccountNameOk(raw.value)
    ensures r.Valid? ==> r.value == raw
  {
    match raw
    case None => Valid(None)
    case Some(s) => if s == "" || AccountNameOk(s) then Valid(raw) else Invalid
  }

  /** `updateAdminSchema` */
  function ParseUpdate(f: Formats, x: UpdateInput): (r: Parsed<Update>)
    ensures r.Valid? <==>
      && f.isCuid(x.id)
      && ParseOptionalEmail(f, x.email).Valid?
      && ParseOptionalName(x.name).Valid?
      && (x.role.None? || ParseRole(x.role.value).Valid?)
    ensures r.Valid? ==> r.value.id == x.id && r.value.name == x.name && r.value.isActive == x.isActive
    ensures r.Valid? ==> (r.value.role.Some? <==> x.role.Some?)
  {
    var email := ParseOptionalEmail(f, x.email);
    var name := ParseOptionalName(x.name);
    var role := if x.role.None? then Valid(None)
      else match ParseRole(x.role.value)
        case Valid(v) => Valid(Some(v))
        case Invalid => Invalid;
    if f.isCuid(x.id) && email.Valid? && name.Valid? && role.Valid? then
      Valid(Update(x.id, email.value, name.value, role.value, x.isActive))
    else Invalid
  }

  datatype ChangePasswordInput = ChangePasswordInput(
    id: string, currentPassword: string, newPassword: string, confirmPassword: string)

  /** The input paths a change-password issue can be reported on. */
  datatype PasswordPath = IdPath | CurrentPasswordPath | NewPasswordPath | ConfirmPasswordPath

  /** `changePasswordSchema`: the issues, by path. The equality refinement runs even when a
      field check failed (the object is then dirty, not aborted), and reports on
      `confirmPassword`. */
  function ChangePasswordIssues(f: Formats, x: ChangePasswordInput): (issues: set<PasswordPath>)
    ensures IdPath in issues <==> !f.isCuid(x.id)
    ensures CurrentPasswordPath in issues <==> |x.currentPassword| < 1
    ensures NewPasswordPath in issues <==> !NewPasswordOk(x.newPassword)
    ensures ConfirmPasswordPath in issues <==> |x.confirmPassword| < 1 || x.newPassword != x.confirmPassword
  {
    (if f.isCuid(x.id) then {} else {IdPath})
    + (if |x.currentPassword| >= 1 then {} else {CurrentPasswordPath})
    + (if NewPasswordOk(x.newPassword) then {} else {NewPasswordPath})
    + (if |x.confirmPassword| >= 1 then {} else {ConfirmPasswordPath})
    + (if x.newPassword == x.confirmPassword then {} else {ConfirmPasswordPath})
  }

  function ParseChangePassword(f: Formats, x: ChangePasswordInput): (r: Parsed<ChangePasswordInput>)
    ensures r.Valid? <==> ChangePasswordIssues(f, x) == {}
    ensures r.Valid? ==> r.value == x
  {
    if ChangePasswordIssues(f, x) == {} then Valid(x) else Invalid
  }

  /** A change is accepted only when the confirmation repeats the new password, and a
      mismatch is always reported on the confirmation field. */
  lemma ChangePasswordNeedsConfirmation(f: Formats, x: ChangePasswordInput)
    ensures ParseChangePassword(f, x).Valid? ==> x.newPassword == x.confirmPassword && NewPasswordOk(x.newPassword)
    ensures x.newPassword != x.confirmPassword ==> ConfirmPasswordPath in ChangePasswordIssues(f, x)
  {
  }

  datatype ResetPasswordInput = ResetPasswordInput(id: string, newPassword: string)

  /** `resetPasswordSchema` */
  function ParseResetPassword(f: Formats, x: ResetPasswordInput): (r: Parsed<ResetPasswordInput>)
    ensures r.Valid? <==> f.isCuid(x.id) && NewPasswordOk(x.newPassword)
    ensures r.Valid? ==> r.value == x
  {
    if f.isCuid(x.id) && NewPasswordOk(x.newPassword) then Valid(x) else Invalid
  }

  /** The columns an administrator listing can be ordered by. */
  datatype AdminSortField = ByCreatedAt | ByUpdatedAt | ByName | ByEmail | ByLastLogin

  function AdminSortFieldName(field: AdminSortField): string
  {
    match field
    case ByCreatedAt => "createdAt"
    case ByUpdatedAt => "updatedAt"
    case ByName => "name"
    case ByEmail => "email"
    case ByLastLogin => "lastLogin"
  }

  function ParseAdminSortField(raw: Option<string>): (r: Parsed<AdminSortField>)
    ensures raw.None? ==> r == Valid(ByCreatedAt)
    ensures raw.Some? ==> (r.Valid? <==> raw.value in ["createdAt", "updatedAt", "name", "email", "lastLogin"])
    ensures raw.Some? && r.Valid? ==> AdminSortFieldName(r.value) == raw.value
  {
    match raw
    case None => Valid(ByCreatedAt)
    case Some(s) =>
      if s == "createdAt" then Valid(ByCreatedAt)
      else if s == "updatedAt" then Valid(ByUpdatedAt)
      else if s == "name" then Valid(ByName)
      else if s == "email" then Valid(ByEmail)
      else if s == "lastLogin" then Valid(ByLastLogin)
      else Invalid
  }

  datatype AdminQueryInput = AdminQueryInput(
    page: Option<Number>,
    limit: Option<Number>,
    role: Option<string>,
    isActive: Option<bool>,
    searchQuery: Option<string>,
    sortBy: Option<string>,
    sortOrder: Option<string>)

  datatype AdminQuery = AdminQuery(
    page: int,
    limit: int,
    role: Option<Role>,
    isActive: Option<bool>,
    searchQuery: Option<string>,
    sortBy: AdminSortField,
    sortOrder: Direction)

  /** `getAdminsQuerySchema`. A missing query object is rejected like any other malformed one. */
  function ParseAdminQuery(raw: Option<AdminQueryInput>): (r: Parsed<AdminQuery>)
    ensures raw.None? ==> r.Invalid?
    ensures r.Valid? <==>
      && raw.Some?
      && ParsePage(raw.value.page).Valid? && ParseLimit(raw.value.limit).Valid?
      && (raw.value.role.Some? ==> ParseRole(raw.value.role.value).Valid?)
      && ParseAdminSortField(raw.value.sortBy).Valid? && ParseOrder(raw.value.sortOrder).Valid?
    ensures r.Valid? ==> r.value.page >= 1 && 1 <= r.value.limit <= 100
    ensures r.Valid? ==> r.value.page as real == if raw.value.page.Some? then raw.value.page.value else 1.0
    ensures r.Valid? ==> r.value.limit as real == if raw.value.limit.Some? then raw.value.limit.value else 10.0
    ensures r.Valid? ==> if raw.value.sortBy.Some? then AdminSortFieldName(r.value.sortBy) == raw.value.sortBy.value
                         else r.value.sortBy == ByCreatedAt
    ensures r.Valid? ==> (r.value.sortOrder == Asc <==> raw.value.sortOrder == Some("asc"))
    ensures r.Valid? ==> r.value.searchQuery == raw.value.searchQuery && r.value.isActive == raw.value.isActive
    ensures r.Valid? ==> (r.value.role.Some? <==> raw.value.role.Some?)
    ensures r.Valid? ==> (r.value.role.Some? ==> RoleName(r.value.role.value) == raw.value.role.value)
    ensures raw.Some? && raw.value.page.None? && raw.value.limit.None? && raw.value.role.None?
            && raw.value.sortBy.None? && raw.value.sortOrder.None? ==>
      r.Valid? && r.value.page == 1 && r.value.limit == 10 && r.value.sortBy == ByCreatedAt && r.value.sortOrder == Desc
  {
    match raw
    case None => Invalid
    case Some(q) =>
      var page := ParsePage(q.page);
      var limit := ParseLimit(q.limit);
      var role := if q.role.None? then Valid(None)
        else match ParseRole(q.role.value)
          case Valid(v) => Valid(Some(v))
          case Invalid => Invalid;
      var sortBy := ParseAdminSortField(q.sortBy);
      var order := ParseOrder(q.sortOrder);
      if page.Valid? && limit.Valid? && role.Valid? && sortBy.Valid? && order.Valid? then
        Valid(AdminQuery(page.value, limit.value, role.value, q.isActive, q.searchQuery, sortBy.value, order.value))
      else Invalid
  }

  /** The query as a caller would write it, every field spelled out. */
  function AdminQueryInputOf(q: AdminQuery): AdminQueryInput
  {
    AdminQueryInput(Some(q.page as real), Some(q.limit as real),
                    if q.role.Some? then Some(RoleName(q.role.value)) else None,
                    q.isActive, q.searchQuery, Some(AdminSortFieldName(q.sortBy)), Some(OrderName(q.sortOrder)))
  }

  /** Every query the schema can produce parses back from its written form. */
  lemma AdminQueryRoundTrip(q: AdminQuery)
    requires q.page >= 1 && 1 <= q.limit <= 100
    ensures ParseAdminQuery(Some(AdminQueryInputOf(q))) == Valid(q)
  {
    PagingRoundTrips(q.page, q.limit, q.sortOrder);
    if q.role.Some? {
      RoleRoundTrip(q.role.value);
    }
  }

  /** The same query asking for page `k`. */
  function AtPage(raw: Option<AdminQueryInput>, k: int): Option<AdminQueryInput>
  {
    if raw.Some? then Some(raw.value.(page := Some(k as real))) else None
  }

  /** Asking for another page changes only the parsed page. */
  lemma AtPageMovesOnlyPage(raw: Option<AdminQueryInput>, k: int)
    requires ParseAdminQuery(raw).Valid? && k >= 1
    ensures ParseAdminQuery(AtPage(raw, k)) == Valid(ParseAdminQuery(raw).value.(page := k))
  {
    PagingRoundTrips(k, 1, Asc);
  }
}

=== FILE: admission_actions.dfy ===
/** The admission-application server actions over the `admissionApplication` table: the
    public submission (with its generated application number), the paged listing, lookups,
    the review of one or many applications, deletion and the statistics. */
module AdmissionActions {
  import opened Wrappers
  import opened Text
  import opened Decimal
  import opened Table
  import opened Ordering
  import opened Pagination
  import opened Listing
  import opened AdmissionSchemas

  /** A stored application: the validated form plus the columns the office maintains. */
  datatype Application = Application(
    form: ApplicationForm,
    applicationNumber: string,
    status: ApplicationStatus,
    remarks: Option<string>,
    reviewedBy: Option<string>,
    reviewedAt: Option<int>)

  type Applications = seq<Row<Application>>

  function NumberOf(a: Application): string { a.applicationNumber }

  function YearOf(a: Application): string { a.form.academic.academicYear }

  function AadharOf(a: Application): Option<string> { a.form.student.aadharNumber }

  /** Aadhar numbers are unique among the applications that give one. */
  predicate UniqueAadhar(t: Applications)
  {
    forall i, j :: 0 <= i < |t| && 0 <= j < |t| && i != j && AadharOf(t[i].data).Some? ==>
      AadharOf(t[i].data) != AadharOf(t[j].data)
  }

  /** The table's integrity constraints: unique ids, application numbers and Aadhar numbers. */
  predicate ValidApplications(t: Applications)
  {
    DistinctIds(t) && UniqueBy(t, NumberOf) && UniqueAadhar(t)
  }

  const ApplicationNotFound := "Application not found"
  const InvalidApplicationId := "Invalid application ID"
  const DuplicateEntry := "Duplicate entry. Aadhar number already exists."
  const BulkUpdateFailed := "Failed to update applications. Please try again."

  // ------------------------------------------------------------------
  // generateApplicationNumber
  // ------------------------------------------------------------------

  /** `academicYear.split("-")[0]`: the text before the first hyphen, or all of it. */
  function YearPrefix(s: string): (r: string)
    ensures |r| <= |s| && r == s[..|r|]
    ensures forall i :: 0 <= i < |r| ==> r[i] != '-'
    ensures |r| < |s| ==> s[|r|] == '-'
  {
    if |s| == 0 || s[0] == '-' then ""
    else
      var rest := YearPrefix(s[1..]);
      assert s[1..][..|rest|] == s[1..|rest| + 1];
      [s[0]] + rest
  }

  /** Cutting at the first hyphen recovers the two halves of a hyphenated text. */
  lemma {:induction false} YearPrefixOfJoin(a: string, b: string)
    requires forall i :: 0 <= i < |a| ==> a[i] != '-'
    ensures YearPrefix(a + "-" + b) == a
  {
    var s := a + "-" + b;
    if |a| > 0 {
      assert s[1..] == a[1..] + "-" + b;
      YearPrefixOfJoin(a[1..], b);
    }
  }

  function InYear(year: string): Row<Application> -> bool
  {
    (r: Row<Application>) => YearOf(r.data) == year
  }

  /** `generateApplicationNumber`: `BW`, the first part of the academic year, and one more
      than the number of applications already filed for exactly that academic year, padded
      to four digits. */
  function ApplicationNumber(t: Applications, year: string): string
  {
    "BW" + YearPrefix(year) + Pad4(Count(t, InYear(year)) + 1)
  }

  /** For a well-formed academic year and fewer than 9999 earlier applications the number
      has ten characters: `BW`, the four-digit starting year, and the sequence number
      (which reads back as one more than the count). */
  lemma ApplicationNumberShape(t: Applications, year: string)
    requires IsAcademicYear(year)
    requires Count(t, InYear(year)) < 9999
    ensures var n := ApplicationNumber(t, year);
      && |n| == 10 && n[..2] == "BW" && n[2..6] == year[..4]
      && AllDigits(n[6..]) && ParseDigits(n[6..]) == Count(t, InYear(year)) + 1
  {
    var k := Count(t, InYear(year)) + 1;
    StartYear(year);
    Pad4RoundTrip(k);
    var p := YearPrefix(year);
    var d := Pad4(k);
    var n := ApplicationNumber(t, year);
    assert n == "BW" + p + d;
    assert n[..2] == "BW";
    assert n[2..6] == p;
    assert n[6..] == d;
  }

  /** The first part of a well-formed academic year is its four-digit starting year. */
  lemma StartYear(year: string)
    requires IsAcademicYear(year)
    ensures YearPrefix(year) == year[..4]
  {
    assert year == year[..4] + "-" + year[5..];
    forall i | 0 <= i < 4 ensures year[..4][i] != '-' {
      assert IsDigit(year[..4][i]);
    }
    YearPrefixOfJoin(year[..4], year[5..]);
  }

  /** Filing one more application in a year moves that year's next number on. */
  lemma NextNumberAdvances(t: Applications, r: Row<Application>)
    ensures ApplicationNumber(t + [r], YearOf(r.data)) != ApplicationNumber(t, YearOf(r.data))
  {
    var year := YearOf(r.data);
    CountAppend(t, [r], InYear(year));
    Pad4Injective(Count(t, InYear(year)) + 1, Count(t + [r], InYear(year)) + 1);
    var p := "BW" + YearPrefix(year);
    assert ApplicationNumber(t + [r], year)[|p|..] == Pad4(Count(t + [r], InYear(year)) + 1);
    assert ApplicationNumber(t, year)[|p|..] == Pad4(Count(t, InYear(year)) + 1);
  }

  /** The number is counted per exact academic year but keeps only the starting year, so
      the first applications of two academic years that start in the same year get the same
      number. */
  lemma SharedStartYearCollides()
    ensures IsAcademicYear("2025-26") && IsAcademicYear("2025-27")
    ensures ApplicationNumber([], "2025-26") == ApplicationNumber([], "2025-27") == "BW20250001"
  {
    assert "2025-26"[..4] == "2025" && "2025-26"[5..] == "26";
    assert "2025-27"[..4] == "2025" && "2025-27"[5..] == "27";
    FirstNumberOf2025("2025-26");
    FirstNumberOf2025("2025-27");
  }

  /** The first application of an academic year starting in 2025 is numbered BW20250001. */
  lemma FirstNumberOf2025(year: string)
    requires IsAcademicYear(year) && year[..4] == "2025"
    ensures ApplicationNumber([], year) == "BW20250001"
  {
    StartYear(year);
    FirstSequenceNumber();
    assert Count<Row<Application>>([], InYear(year)) == 0;
  }

  lemma FirstSequenceNumber()
    ensures Pad4(1) == "0001"
  {
    assert NatToString(1) == "1";
    assert Repeat('0', 3) == "000";
  }

  // ------------------------------------------------------------------
  // createAdmissionApplication
  // ------------------------------------------------------------------

  /** The new row would break one of the table's unique constraints (id, application number
      or Aadhar number): the database's P2002. */
  predicate Clashes(t: Applications, id: Id, number: string, aadhar: Option<string>)
  {
    || id in IdsOf(t)
    || (exists i :: 0 <= i < |t| && t[i].data.applicationNumber == number)
    || (aadhar.Some? && exists i :: 0 <= i < |t| && AadharOf(t[i].data) == aadhar)
  }

  const SubmittedPrefix := "Application submitted successfully! Your application number is "

  /** `createAdmissionApplication`: stores the validated form as a PENDING application under
      the generated number. Any unique-constraint clash, including a repeated generated
      number, is reported as a duplicate Aadhar number. */
  function Create(t: Applications, f: Formats, nowYear: int, x: ApplicationInput, newId: Id, now: int): (out: (Applications, Response<Row<Application>>))
    ensures ParseApplication(f, nowYear, x).Invalid? ==> out == (t, Failure(ValidationFailed))
    ensures out.1.Failure? ==> out.0 == t
    ensures ParseApplication(f, nowYear, x).Valid? ==>
      var number := ApplicationNumber(t, x.academic.academicYear);
      (out.1.Success? <==> !Clashes(t, newId, number, x.student.aadharNumber))
      && (out.1.Failure? ==> out.1.error == DuplicateEntry)
    ensures out.1.Success? ==>
      var row := out.1.data;
      && out.0 == t + [row]
      && row.id == newId && row.createdAt == now && row.updatedAt == now
      && row.data.form == ParseApplication(f, nowYear, x).value
      && row.data.applicationNumber == ApplicationNumber(t, x.academic.academicYear)
      && row.data.status == Pending
      && row.data.remarks.None? && row.data.reviewedBy.None? && row.data.reviewedAt.None?
      && out.1.message == SubmittedPrefix + row.data.applicationNumber
  {
    match ParseApplication(f, nowYear, x)
    case Invalid => (t, Failure(ValidationFailed))
    case Valid(form) =>
      var number := ApplicationNumber(t, form.academic.academicYear);
      if Clashes(t, newId, number, form.student.aadharNumber) then (t, Failure(DuplicateEntry))
      else
        var row := Row(newId, now, now, Application(form, number, Pending, None, None, None));
        (t + [row], Success(row, SubmittedPrefix + number))
  }

  /** Submission keeps the table's integrity constraints. */
  lemma CreateKeepsValid(t: Applications, f: Formats, nowYear: int, x: ApplicationInput, newId: Id, now: int)
    requires ValidApplications(t)
    ensures ValidApplications(Create(t, f, nowYear, x, newId, now).0)
  {
    var out := Create(t, f, nowYear, x, newId, now);
    if out.1.Success? {
      var row := out.1.data;
      AppendKeepsUnique(t, row, NumberOf);
      assert out.0 == t + [row];
      forall i, j | 0 <= i < |out.0| && 0 <= j < |out.0| && i != j && AadharOf(out.0[i].data).Some?
        ensures AadharOf(out.0[i].data) != AadharOf(out.0[j].data)
      {
        if j == |t| {
          assert out.0[i] == t[i];
        } else if i == |t| {
          assert out.0[j] == t[j];
        }
      }
    }
  }

  /** After a deletion the count for a year drops, so the next number can repeat one still
      in use, and the submission is refused as a duplicate: with applications 0001 and 0002
      of a year on file, deleting 0001 makes the next number 0002 again. */
  lemma NumberRepeatsAfterDelete(a: Row<Application>, b: Row<Application>)
    requires YearOf(a.data) == YearOf(b.data) && a.id != b.id
    requires b.data.applicationNumber == ApplicationNumber([a], YearOf(b.data))
    ensures ApplicationNumber(RemoveIds([a, b], {a.id}), YearOf(b.data)) == b.data.applicationNumber
    ensures Clashes(RemoveIds([a, b], {a.id}), "fresh", ApplicationNumber(RemoveIds([a, b], {a.id}), YearOf(b.data)), None)
  {
    var year := YearOf(b.data);
    var left := RemoveIds([a, b], {a.id});
    assert [a, b][1..] == [b];
    assert [b][1..] == [];
    assert left == [b];
    assert [a][1..] == [];
    assert Count(left, InYear(year)) == 1 == Count([a], InYear(year));
    assert left[0].data.applicationNumber == b.data.applicationNumber;
  }

  // ------------------------------------------------------------------
  // getAllAdmissionApplications, getAdmissionApplicationById/ByNumber
  // ------------------------------------------------------------------

  /** The `where` clause of the listing: status, academic year and class when given, and a
      substring of the student's first or last name, the application number, or a parent's
      name. */
  function ApplicationMatches(q: ApplicationQuery): Row<Application> -> bool
  {
    (r: Row<Application>) =>
      && (q.status.None? || r.data.status == q.status.value)
      && (!Given(q.academicYear) || r.data.form.academic.academicYear == q.academicYear.value)
      && (!Given(q.classApplyingFor) || r.data.form.academic.classApplyingFor == q.classApplyingFor.value)
      && (!Given(q.searchQuery) || MatchesSearch(r.data, q.searchQuery.value))
  }

  predicate MatchesSearch(a: Application, s: string)
  {
    || Contains(a.form.student.firstName, s)
    || Contains(a.form.student.lastName, s)
    || Contains(a.applicationNumber, s)
    || Contains(a.form.family.fatherName, s)
    || Contains(a.form.family.motherName, s)
  }

  function ApplicationKey(field: ApplicationSortField): Row<Application> -> SortKey
  {
    (r: Row<Application>) =>
      match field
      case SortByCreatedAt => Num(r.createdAt)
      case SortByUpdatedAt => Num(r.updatedAt)
      case SortByApplicationNumber => Str(r.data.applicationNumber)
  }

  /** `getAllAdmissionApplications` */
  function ListApplications(t: Applications, raw: Option<ApplicationQueryInput>): (r: Response<Page<Row<Application>>>)
    ensures r.Failure? <==> ParseApplicationQuery(raw).Invalid?
    ensures r.Failure? ==> r.error == InvalidQuery
    ensures r.Success? ==>
      var q := ParseApplicationQuery(raw).value;
      && r.data.pagination == Paginate(q.page, q.limit, Count(t, ApplicationMatches(q)))
      && r.data.items == TakePage(Ordered(t, ApplicationMatches(q), ApplicationKey(q.sortBy), q.sortOrder), q.page, q.limit)
      && |r.data.items| == PageSize(q.page, q.limit, Count(t, ApplicationMatches(q)))
      && SortedBy(r.data.items, ApplicationKey(q.sortBy), q.sortOrder)
      && multiset(r.data.items) <= multiset(Filter(t, ApplicationMatches(q)))
      && (forall i :: 0 <= i < |r.data.items| ==>
            && r.data.items[i] in t
            && (q.status.Some? ==> r.data.items[i].data.status == q.status.value)
            && (Given(q.academicYear) ==> r.data.items[i].data.form.academic.academicYear == q.academicYear.value)
            && (Given(q.classApplyingFor) ==> r.data.items[i].data.form.academic.classApplyingFor == q.classApplyingFor.value)
            && (Given(q.searchQuery) ==> MatchesSearch(r.data.items[i].data, q.searchQuery.value)))
  {
    match ParseApplicationQuery(raw)
    case Invalid => Failure(InvalidQuery)
    case Valid(q) =>
      Success(ListPage(t, ApplicationMatches(q), ApplicationKey(q.sortBy), q.sortOrder, q.page, q.limit), "")
  }

  /** Every application the query matches is listed on one of the pages the listing
      announces. */
  lemma EveryMatchingApplicationIsListed(t: Applications, raw: Option<ApplicationQueryInput>, x: Row<Application>)
    requires ParseApplicationQuery(raw).Valid?
    requires x in t && ApplicationMatches(ParseApplicationQuery(raw).value)(x)
    ensures exists k :: 1 <= k <= ListApplications(t, raw).data.pagination.totalPages
                        && x in ListApplications(t, AtPage(raw, k)).data.items
  {
    var q := ParseApplicationQuery(raw).value;
    EveryMatchOnSomePage(t, ApplicationMatches(q), ApplicationKey(q.sortBy), q.sortOrder, q.limit, x);
    var k :| 1 <= k <= ListPage(t, ApplicationMatches(q), ApplicationKey(q.sortBy), q.sortOrder, 1, q.limit).pagination.totalPages
             && x in ListPage(t, ApplicationMatches(q), ApplicationKey(q.sortBy), q.sortOrder, k, q.limit).items;
    AtPageMovesOnlyPage(raw, k);
    assert x in ListApplications(t, AtPage(raw, k)).data.items;
  }

  /** `getAdmissionApplicationById` */
  function GetById(t: Applications, f: Formats, id: string): (r: Response<Row<Application>>)
    ensures !f.isCuid(id) ==> r == Failure(InvalidApplicationId)
    ensures f.isCuid(id) ==> (r.Success? <==> id in IdsOf(t))
    ensures f.isCuid(id) && r.Failure? ==> r.error == ApplicationNotFound
    ensures r.Success? ==> r.data in t && r.data.id == id
  {
    if !f.isCuid(id) then Failure(InvalidApplicationId)
    else match Find(t, id)
      case None => Failure(ApplicationNotFound)
      case Some(row) => Success(row, "")
  }

  /** `getAdmissionApplicationByNumber`: a missing or whitespace-only number is refused
      before the lookup; the number is matched exactly, untrimmed. */
  function GetByNumber(t: Applications, number: string): (r: Response<Row<Application>>)
    ensures IsBlank(number) ==> r == Failure("Application number is required")
    ensures !IsBlank(number) ==>
      (r.Success? <==> exists i :: 0 <= i < |t| && t[i].data.applicationNumber == number)
    ensures !IsBlank(number) && r.Failure? ==> r.error == ApplicationNotFound
    ensures r.Success? ==> r.data in t && r.data.data.applicationNumber == number
  {
    TrimEmptyIffBlank(number);
    if number == "" || Trim(number) == "" then Failure("Application number is required")
    else match FindBy(t, NumberOf, number)
      case None =>
        assert forall i :: 0 <= i < |t| ==> NumberOf(t[i].data) == t[i].data.applicationNumber;
        Failure(ApplicationNotFound)
      case Some(row) => Success(row, "")
  }

  /** A submitted application can be found again by the id it was stored under. */
  lemma SubmittedIsFoundById(t: Applications, f: Formats, nowYear: int, x: ApplicationInput, newId: Id, now: int)
    requires ValidApplications(t) && f.isCuid(newId)
    requires Create(t, f, nowYear, x, newId, now).1.Success?
    ensures var out := Create(t, f, nowYear, x, newId, now);
      GetById(out.0, f, newId) == Success(out.1.data, "")
  {
    var out := Create(t, f, nowYear, x, newId, now);
    CreateKeepsValid(t, f, nowYear, x, newId, now);
    assert out.0[|t|] in out.0;
    FindUnique(out.0, out.0[|t|]);
  }

  /** A submitted application can be found again by the number its confirmation message
      announces. */
  lemma SubmittedIsFoundByNumber(t: Applications, f: Formats, nowYear: int, x: ApplicationInput, newId: Id, now: int)
    requires ValidApplications(t)
    requires Create(t, f, nowYear, x, newId, now).1.Success?
    ensures var out := Create(t, f, nowYear, x, newId, now);
      GetByNumber(out.0, out.1.message[|SubmittedPrefix|..]) == Success(out.1.data, "")
  {
    var out := Create(t, f, nowYear, x, newId, now);
    var number := out.1.data.data.applicationNumber;
    assert out.1.message[|SubmittedPrefix|..] == number;
    assert number[0] == 'B';
    assert !IsBlank(number);
    CreateKeepsValid(t, f, nowYear, x, newId, now);
    assert out.1.data == out.0[|t|];
    FindByUnique(out.0, NumberOf, out.1.data);
  }

  // ------------------------------------------------------------------
  // updateAdmissionApplicationStatus, bulkUpdateApplicationStatus
  // ------------------------------------------------------------------

  /** The review columns a status update writes; `remarks` follows the ORM's rule for an
      omitted, null or given field. */
  function Review(status: ApplicationStatus, remarks: Field<string>, reviewedBy: string, now: int): Application -> Application
  {
    (a: Application) => a.(status := status, remarks := Apply(a.remarks, remarks), reviewedBy := Some(reviewedBy), reviewedAt := Some(now))
  }

  /** `updateAdmissionApplicationStatus`: sets the status, the reviewer and the review time,
      and the remarks when given; the form and the number are never touched. */
  function UpdateStatus(t: Applications, f: Formats, x: StatusUpdateInput, now: int): (out: (Applications, Response<Row<Application>>))
    ensures ParseStatusUpdate(f, x).Invalid? ==> out == (t, Failure(ValidationFailed))
    ensures out.1.Failure? ==> out.0 == t
    ensures ParseStatusUpdate(f, x).Valid? ==> (out.1.Success? <==> x.id in IdsOf(t))
    ensures ParseStatusUpdate(f, x).Valid? && x.id !in IdsOf(t) ==> out.1 == Failure(ApplicationNotFound)
    ensures out.1.Success? ==>
      && out.1.message == "Application status updated successfully"
      && |out.0| == |t|
      && (forall i :: 0 <= i < |t| && t[i].id != x.id ==> out.0[i] == t[i])
      && (forall i :: 0 <= i < |t| && t[i].id == x.id ==>
            && out.0[i].id == t[i].id && out.0[i].createdAt == t[i].createdAt && out.0[i].updatedAt == now
            && out.0[i].data.form == t[i].data.form
            && out.0[i].data.applicationNumber == t[i].data.applicationNumber
            && StatusName(out.0[i].data.status) == x.status
            && out.0[i].data.reviewedBy == Some(x.reviewedBy) && out.0[i].data.reviewedAt == Some(now)
            && (x.remarks.Absent? ==> out.0[i].data.remarks == t[i].data.remarks)
            && (x.remarks.Null? ==> out.0[i].data.remarks.None?)
            && (x.remarks.Present? ==> out.0[i].data.remarks == Some(x.remarks.value)))
      && out.1.data.id == x.id && out.1.data in out.0
  {
    match ParseStatusUpdate(f, x)
    case Invalid => (t, Failure(ValidationFailed))
    case Valid(u) =>
      match Find(t, u.id)
      case None => (t, Failure(ApplicationNotFound))
      case Some(row) =>
        var t' := UpdateWhere(t, {u.id}, Review(u.status, u.remarks, u.reviewedBy, now), now);
        var i :| 0 <= i < |t| && t[i] == row;
        assert t'[i] in t';
        (t', Success(t'[i], "Application status updated successfully"))
  }

  /** Reviewing never changes a number or an Aadhar number, so it keeps the constraints. */
  lemma ReviewKeepsValid(t: Applications, ids: set<Id>, st: ApplicationStatus, remarks: Field<string>, reviewer: string, now: int)
    requires ValidApplications(t)
    ensures ValidApplications(UpdateWhere(t, ids, Review(st, remarks, reviewer, now), now))
  {
    UpdateKeepsIds(t, ids, Review(st, remarks, reviewer, now), now);
    UpdateKeepsUnique(t, ids, Review(st, remarks, reviewer, now), now, NumberOf);
  }

  /** `bulkUpdateApplicationStatus`: the status string is passed to the database unchecked,
      so a value outside the six statuses makes the whole update fail; the remarks are left
      alone and the reported count is the number of rows whose id was listed. */
  function BulkUpdateStatus(t: Applications, ids: seq<Id>, status: string, reviewedBy: string, now: int): (out: (Applications, Response<nat>))
    ensures |ids| == 0 ==> out == (t, Failure("No applications selected"))
    ensures out.1.Failure? ==> out.0 == t
    ensures |ids| > 0 ==> (out.1.Success? <==> exists st :: StatusName(st) == status)
    ensures |ids| > 0 && out.1.Failure? ==> out.1.error == BulkUpdateFailed
    ensures out.1.Success? ==>
      && out.1.data == Count(t, (r: Row<Application>) => r.id in ids)
      && out.1.message == NatToString(out.1.data) + " application(s) updated successfully"
      && |out.0| == |t|
      && (forall i :: 0 <= i < |t| && t[i].id !in ids ==> out.0[i] == t[i])
      && (forall i :: 0 <= i < |t| && t[i].id in ids ==>
            && out.0[i].data.form == t[i].data.form
            && out.0[i].data.applicationNumber == t[i].data.applicationNumber
            && out.0[i].data.remarks == t[i].data.remarks
            && StatusName(out.0[i].data.status) == status
            && out.0[i].data.reviewedBy == Some(reviewedBy) && out.0[i].data.reviewedAt == Some(now))
  {
    if |ids| == 0 then (t, Failure("No applications selected"))
    else match ParseStatus(status)
      case Invalid => (t, Failure(BulkUpdateFailed))
      case Valid(st) =>
        assert StatusName(st) == status;
        var s := set i | i in ids;
        var n := Count(t, IdIn(s));
        CountExt(t, IdIn(s), (r: Row<Application>) => r.id in ids);
        (UpdateWhere(t, s, Review(st, Absent, reviewedBy, now), now),
         Success(n, NatToString(n) + " application(s) updated successfully"))
  }

  /** After a bulk update every selected application that exists reads back with the new
      status and reviewer, its remarks untouched. */
  lemma BulkUpdatedReadsBack(t: Applications, f: Formats, ids: seq<Id>, status: string, reviewedBy: string, now: int, id: Id)
    requires ValidApplications(t) && f.isCuid(id)
    requires BulkUpdateStatus(t, ids, status, reviewedBy, now).1.Success?
    requires id in ids && id in IdsOf(t)
    ensures var r := GetById(BulkUpdateStatus(t, ids, status, reviewedBy, now).0, f, id);
      && r.Success?
      && StatusName(r.data.data.status) == status
      && r.data.data.reviewedBy == Some(reviewedBy) && r.data.data.reviewedAt == Some(now)
      && r.data.data.remarks == Find(t, id).value.data.remarks
  {
    var out := BulkUpdateStatus(t, ids, status, reviewedBy, now);
    var i :| 0 <= i < |t| && t[i] == Find(t, id).value;
    var st := ParseStatus(status).value;
    var s := set j | j in ids;
    UpdateKeepsIds(t, s, Review(st, Absent, reviewedBy, now), now);
    assert out.0 == UpdateWhere(t, s, Review(st, Absent, reviewedBy, now), now);
    assert out.0[i] in out.0;
    FindUnique(out.0, out.0[i]);
  }

  // ------------------------------------------------------------------
  // deleteAdmissionApplication
  // ------------------------------------------------------------------

  /** `deleteAdmissionApplication` */
  function Delete(t: Applications, f: Formats, id: string): (out: (Applications, Response<()>))
    ensures !f.isCuid(id) ==> out == (t, Failure(InvalidApplicationId))
    ensures out.1.Failure? ==> out.0 == t
    ensures f.isCuid(id) ==> (out.1.Success? <==> id in IdsOf(t))
    ensures f.isCuid(id) && id !in IdsOf(t) ==> out.1 == Failure(ApplicationNotFound)
    ensures out.1.Success? ==>
      && out.1.message == "Application deleted successfully"
      && |out.0| == |t| - Count(t, IdIn({id}))
      && (forall i :: 0 <= i < |out.0| ==> out.0[i] in t && out.0[i].id != id)
      && (forall i :: 0 <= i < |t| && t[i].id != id ==> t[i] in out.0)
  {
    if !f.isCuid(id) then (t, Failure(InvalidApplicationId))
    else if id !in IdsOf(t) then (t, Failure(ApplicationNotFound))
    else (RemoveIds(t, {id}), Success((), "Application deleted successfully"))
  }

  /** Deletion keeps the table's integrity constraints. */
  lemma DeleteKeepsValid(t: Applications, f: Formats, id: string)
    requires ValidApplications(t)
    ensures ValidApplications(Delete(t, f, id).0)
  {
    var out := Delete(t, f, id);
    if out.1.Success? {
      FilterKeepsDistinct(t, IdNotIn({id}));
      FilterKeepsUnique(t, IdNotIn({id}), NumberOf);
      var left := out.0;
      forall i, j | 0 <= i < |left| && 0 <= j < |left| && i != j && AadharOf(left[i].data).Some?
        ensures AadharOf(left[i].data) != AadharOf(left[j].data)
      {
        var a :| 0 <= a < |t| && t[a] == left[i];
        var b :| 0 <= b < |t| && t[b] == left[j];
        assert left[i].id != left[j].id;
      }
    }
  }

  // ------------------------------------------------------------------
  // getAdmissionStatistics
  // ------------------------------------------------------------------

  datatype AdmissionStats = AdmissionStats(
    totalApplications: nat,
    pendingApplications: nat,
    approvedApplications: nat,
    rejectedApplications: nat,
    admittedApplications: nat)

  /** The rows a statistics call covers: the given academic year, or all. */
  function InScope(academicYear: Option<string>): Row<Application> -> bool
  {
    (r: Row<Application>) => !Given(academicYear) || YearOf(r.data) == academicYear.value
  }

  function InScopeWith(academicYear: Option<string>, st: ApplicationStatus): Row<Application> -> bool
  {
    (r: Row<Application>) => InScope(academicYear)(r) && r.data.status == st
  }

  /** The applications in scope that are neither pending, approved, rejected nor admitted:
      those under review or waitlisted, which the statistics do not report. */
  function Unreported(academicYear: Option<string>): Row<Application> -> bool
  {
    (r: Row<Application>) => InScope(academicYear)(r) && (r.data.status == UnderReview || r.data.status == Waitlisted)
  }

  /** The four reported statuses and the unreported rest add up to the total in scope. */
  lemma {:induction false} StatusCountsAddUp(t: Applications, year: Option<string>)
    ensures Count(t, InScope(year)) ==
      Count(t, InScopeWith(year, Pending)) + Count(t, InScopeWith(year, Approved))
      + Count(t, InScopeWith(year, Rejected)) + Count(t, InScopeWith(year, Admitted))
      + Count(t, Unreported(year))
  {
    if |t| > 0 {
      StatusCountsAddUp(t[1..], year);
    }
  }

  /** `getAdmissionStatistics`: the counts for one academic year (or all when none is
      given). The four reported statuses never exceed the total; what is missing is exactly
      the applications under review or waitlisted. */
  function Statistics(t: Applications, academicYear: Option<string>): (r: Response<AdmissionStats>)
    ensures r.Success? && r.message == ""
    ensures !Given(academicYear) ==> r.data.totalApplications == |t|
    ensures r.data.totalApplications == Count(t, InScope(academicYear))
    ensures r.data.pendingApplications == Count(t, InScopeWith(academicYear, Pending))
    ensures r.data.approvedApplications == Count(t, InScopeWith(academicYear, Approved))
    ensures r.data.rejectedApplications == Count(t, InScopeWith(academicYear, Rejected))
    ensures r.data.admittedApplications == Count(t, InScopeWith(academicYear, Admitted))
    ensures r.data.pendingApplications + r.data.approvedApplications + r.data.rejectedApplications
            + r.data.admittedApplications + Count(t, Unreported(academicYear)) == r.data.totalApplications
  {
    StatusCountsAddUp(t, academicYear);
    CountAll(t, InScope(academicYear));
    Success(AdmissionStats(
      Count(t, InScope(academicYear)),
      Count(t, InScopeWith(academicYear, Pending)),
      Count(t, InScopeWith(academicYear, Approved)),
      Count(t, InScopeWith(academicYear, Rejected)),
      Count(t, InScopeWith(academicYear, Admitted))), "")
  }
}

=== FILE: admission_schemas.dfy ===
/** The input schemas of the admission actions: the application form with its Indian phone,
    pincode, Aadhaar, blood-group, academic-year and name formats, the status update, and the
    listing query. */
module AdmissionSchemas {
  import opened Wrappers
  import opened Text
  import opened Decimal
  import opened Ordering
  import opened Pagination

  datatype Gender = Male | Female | OtherGender

  function GenderName(g: Gender): string
  {
    match g
    case Male => "MALE"
    case Female => "FEMALE"
    case OtherGender => "OTHER"
  }

  function ParseGender(s: string): (r: Parsed<Gender>)
    ensures r.Valid? ==> GenderName(r.value) == s
    ensures r.Invalid? ==> forall g: Gender :: GenderName(g) != s
  {
    if s == "MALE" then Valid(Male)
    else if s == "FEMALE" then Valid(Female)
    else if s == "OTHER" then Valid(OtherGender)
    else Invalid
  }

  datatype Category = General | Obc | Sc | St | Ews

  function CategoryName(c: Category): string
  {
    match c
    case General => "GENERAL"
    case Obc => "OBC"
    case Sc => "SC"
    case St => "ST"
    case Ews => "EWS"
  }

  function ParseCategory(s: string): (r: Parsed<Category>)
    ensures r.Valid? ==> CategoryName(r.value) == s
    ensures r.Invalid? ==> forall c: Category :: CategoryName(c) != s
  {
    if s == "GENERAL" then Valid(General)
    else if s == "OBC" then Valid(Obc)
    else if s == "SC" then Valid(Sc)
    else if s == "ST" then Valid(St)
    else if s == "EWS" then Valid(Ews)
    else Invalid
  }

  /** The review state of an application. */
  datatype ApplicationStatus = Pending | UnderReview | Approved | Rejected | Waitlisted | Admitted

  function StatusName(st: ApplicationStatus): string
  {
    match st
    case Pending => "PENDING"
    case UnderReview => "UNDER_REVIEW"
    case Approved => "APPROVED"
    case Rejected => "REJECTED"
    case Waitlisted => "WAITLISTED"
    case Admitted => "ADMITTED"
  }

  function ParseStatus(s: string): (r: Parsed<ApplicationStatus>)
    ensures r.Valid? ==> StatusName(r.value) == s
    ensures r.Invalid? ==> forall st: ApplicationStatus :: StatusName(st) != s
  {
    if s == "PENDING" then Valid(Pending)
    else if s == "UNDER_REVIEW" then Valid(UnderReview)
    else if s == "APPROVED" then Valid(Approved)
    else if s == "REJECTED" then Valid(Rejected)
    else if s == "WAITLISTED" then Valid(Waitlisted)
    else if s == "ADMITTED" then Valid(Admitted)
    else Invalid
  }

  /** Every enumeration value parses back from its name. */
  lemma EnumRoundTrips(g: Gender, c: Category, st: ApplicationStatus)
    ensures ParseGender(GenderName(g)) == Valid(g)
    ensures ParseCategory(CategoryName(c)) == Valid(c)
    ensures ParseStatus(StatusName(st)) == Valid(st)
  {
  }

  // ------------------------------------------------------------------
  // Recognisers
  // ------------------------------------------------------------------

  /** `^[6-9]\d{9}$`: an Indian mobile number. */
  predicate IsPhone(s: string)
  {
    |s| == 10 && '6' <= s[0] <= '9' && AllDigits(s)
  }

  /** Read as a number, a phone is a ten-digit string from six thousand million up. */
  lemma PhoneAsNumber(s: string)
    ensures IsPhone(s) <==> |s| == 10 && AllDigits(s) && ParseDigits(s) >= 6_000_000_000
  {
    if |s| == 10 && AllDigits(s) {
      ParseDigitsLeading(s);
      ParseDigitsBound(s[1..]);
      assert Pow10(9) == 1_000_000_000 by {
        assert Pow10(3) == 1000;
        assert Pow10(6) == 1000 * Pow10(3);
        assert Pow10(9) == 1000 * Pow10(6);
      }
    }
  }

  /** `^\d{6}$` */
  predicate IsPincode(s: string)
  {
    |s| == 6 && AllDigits(s)
  }

  /** `^\d{12}$` */
  predicate IsAadhar(s: string)
  {
    |s| == 12 && AllDigits(s)
  }

  /** `^(A|B|AB|O)[+-]$`: a group followed by a sign. */
  predicate IsBloodGroup(s: string)
  {
    && |s| >= 2
    && (s[|s| - 1] == '+' || s[|s| - 1] == '-')
    && s[..|s| - 1] in {"A", "B", "AB", "O"}
  }

  const BloodGroups: set<string> := {"A+", "A-", "B+", "B-", "AB+", "AB-", "O+", "O-"}

  /** The pattern accepts exactly the eight blood groups. */
  lemma BloodGroupsExactly(s: string)
    ensures IsBloodGroup(s) <==> s in BloodGroups
  {
    if IsBloodGroup(s) {
      assert s == s[..|s| - 1] + [s[|s| - 1]];
    }
    if s == "A+" || s == "A-" {
      assert s[..1] == "A";
    } else if s == "B+" || s == "B-" {
      assert s[..1] == "B";
    } else if s == "AB+" || s == "AB-" {
      assert s[..2] == "AB";
    } else if s == "O+" || s == "O-" {
      assert s[..1] == "O";
    }
  }

  /** `^\d{4}-\d{2}$`: four digits, a hyphen, two digits. */
  predicate IsAcademicYear(s: string)
  {
    |s| == 7 && AllDigits(s[..4]) && s[4] == '-' && AllDigits(s[5..])
  }

  /** An academic year is exactly a four-digit and a two-digit number joined by a hyphen; no
      relation between the two is required. */
  lemma AcademicYearParts(s: string)
    ensures IsAcademicYear(s) <==>
      exists y, yy :: |y| == 4 && AllDigits(y) && |yy| == 2 && AllDigits(yy) && s == y + "-" + yy
    ensures IsAcademicYear("2025-26") && IsAcademicYear("2025-99")
  {
    if IsAcademicYear(s) {
      assert s == s[..4] + "-" + s[5..];
    }
    assert "2025-26"[..4] == "2025" && "2025-26"[5..] == "26";
    assert "2025-99"[..4] == "2025" && "2025-99"[5..] == "99";
  }

  /** `[a-zA-Z\s]` */
  predicate IsNameChar(c: char)
  {
    IsLetter(c) || IsWhitespace(c)
  }

  predicate NameChars(s: string)
  {
    forall i :: 0 <= i < |s| ==> IsNameChar(s[i])
  }

  /** First and last name: `.min(2).max(50).regex(/^[a-zA-Z\s]+$/)`. */
  predicate StudentNameOk(s: string)
  {
    2 <= |s| <= 50 && NameChars(s)
  }

  /** Middle name: `.max(50).regex(/^[a-zA-Z\s]*$/)`, so the empty string passes. */
  predicate MiddleNameOk(s: string)
  {
    |s| <= 50 && NameChars(s)
  }

  /** Father's and mother's name: `.min(2).max(100).regex(/^[a-zA-Z\s]+$/)`. */
  predicate ParentNameOk(s: string)
  {
    2 <= |s| <= 100 && NameChars(s)
  }

  /** Names are checked for their characters only: a name of two spaces, or one of tabs, is
      accepted, and letters outside ASCII are not. */
  lemma NameCharacterSet()
    ensures StudentNameOk("  ") && ParentNameOk("\t\t")
    ensures MiddleNameOk("") && !StudentNameOk("")
    ensures !StudentNameOk("Zoë")
  {
    assert !IsNameChar("Zoë"[2]);
  }

  /** The calendar date a date of birth coerces to; only its year enters any check. */
  datatype Date = Date(year: int, month: int, day: int)

  /** `new Date().getFullYear() - date.getFullYear()` between 3 and 18: the difference of
      calendar years, not the age in completed years. */
  predicate AgeOk(nowYear: int, dob: Date)
  {
    3 <= nowYear - dob.year <= 18
  }

  /** The check ignores month and day: a child born on the last day of a year counts as three
      on the first day of the third year after. */
  lemma AgeIgnoresDayOfYear(nowYear: int, dob: Date, other: Date)
    requires dob.year == other.year
    ensures AgeOk(nowYear, dob) <==> AgeOk(nowYear, other)
    ensures AgeOk(2025, Date(2022, 12, 31))
  {
  }

  /** An optional text column with a length cap. */
  predicate OptionalMax(o: Option<string>, max: nat)
  {
    o.None? || |o.value| <= max
  }

  predicate OptionalPhone(o: Option<string>)
  {
    o.None? || IsPhone(o.value)
  }

  predicate OptionalEmail(f: Formats, o: Option<string>)
  {
    o.None? || f.isEmail(o.value)
  }

  predicate OptionalUrl(f: Formats, o: Option<string>)
  {
    o.None? || f.isUrl(o.value)
  }

  // ------------------------------------------------------------------
  // The application form
  // ------------------------------------------------------------------

  /** The student block as submitted. For the optional text fields `None` stands for both an
      omitted and a null value; `nationality` keeps the difference, because its default
      replaces only an omitted value and a null one is refused. */
  datatype StudentInput = StudentInput(
    firstName: string,
    middleName: Option<string>,
    lastName: string,
    dateOfBirth: Date,
    gender: string,
    bloodGroup: Option<string>,
    nationality: Field<string>,
    religion: Option<string>,
    category: string,
    aadharNumber: Option<string>)

  datatype Student = Student(
    firstName: string,
    middleName: Option<string>,
    lastName: string,
    dateOfBirth: Date,
    gender: Gender,
    bloodGroup: Option<string>,
    nationality: string,
    religion: Option<string>,
    category: Category,
    aadharNumber: Option<string>)

  datatype Academic = Academic(
    classApplyingFor: string,
    previousSchool: Option<string>,
    previousClass: Option<string>,
    academicYear: string)

  datatype Family = Family(
    fatherName: string,
    fatherOccupation: Option<string>,
    fatherPhone: string,
    fatherEmail: Option<string>,
    motherName: string,
    motherOccupation: Option<string>,
    motherPhone: Option<string>,
    motherEmail: Option<string>,
    guardianName: Option<string>,
    guardianRelation: Option<string>,
    guardianPhone: Option<string>,
    guardianEmail: Option<string>)

  datatype Address = Address(address: string, city: string, state: string, pincode: string)

  datatype Extras = Extras(
    medicalConditions: Option<string>,
    specialNeeds: Option<string>,
    birthCertificate: Option<string>,
    photoUrl: Option<string>,
    transferCertificate: Option<string>,
    addressProof: Option<string>)

  datatype ApplicationInput = ApplicationInput(
    student: StudentInput,
    academic: Academic,
    family: Family,
    current: Address,
    permanent: Address,
    extras: Extras)

  /** A validated application form: what the create action stores. */
  datatype ApplicationForm = ApplicationForm(
    student: Student,
    academic: Academic,
    family: Family,
    current: Address,
    permanent: Address,
    extras: Extras)

  predicate StudentOk(nowYear: int, s: StudentInput)
  {
    && StudentNameOk(s.firstName)
    && (s.middleName.None? || MiddleNameOk(s.middleName.value))
    && StudentNameOk(s.lastName)
    && AgeOk(nowYear, s.dateOfBirth)
    && ParseGender(s.gender).Valid?
    && (s.bloodGroup.None? || IsBloodGroup(s.bloodGroup.value))
    && !s.nationality.Null?
    && OptionalMax(s.religion, 50)
    && ParseCategory(s.category).Valid?
    && (s.aadharNumber.None? || IsAadhar(s.aadharNumber.value))
  }

  predicate AcademicOk(a: Academic)
  {
    && 1 <= |a.classApplyingFor| <= 50
    && OptionalMax(a.previousSchool, 200)
    && OptionalMax(a.previousClass, 50)
    && IsAcademicYear(a.academicYear)
  }

  predicate FamilyOk(f: Formats, m: Family)
  {
    && ParentNameOk(m.fatherName)
    && OptionalMax(m.fatherOccupation, 100)
    && IsPhone(m.fatherPhone)
    && OptionalEmail(f, m.fatherEmail)
    && ParentNameOk(m.motherName)
    && OptionalMax(m.motherOccupation, 100)
    && OptionalPhone(m.motherPhone)
    && OptionalEmail(f, m.motherEmail)
    && OptionalMax(m.guardianName, 100)
    && OptionalMax(m.guardianRelation, 50)
    && OptionalPhone(m.guardianPhone)
    && OptionalEmail(f, m.guardianEmail)
  }

  /** Address, city, state and pincode of one address block. */
  predicate AddressOk(a: Address)
  {
    && 10 <= |a.address| <= 500
    && 2 <= |a.city| <= 100
    && 2 <= |a.state| <= 100
    && IsPincode(a.pincode)
  }

  predicate ExtrasOk(f: Formats, e: Extras)
  {
    && OptionalMax(e.medicalConditions, 1000)
    && OptionalMax(e.specialNeeds, 1000)
    && OptionalUrl(f, e.birthCertificate)
    && OptionalUrl(f, e.photoUrl)
    && OptionalUrl(f, e.transferCertificate)
    && OptionalUrl(f, e.addressProof)
  }

  /** `admissionApplicationSchema`, with the current calendar year supplied by the caller. */
  function ParseApplication(f: Formats, nowYear: int, x: ApplicationInput): (r: Parsed<ApplicationForm>)
    ensures r.Valid? <==>
      && StudentOk(nowYear, x.student) && AcademicOk(x.academic) && FamilyOk(f, x.family)
      && AddressOk(x.current) && AddressOk(x.permanent) && ExtrasOk(f, x.extras)
    ensures r.Valid? ==>
      && r.value.academic == x.academic && r.value.family == x.family
      && r.value.current == x.current && r.value.permanent == x.permanent && r.value.extras == x.extras
    ensures x.student.nationality.Null? ==> r.Invalid?
    ensures r.Valid? ==>
      && r.value.student.firstName == x.student.firstName && r.value.student.middleName == x.student.middleName
      && r.value.student.lastName == x.student.lastName && r.value.student.dateOfBirth == x.student.dateOfBirth
      && r.value.student.bloodGroup == x.student.bloodGroup && r.value.student.religion == x.student.religion
      && GenderName(r.value.student.gender) == x.student.gender
      && CategoryName(r.value.student.category) == x.student.category
      && r.value.student.aadharNumber == x.student.aadharNumber
    ensures r.Valid? ==> r.value.student.nationality == if x.student.nationality.Present? then x.student.nationality.value else "Indian"
  {
    if StudentOk(nowYear, x.student) && AcademicOk(x.academic) && FamilyOk(f, x.family)
       && AddressOk(x.current) && AddressOk(x.permanent) && ExtrasOk(f, x.extras)
    then
      var s := x.student;
      var nationality := if s.nationality.Present? then s.nationality.value else "Indian";
      Valid(ApplicationForm(
        Student(s.firstName, s.middleName, s.lastName, s.dateOfBirth, ParseGender(s.gender).value,
                s.bloodGroup, nationality, s.religion, ParseCategory(s.category).value, s.aadharNumber),
        x.academic, x.family, x.current, x.permanent, x.extras))
    else Invalid
  }

  /** What a stored form is known to satisfy: the formats downstream code relies on. */
  lemma AcceptedFormFormats(f: Formats, nowYear: int, x: ApplicationInput)
    requires ParseApplication(f, nowYear, x).Valid?
    ensures var form := ParseApplication(f, nowYear, x).value;
      && IsAcademicYear(form.academic.academicYear)
      && IsPhone(form.family.fatherPhone)
      && IsPincode(form.current.pincode) && IsPincode(form.permanent.pincode)
      && (form.student.aadharNumber.Some? ==> |form.student.aadharNumber.value| == 12)
      && (form.student.bloodGroup.Some? ==> form.student.bloodGroup.value in BloodGroups)
  {
    var form := ParseApplication(f, nowYear, x).value;
    if form.student.bloodGroup.Some? {
      BloodGroupsExactly(form.student.bloodGroup.value);
    }
  }

  // ------------------------------------------------------------------
  // Status update and listing query
  // ------------------------------------------------------------------

  datatype StatusUpdateInput = StatusUpdateInput(id: string, status: string, remarks: Field<string>, reviewedBy: string)

  datatype StatusUpdate = StatusUpdate(id: string, status: ApplicationStatus, remarks: Field<string>, reviewedBy: string)

  /** `updateApplicationStatusSchema`: any of the six statuses, optional remarks of at most
      1000 characters, and a non-empty reviewer. */
  function ParseStatusUpdate(f: Formats, x: StatusUpdateInput): (r: Parsed<StatusUpdate>)
    ensures r.Valid? <==>
      && f.isCuid(x.id)
      && ParseStatus(x.status).Valid?
      && (x.remarks.Present? ==> |x.remarks.value| <= 1000)
      && |x.reviewedBy| >= 1
    ensures r.Valid? ==>
      && r.value.id == x.id && StatusName(r.value.status) == x.status
      && r.value.remarks == x.remarks && r.value.reviewedBy == x.reviewedBy
  {
    var st := ParseStatus(x.status);
    if f.isCuid(x.id) && st.Valid? && (x.remarks.Present? ==> |x.remarks.value| <= 1000) && |x.reviewedBy| >= 1 then
      Valid(StatusUpdate(x.id, st.value, x.remarks, x.reviewedBy))
    else Invalid
  }

  /** The columns an application listing can be ordered by. */
  datatype ApplicationSortField = SortByCreatedAt | SortByUpdatedAt | SortByApplicationNumber

  function ApplicationSortFieldName(field: ApplicationSortField): string
  {
    match field
    case SortByCreatedAt => "createdAt"
    case SortByUpdatedAt => "updatedAt"
    case SortByApplicationNumber => "applicationNumber"
  }

  function ParseApplicationSortField(raw: Option<string>): (r: Parsed<ApplicationSortField>)
    ensures raw.None? ==> r == Valid(SortByCreatedAt)
    ensures raw.Some? ==> (r.Valid? <==> raw.value in ["createdAt", "updatedAt", "applicationNumber"])
    ensures raw.Some? && r.Valid? ==> ApplicationSortFieldName(r.value) == raw.value
  {
    match raw
    case None => Valid(SortByCreatedAt)
    case Some(s) =>
      if s == "createdAt" then Valid(SortByCreatedAt)
      else if s == "updatedAt" then Valid(SortByUpdatedAt)
      else if s == "applicationNumber" then Valid(SortByApplicationNumber)
      else Invalid
  }

  datatype ApplicationQueryInput = ApplicationQueryInput(
    page: Option<Number>,
    limit: Option<Number>,
    status: Option<string>,
    academicYear: Option<string>,
    classApplyingFor: Option<string>,
    searchQuery: Option<string>,
    sortBy: Option<string>,
    sortOrder: Option<string>)

  datatype ApplicationQuery = ApplicationQuery(
    page: int,
    limit: int,
    status: Option<ApplicationStatus>,
    academicYear: Option<string>,
    classApplyingFor: Option<string>,
    searchQuery: Option<string>,
    sortBy: ApplicationSortField,
    sortOrder: Direction)

  /** `getApplicationsQuerySchema`. A missing query object is rejected. */
  function ParseApplicationQuery(raw: Option<ApplicationQueryInput>): (r: Parsed<ApplicationQuery>)
    ensures raw.None? ==> r.Invalid?
    ensures r.Valid? <==>
      && raw.Some?
      && ParsePage(raw.value.page).Valid? && ParseLimit(raw.value.limit).Valid?
      && (raw.value.status.Some? ==> ParseStatus(raw.value.status.value).Valid?)
      && ParseApplicationSortField(raw.value.sortBy).Valid? && ParseOrder(raw.value.sortOrder).Valid?
    ensures r.Valid? ==> r.value.page >= 1 && 1 <= r.value.limit <= 100
    ensures r.Valid? ==> r.value.page as real == if raw.value.page.Some? then raw.value.page.value else 1.0
    ensures r.Valid? ==> r.value.limit as real == if raw.value.limit.Some? then raw.value.limit.value else 10.0
    ensures r.Valid? ==> if raw.value.sortBy.Some? then ApplicationSortFieldName(r.value.sortBy) == raw.value.sortBy.value
                         else r.value.sortBy == SortByCreatedAt
    ensures r.Valid? ==> (r.value.sortOrder == Asc <==> raw.value.sortOrder == Some("asc"))
    ensures r.Valid? ==>
      && r.value.academicYear == raw.value.academicYear
      && r.value.classApplyingFor == raw.value.classApplyingFor
      && r.value.searchQuery == raw.value.searchQuery
    ensures r.Valid? ==> (r.value.status.Some? <==> raw.value.status.Some?)
    ensures r.Valid? && r.value.status.Some? ==> StatusName(r.value.status.value) == raw.value.status.value
    ensures raw.Some? && raw.value.page.None? && raw.value.limit.None? && raw.value.status.None?
            && raw.value.sortBy.None? && raw.value.sortOrder.None? ==>
      r.Valid? && r.value.page == 1 && r.value.limit == 10
      && r.value.sortBy == SortByCreatedAt && r.value.sortOrder == Desc
  {
    match raw
    case None => Invalid
    case Some(q) =>
      var page := ParsePage(q.page);
      var limit := ParseLimit(q.limit);
      var status := if q.status.None? then Valid(None)
        else match ParseStatus(q.status.value)
          case Valid(v) => Valid(Some(v))
          case Invalid => Invalid;
      var sortBy := ParseApplicationSortField(q.sortBy);
      var order := ParseOrder(q.sortOrder);
      if page.Valid? && limit.Valid? && status.Valid? && sortBy.Valid? && order.Valid? then
        Valid(ApplicationQuery(page.value, limit.value, status.value, q.academicYear, q.classApplyingFor,
                               q.searchQuery, sortBy.value, order.value))
      else Invalid
  }

  /** The query as a caller would write it, every field spelled out. */
  function ApplicationQueryInputOf(q: ApplicationQuery): ApplicationQueryInput
  {
    ApplicationQueryInput(Some(q.page as real), Some(q.limit as real),
                          if q.status.Some? then Some(StatusName(q.status.value)) else None,
                          q.academicYear, q.classApplyingFor, q.searchQuery,
                          Some(ApplicationSortFieldName(q.sortBy)), Some(OrderName(q.sortOrder)))
  }

  /** Every query the schema can produce parses back from its written form. */
  lemma ApplicationQueryRoundTrip(q: ApplicationQuery)
    requires q.page >= 1 && 1 <= q.limit <= 100
    ensures ParseApplicationQuery(Some(ApplicationQueryInputOf(q))) == Valid(q)
  {
    PagingRoundTrips(q.page, q.limit, q.sortOrder);
    if q.status.Some? {
      EnumRoundTrips(Male, General, q.status.value);
    }
  }

  /** The same query asking for page `k`. */
  function AtPage(raw: Option<ApplicationQueryInput>, k: int): Option<ApplicationQueryInput>
  {
    if raw.Some? then Some(raw.value.(page := Some(k as real))) else None
  }

  /** Asking for another page changes only the parsed page. */
  lemma AtPageMovesOnlyPage(raw: Option<ApplicationQueryInput>, k: int)
    requires ParseApplicationQuery(raw).Valid? && k >= 1
    ensures ParseApplicationQuery(AtPage(raw, k)) == Valid(ParseApplicationQuery(raw).value.(page := k))
  {
    PagingRoundTrips(k, 1, Asc);
  }
}

=== FILE: decimal.dfy ===
/** Decimal rendering of naturals (`Number.prototype.toString`), left padding
    (`String.prototype.padStart`) and the inverse reading of a digit string. */
module Decimal {
  import opened Text

  function DigitChar(d: nat): (c: char)
    requires d < 10
    ensures IsDigit(c)
  {
    ('0' as int + d) as char
  }

  function DigitValue(c: char): (d: nat)
    requires IsDigit(c)
    ensures d < 10 && DigitChar(d) == c
  {
    c as int - '0' as int
  }

  /** `n.toString()` for a non-negative integer: most significant digit first, no leading zero. */
  function NatToString(n: nat): (r: string)
    ensures |r| >= 1 && AllDigits(r)
    ensures r[0] == '0' ==> n == 0
  {
    if n < 10 then [DigitChar(n)] else NatToString(n / 10) + [DigitChar(n % 10)]
  }

  /** The number a string of decimal digits denotes. */
  function ParseDigits(s: string): nat
    requires AllDigits(s)
  {
    if |s| == 0 then 0 else 10 * ParseDigits(s[..|s| - 1]) + DigitValue(s[|s| - 1])
  }

  /** Reading back what `NatToString` wrote gives the number again. */
  lemma {:induction false} ParseNatToString(n: nat)
    ensures ParseDigits(NatToString(n)) == n
  {
    var s := NatToString(n);
    if n >= 10 {
      ParseNatToString(n / 10);
      assert s[..|s| - 1] == NatToString(n / 10);
    } else {
      assert s[..0] == "";
    }
  }

  /** Rendering is exactly as long as the number needs: at most four characters below
      10000 and at least five from 10000 on. */
  lemma {:induction false} NatToStringLength(n: nat)
    ensures n <= 9999 <==> |NatToString(n)| <= 4
    ensures n <= 999 <==> |NatToString(n)| <= 3
    ensures n <= 99 <==> |NatToString(n)| <= 2
  {
    if n >= 10 {
      NatToStringLength(n / 10);
    }
  }

  function Repeat(c: char, k: nat): (r: string)
    ensures |r| == k && forall i :: 0 <= i < k ==> r[i] == c
  {
    seq(k, _ => c)
  }

  /** `s.padStart(width, fill)` with a one-character fill: never truncates, and only
      prepends `fill` characters. */
  function PadStart(s: string, width: nat, fill: char): (r: string)
    ensures |r| == if |s| >= width then |s| else width
    ensures r[|r| - |s|..] == s
    ensures forall i :: 0 <= i < |r| - |s| ==> r[i] == fill
  {
    if |s| >= width then s else Repeat(fill, width - |s|) + s
  }

  /** Leading zeros do not change the value of a digit string. */
  lemma {:induction false} ParseLeadingZeros(k: nat, s: string)
    requires AllDigits(s)
    ensures AllDigits(Repeat('0', k) + s)
    ensures ParseDigits(Repeat('0', k) + s) == ParseDigits(s)
    decreases |s| + k
  {
    var z := Repeat('0', k);
    if |s| == 0 {
      assert z + s == z;
      if k > 0 {
        assert z[..k - 1] == Repeat('0', k - 1);
        ParseLeadingZeros(k - 1, "");
        assert Repeat('0', k - 1) + "" == Repeat('0', k - 1);
      }
    } else {
      var t := z + s;
      assert t[..|t| - 1] == z + s[..|s| - 1];
      ParseLeadingZeros(k, s[..|s| - 1]);
    }
  }

  function Pow10(n: nat): (r: nat)
    ensures r >= 1
  {
    if n == 0 then 1 else 10 * Pow10(n - 1)
  }

  /** A string of `n` digits denotes a number below `10^n`. */
  lemma {:induction false} ParseDigitsBound(s: string)
    requires AllDigits(s)
    ensures ParseDigits(s) < Pow10(|s|)
  {
    if |s| > 0 {
      ParseDigitsBound(s[..|s| - 1]);
    }
  }

  /** The arithmetic step of `ParseDigitsLeading`: appending a digit to both sides of an
      expansion by the leading digit keeps it an expansion. */
  lemma ShiftExpansion(whole: int, init: int, tail: int, d: int, w: int, rest: int, last: int)
    requires whole == 10 * init + last && init == d * w + rest && tail == 10 * rest + last
    ensures whole == d * (10 * w) + tail
  {
    assert d * (10 * w) == 10 * (d * w);
  }

  /** The leading digit contributes its value times the weight of its position. */
  lemma {:induction false} ParseDigitsLeading(s: string)
    requires AllDigits(s) && |s| >= 1
    ensures ParseDigits(s) == DigitValue(s[0]) * Pow10(|s| - 1) + ParseDigits(s[1..])
  {
    var n := |s|;
    if n == 1 {
      assert s[..0] == "" && s[1..] == "";
    } else {
      var init := s[..n - 1];
      var tail := s[1..];
      ParseDigitsLeading(init);
      assert init[0] == s[0];
      assert init[1..] == tail[..|tail| - 1];
      assert tail[|tail| - 1] == s[n - 1];
      ShiftExpansion(ParseDigits(s), ParseDigits(init), ParseDigits(tail),
                     DigitValue(s[0]), Pow10(n - 2), ParseDigits(init[1..]), DigitValue(s[n - 1]));
    }
  }

  /** The four-digit, zero-padded rendering used for sequence numbers. */
  function Pad4(n: nat): string
  {
    PadStart(NatToString(n), 4, '0')
  }

  /** The padded rendering is all digits, is exactly four characters when `n` fits, and reads
      back as `n` for every `n`: padding loses nothing, so distinct numbers give distinct strings. */
  lemma Pad4RoundTrip(n: nat)
    ensures AllDigits(Pad4(n))
    ensures ParseDigits(Pad4(n)) == n
    ensures |Pad4(n)| == 4 <==> n <= 9999
  {
    var s := NatToString(n);
    NatToStringLength(n);
    ParseNatToString(n);
    if |s| < 4 {
      ParseLeadingZeros(4 - |s|, s);
    }
  }

  /** Distinct sequence numbers never render to the same string. */
  lemma Pad4Injective(a: nat, b: nat)
    ensures Pad4(a) == Pad4(b) <==> a == b
  {
    Pad4RoundTrip(a);
    Pad4RoundTrip(b);
  }
}

=== FILE: gate.dfy ===
/** The request middleware: classifies a path as protected, the login page, or anything else,
    and decides between a redirect to `/login`, a redirect to `/admin`, or letting the request
    through, from the `session` cookie. Token verification (`jwtVerify` with the HS256 key) is
    a parameter: it yields the token's claims or nothing, and never fails past that. */
module Gate {
  import opened Wrappers
  import opened Text

  /** The prefixes whose pages need a session. */
  const ProtectedRoutes: seq<string> := ["/admin", "/admin-admission", "/notices", "/inquiries"]

  const LoginPath: string := "/login"
  const AdminPath: string := "/admin"

  /** `path === route || path.startsWith(route + "/")` */
  predicate UnderRoute(path: string, route: string)
  {
    path == route || StartsWith(path, route + "/")
  }

  predicate IsProtected(path: string)
  {
    exists i :: 0 <= i < |ProtectedRoutes| && UnderRoute(path, ProtectedRoutes[i])
  }

  predicate IsAuthRoute(path: string)
  {
    path == LoginPath
  }

  /** The decoded claims of a verified session token. */
  datatype Claims = Claims(payload: map<string, string>)

  datatype Decision = RedirectTo(location: string) | Next

  /** `token ? await decrypt(token) : null`: a missing or empty cookie is no session, and a token
      counts only if verification accepts it. */
  function Session(cookie: Option<string>, verify: string -> Option<Claims>): (s: Option<Claims>)
    ensures cookie.None? || cookie == Some("") ==> s.None?
    ensures s.Some? ==> cookie.Some? && verify(cookie.value) == s
    ensures cookie.Some? && cookie.value != "" ==> s == verify(cookie.value)
  {
    if cookie.Some? && cookie.value != "" then verify(cookie.value) else None
  }

  /** The decision for one request. */
  function Middleware(path: string, cookie: Option<string>, verify: string -> Option<Claims>): (d: Decision)
    ensures d == RedirectTo(LoginPath) <==> IsProtected(path) && Session(cookie, verify).None?
    ensures d == RedirectTo(AdminPath) <==> IsAuthRoute(path) && Session(cookie, verify).Some?
    ensures d == Next <==>
      !(IsProtected(path) && Session(cookie, verify).None?) && !(IsAuthRoute(path) && Session(cookie, verify).Some?)
  {
    var session := Session(cookie, verify);
    if IsProtected(path) && session.None? then RedirectTo(LoginPath)
    else if IsAuthRoute(path) && session.Some? then RedirectTo(AdminPath)
    else Next
  }

  /** The login page is not a protected route, so a request is never both redirect cases. */
  lemma LoginNotProtected()
    ensures !IsProtected(LoginPath)
  {
    forall i | 0 <= i < |ProtectedRoutes| ensures !UnderRoute(LoginPath, ProtectedRoutes[i]) {
    }
  }

  /** `/admin` itself is protected. */
  lemma AdminIsProtected()
    ensures IsProtected(AdminPath)
  {
    assert UnderRoute(AdminPath, ProtectedRoutes[0]);
  }

  /** Following a redirect with the same cookie lands on a page that lets the request through:
      the middleware never bounces a browser back and forth. */
  lemma NoRedirectLoop(path: string, cookie: Option<string>, verify: string -> Option<Claims>)
    requires Middleware(path, cookie, verify).RedirectTo?
    ensures Middleware(Middleware(path, cookie, verify).location, cookie, verify) == Next
  {
    LoginNotProtected();
    AdminIsProtected();
  }

  /** Everything below a protected page is protected too. */
  lemma DescendantsProtected(path: string, rest: string)
    requires IsProtected(path)
    ensures IsProtected(path + "/" + rest)
  {
    var i :| 0 <= i < |ProtectedRoutes| && UnderRoute(path, ProtectedRoutes[i]);
    var r := ProtectedRoutes[i];
    var p := path + "/" + rest;
    assert p[..|r| + 1] == (r + "/") by {
      if path == r {
        assert p[..|r| + 1] == path + "/";
      } else {
        assert p[..|r| + 1] == path[..|r| + 1];
      }
    }
    assert UnderRoute(p, r);
  }

  /** The boundary must be a `/`: `/admin` covers neither `/adminx` nor, through its own entry,
      `/admin-admission`; the singular `/notice` is public. */
  lemma RouteBoundaries()
    ensures !UnderRoute("/adminx", "/admin")
    ensures !UnderRoute("/admin-admission", "/admin")
    ensures !IsProtected("/adminx")
    ensures IsProtected("/admin-admission")
    ensures !IsProtected("/notice")
    ensures IsProtected("/notices/create")
  {
    assert ("/adminx")[6] != ("/admin/")[6];
    assert ("/admin-admission")[6] != ("/admin/")[6];
    assert UnderRoute("/admin-admission", ProtectedRoutes[1]);
    assert ("/notices/create")[..9] == "/notices/";
    assert UnderRoute("/notices/create", ProtectedRoutes[2]);
    forall i | 0 <= i < |ProtectedRoutes| ensures !UnderRoute("/adminx", ProtectedRoutes[i]) {
    }
    forall i | 0 <= i < |ProtectedRoutes| ensures !UnderRoute("/notice", ProtectedRoutes[i]) {
      var r := ProtectedRoutes[i];
      if i != 2 {
        assert ("/notice")[1] != (r + "/")[1];
      }
    }
  }

  /** Without a usable session every protected path redirects to the login page; with one it
      is let through. */
  lemma ProtectedNeedsSession(path: string, cookie: Option<string>, verify: string -> Option<Claims>)
    requires IsProtected(path)
    ensures Middleware(path, cookie, verify) == Next <==> Session(cookie, verify).Some?
  {
    LoginNotProtected();
  }
}

=== FILE: inquiry_actions.dfy ===
/** The contact-inquiry server actions over the `contactInquiry` table: the public
    submission, the paged listing, the lookup, the response to one or many inquiries,
    deletion, the statistics and the feed of new inquiries. */
module InquiryActions {
  import opened Wrappers
  import opened Text
  import opened Decimal
  import opened Table
  import opened Ordering
  import opened Pagination
  import opened Listing
  import opened InquirySchemas

  /** A stored inquiry: the submitted form, its handling state, the sender's address as the
      caller reported it, and the response columns. */
  datatype Inquiry = Inquiry(
    contact: Contact,
    status: InquiryStatus,
    ipAddress: Option<string>,
    response: Option<string>,
    respondedBy: Option<string>,
    respondedAt: Option<int>)

  type Inquiries = seq<Row<Inquiry>>

  const InquiryNotFound := "Inquiry not found"
  const InvalidInquiryId := "Invalid inquiry ID"
  const SubmitFailed := "Failed to submit inquiry. Please try again."
  const BulkUpdateFailed := "Failed to update inquiries. Please try again."
  const NoneSelected := "No inquiries selected"

  // ------------------------------------------------------------------
  // createContactInquiry
  // ------------------------------------------------------------------

  /** `createContactInquiry`: stores the validated form as a NEW inquiry. An empty address
      counts as none. A clash on the generated id falls to the catch-all message. */
  function Create(t: Inquiries, f: Formats, x: ContactInput, ip: Option<string>, newId: Id, now: int): (out: (Inquiries, Response<Row<Inquiry>>))
    ensures ParseContact(f, x).Invalid? ==> out == (t, Failure(ValidationFailed))
    ensures out.1.Failure? ==> out.0 == t
    ensures ParseContact(f, x).Valid? ==> (out.1.Success? <==> newId !in IdsOf(t))
    ensures ParseContact(f, x).Valid? && newId in IdsOf(t) ==> out.1 == Failure(SubmitFailed)
    ensures out.1.Success? ==>
      var row := out.1.data;
      && out.0 == t + [row]
      && row.id == newId && row.createdAt == now && row.updatedAt == now
      && row.data.contact == ParseContact(f, x).value
      && row.data.status == New
      && (row.data.ipAddress.Some? <==> ip.Some? && ip.value != "")
      && (row.data.ipAddress.Some? ==> row.data.ipAddress == ip)
      && row.data.response.None? && row.data.respondedBy.None? && row.data.respondedAt.None?
      && out.1.message == "Your inquiry has been submitted successfully! We will get back to you soon."
  {
    match ParseContact(f, x)
    case Invalid => (t, Failure(ValidationFailed))
    case Valid(c) =>
      if newId in IdsOf(t) then (t, Failure(SubmitFailed))
      else
        var row := Row(newId, now, now, Inquiry(c, New, if Given(ip) then ip else None, None, None, None));
        (t + [row], Success(row, "Your inquiry has been submitted successfully! We will get back to you soon."))
  }

  /** A submitted inquiry is found again by its id, as submitted. */
  lemma SubmittedIsFound(t: Inquiries, f: Formats, x: ContactInput, ip: Option<string>, newId: Id, now: int)
    requires DistinctIds(t) && f.isCuid(newId)
    requires Create(t, f, x, ip, newId, now).1.Success?
    ensures var out := Create(t, f, x, ip, newId, now);
      DistinctIds(out.0) && GetById(out.0, f, newId) == Success(out.1.data, "")
  {
    var out := Create(t, f, x, ip, newId, now);
    var row := out.1.data;
    forall i, j | 0 <= i < j < |out.0| ensures out.0[i].id != out.0[j].id {
      if j == |t| {
        assert t[i] in t;
      }
    }
    assert out.0[|t|] == row;
    FindUnique(out.0, row);
  }

  // ------------------------------------------------------------------
  // getAllContactInquiries, getContactInquiryById
  // ------------------------------------------------------------------

  /** A substring of the sender's name, address or message. */
  predicate MatchesSearch(c: Contact, q: string)
  {
    Contains(c.fullName, q) || Contains(c.email, q) || Contains(c.message, q)
  }

  /** The `where` clause of the listing. */
  function InquiryMatches(q: InquiryQuery): Row<Inquiry> -> bool
  {
    (r: Row<Inquiry>) =>
      && (q.status.None? || r.data.status == q.status.value)
      && (q.subject.None? || r.data.contact.subject == q.subject.value)
      && (!Given(q.searchQuery) || MatchesSearch(r.data.contact, q.searchQuery.value))
  }

  function InquiryKey(field: InquirySortField): Row<Inquiry> -> SortKey
  {
    (r: Row<Inquiry>) =>
      match field
      case SortByCreatedAt => Num(r.createdAt)
      case SortByUpdatedAt => Num(r.updatedAt)
  }

  /** `getAllContactInquiries` */
  function ListInquiries(t: Inquiries, raw: Option<InquiryQueryInput>): (r: Response<Page<Row<Inquiry>>>)
    ensures r.Failure? <==> ParseInquiryQuery(raw).Invalid?
    ensures r.Failure? ==> r.error == InvalidQuery
    ensures r.Success? ==>
      var q := ParseInquiryQuery(raw).value;
      && r.data.pagination == Paginate(q.page, q.limit, Count(t, InquiryMatches(q)))
      && r.data.items == TakePage(Ordered(t, InquiryMatches(q), InquiryKey(q.sortBy), q.sortOrder), q.page, q.limit)
      && |r.data.items| == PageSize(q.page, q.limit, Count(t, InquiryMatches(q)))
      && SortedBy(r.data.items, InquiryKey(q.sortBy), q.sortOrder)
      && multiset(r.data.items) <= multiset(Filter(t, InquiryMatches(q)))
      && (forall i :: 0 <= i < |r.data.items| ==>
            && r.data.items[i] in t
            && (q.status.Some? ==> r.data.items[i].data.status == q.status.value)
            && (q.subject.Some? ==> r.data.items[i].data.contact.subject == q.subject.value)
            && (Given(q.searchQuery) ==> MatchesSearch(r.data.items[i].data.contact, q.searchQuery.value)))
  {
    match ParseInquiryQuery(raw)
    case Invalid => Failure(InvalidQuery)
    case Valid(q) =>
      Success(ListPage(t, InquiryMatches(q), InquiryKey(q.sortBy), q.sortOrder, q.page, q.limit), "")
  }

  /** Every inquiry the query matches is listed on one of the pages the listing announces. */
  lemma EveryMatchingInquiryIsListed(t: Inquiries, raw: Option<InquiryQueryInput>, x: Row<Inquiry>)
    requires ParseInquiryQuery(raw).Valid?
    requires x in t && InquiryMatches(ParseInquiryQuery(raw).value)(x)
    ensures exists k :: 1 <= k <= ListInquiries(t, raw).data.pagination.totalPages
                        && x in ListInquiries(t, AtPage(raw, k)).data.items
  {
    var q := ParseInquiryQuery(raw).value;
    EveryMatchOnSomePage(t, InquiryMatches(q), InquiryKey(q.sortBy), q.sortOrder, q.limit, x);
    var k :| 1 <= k <= ListPage(t, InquiryMatches(q), InquiryKey(q.sortBy), q.sortOrder, 1, q.limit).pagination.totalPages
             && x in ListPage(t, InquiryMatches(q), InquiryKey(q.sortBy), q.sortOrder, k, q.limit).items;
    AtPageMovesOnlyPage(raw, k);
    assert x in ListInquiries(t, AtPage(raw, k)).data.items;
  }

  /** `getContactInquiryById` */
  function GetById(t: Inquiries, f: Formats, id: string): (r: Response<Row<Inquiry>>)
    ensures !f.isCuid(id) ==> r == Failure(InvalidInquiryId)
    ensures f.isCuid(id) ==> (r.Success? <==> id in IdsOf(t))
    ensures f.isCuid(id) && r.Failure? ==> r.error == InquiryNotFound
    ensures r.Success? ==> r.data in t && r.data.id == id
  {
    if !f.isCuid(id) then Failure(InvalidInquiryId)
    else match Find(t, id)
      case None => Failure(InquiryNotFound)
      case Some(row) => Success(row, "")
  }

  // ------------------------------------------------------------------
  // updateContactInquiryStatus, bulkUpdateInquiryStatus
  // ------------------------------------------------------------------

  /** The response columns a status update writes; `response` follows the ORM's rule for an
      omitted, null or given field. */
  function Respond(status: InquiryStatus, response: Field<string>, respondedBy: string, now: int): Inquiry -> Inquiry
  {
    (q: Inquiry) => q.(status := status, response := Apply(q.response, response), respondedBy := Some(respondedBy), respondedAt := Some(now))
  }

  /** `updateContactInquiryStatus`: sets the status, the responder and the response time, and
      the response when given; the submitted form and the address are never touched. */
  function UpdateStatus(t: Inquiries, f: Formats, x: StatusUpdateInput, now: int): (out: (Inquiries, Response<Row<Inquiry>>))
    ensures ParseStatusUpdate(f, x).Invalid? ==> out == (t, Failure(ValidationFailed))
    ensures out.1.Failure? ==> out.0 == t
    ensures ParseStatusUpdate(f, x).Valid? ==> (out.1.Success? <==> x.id in IdsOf(t))
    ensures ParseStatusUpdate(f, x).Valid? && x.id !in IdsOf(t) ==> out.1 == Failure(InquiryNotFound)
    ensures out.1.Success? ==>
      && out.1.message == "Inquiry status updated successfully"
      && |out.0| == |t|
      && (forall i :: 0 <= i < |t| && t[i].id != x.id ==> out.0[i] == t[i])
      && (forall i :: 0 <= i < |t| && t[i].id == x.id ==>
            && out.0[i].id == t[i].id && out.0[i].createdAt == t[i].createdAt && out.0[i].updatedAt == now
            && out.0[i].data.contact == t[i].data.contact && out.0[i].data.ipAddress == t[i].data.ipAddress
            && StatusName(out.0[i].data.status) == x.status
            && out.0[i].data.respondedBy == Some(x.respondedBy) && out.0[i].data.respondedAt == Some(now)
            && (x.response.Absent? ==> out.0[i].data.response == t[i].data.response)
            && (x.response.Null? ==> out.0[i].data.response.None?)
            && (x.response.Present? ==> out.0[i].data.response == Some(x.response.value)))
      && out.1.data.id == x.id && out.1.data in out.0
  {
    match ParseStatusUpdate(f, x)
    case Invalid => (t, Failure(ValidationFailed))
    case Valid(u) =>
      match Find(t, u.id)
      case None => (t, Failure(InquiryNotFound))
      case Some(row) =>
        var t' := UpdateWhere(t, {u.id}, Respond(u.status, u.response, u.respondedBy, now), now);
        var i :| 0 <= i < |t| && t[i] == row;
        assert t'[i] in t';
        (t', Success(t'[i], "Inquiry status updated successfully"))
  }

  /** After a status update, reading the inquiry back shows the new status and responder. */
  lemma UpdatedStatusIsRead(t: Inquiries, f: Formats, x: StatusUpdateInput, now: int)
    requires DistinctIds(t)
    requires UpdateStatus(t, f, x, now).1.Success?
    ensures var t' := UpdateStatus(t, f, x, now).0;
      && DistinctIds(t')
      && var r := GetById(t', f, x.id);
         r.Success? && StatusName(r.data.data.status) == x.status && r.data.data.respondedBy == Some(x.respondedBy)
  {
    var u := ParseStatusUpdate(f, x).value;
    var t' := UpdateStatus(t, f, x, now).0;
    UpdateKeepsIds(t, {u.id}, Respond(u.status, u.response, u.respondedBy, now), now);
    var row := GetById(t', f, x.id).data;
    var i :| 0 <= i < |t'| && t'[i] == row;
  }

  /** Rewriting rows keeps their ids, so as many rows carry a listed id afterwards. */
  lemma {:induction false} UpdatedIdsCount<D>(rows: seq<Row<D>>, ids: set<Id>, f: D -> D, now: int)
    ensures Count(UpdateWhere(rows, ids, f, now), IdIn(ids)) == Count(rows, IdIn(ids))
  {
    if |rows| > 0 {
      UpdateWhereTail(rows, ids, f, now);
      UpdatedIdsCount(rows[1..], ids, f, now);
    }
  }

  /** `bulkUpdateInquiryStatus`: the status string is passed to the database unchecked, so a
      value outside the four statuses makes the whole update fail. Responses are left alone,
      and the count is the number of rows whose id was listed. */
  function BulkUpdateStatus(t: Inquiries, ids: seq<Id>, status: string, respondedBy: string, now: int): (out: (Inquiries, Response<nat>))
    ensures |ids| == 0 ==> out == (t, Failure(NoneSelected))
    ensures out.1.Failure? ==> out.0 == t
    ensures |ids| > 0 ==> (out.1.Success? <==> exists st :: StatusName(st) == status)
    ensures |ids| > 0 && out.1.Failure? ==> out.1.error == BulkUpdateFailed
    ensures out.1.Success? ==>
      && out.1.data == Count(t, (r: Row<Inquiry>) => r.id in ids)
      && out.1.message == NatToString(out.1.data) + " inquiry(ies) updated successfully"
      && |out.0| == |t|
      && (forall i :: 0 <= i < |t| && t[i].id !in ids ==> out.0[i] == t[i])
      && (forall i :: 0 <= i < |t| && t[i].id in ids ==>
            && out.0[i].data.contact == t[i].data.contact
            && out.0[i].data.response == t[i].data.response
            && StatusName(out.0[i].data.status) == status
            && out.0[i].data.respondedBy == Some(respondedBy) && out.0[i].data.respondedAt == Some(now))
  {
    if |ids| == 0 then (t, Failure(NoneSelected))
    else match ParseStatus(status)
      case Invalid => (t, Failure(BulkUpdateFailed))
      case Valid(st) =>
        assert StatusName(st) == status;
        var s := set i | i in ids;
        var n := Count(t, IdIn(s));
        CountExt(t, IdIn(s), (r: Row<Inquiry>) => r.id in ids);
        (UpdateWhere(t, s, Respond(st, Absent, respondedBy, now), now),
         Success(n, NatToString(n) + " inquiry(ies) updated successfully"))
  }

  function HasStatus(st: InquiryStatus): Row<Inquiry> -> bool
  {
    (r: Row<Inquiry>) => r.data.status == st
  }

  /** After a bulk update at least as many inquiries carry the new status as were reported
      updated. */
  lemma BulkUpdateSetsStatus(t: Inquiries, ids: seq<Id>, st: InquiryStatus, respondedBy: string, now: int)
    requires |ids| > 0
    ensures var out := BulkUpdateStatus(t, ids, StatusName(st), respondedBy, now);
      out.1.Success? && Count(out.0, HasStatus(st)) >= out.1.data
  {
    var out := BulkUpdateStatus(t, ids, StatusName(st), respondedBy, now);
    EnumRoundTrips(Others, st);
    var s := set i | i in ids;
    var f := Respond(st, Absent, respondedBy, now);
    UpdatedIdsCount(t, s, f, now);
    CountMonotone(out.0, IdIn(s), HasStatus(st));
  }

  // ------------------------------------------------------------------
  // deleteContactInquiry, bulkDeleteInquiries
  // ------------------------------------------------------------------

  /** `deleteContactInquiry` */
  function Delete(t: Inquiries, f: Formats, id: string): (out: (Inquiries, Response<()>))
    ensures !f.isCuid(id) ==> out == (t, Failure(InvalidInquiryId))
    ensures out.1.Failure? ==> out.0 == t
    ensures f.isCuid(id) ==> (out.1.Success? <==> id in IdsOf(t))
    ensures f.isCuid(id) && id !in IdsOf(t) ==> out.1 == Failure(InquiryNotFound)
    ensures out.1.Success? ==>
      && out.1.message == "Inquiry deleted successfully"
      && |out.0| == |t| - Count(t, IdIn({id}))
      && (forall i :: 0 <= i < |out.0| ==> out.0[i] in t && out.0[i].id != id)
      && (forall i :: 0 <= i < |t| && t[i].id != id ==> t[i] in out.0)
  {
    if !f.isCuid(id) then (t, Failure(InvalidInquiryId))
    else if id !in IdsOf(t) then (t, Failure(InquiryNotFound))
    else (RemoveIds(t, {id}), Success((), "Inquiry deleted successfully"))
  }

  /** A deleted inquiry can no longer be read, and every other one still can. */
  lemma DeletedIsGone(t: Inquiries, f: Formats, id: string, other: Id)
    requires DistinctIds(t)
    requires Delete(t, f, id).1.Success?
    ensures GetById(Delete(t, f, id).0, f, id) == Failure(InquiryNotFound)
    ensures f.isCuid(other) && other != id && other in IdsOf(t) ==>
      GetById(Delete(t, f, id).0, f, other) == GetById(t, f, other)
  {
    var left := Delete(t, f, id).0;
    if f.isCuid(other) && other != id && other in IdsOf(t) {
      var row := Find(t, other).value;
      var i :| 0 <= i < |t| && t[i] == row;
      assert row in left;
      FilterKeepsDistinct(t, IdNotIn({id}));
      FindUnique(left, row);
      FindUnique(t, row);
    }
  }

  /** `bulkDeleteInquiries`: the ids are a set; unknown ids are skipped and the count is the
      number of inquiries removed. */
  function BulkDelete(t: Inquiries, ids: seq<Id>): (out: (Inquiries, Response<nat>))
    ensures |ids| == 0 ==> out == (t, Failure(NoneSelected))
    ensures out.1.Failure? ==> out.0 == t
    ensures |ids| > 0 ==> out.1.Success?
    ensures out.1.Success? ==>
      && out.1.data == |t| - |out.0|
      && out.1.message == NatToString(out.1.data) + " inquiry(ies) deleted successfully"
      && (forall i :: 0 <= i < |out.0| ==> out.0[i] in t && out.0[i].id !in ids)
      && (forall i :: 0 <= i < |t| && t[i].id !in ids ==> t[i] in out.0)
  {
    if |ids| == 0 then (t, Failure(NoneSelected))
    else
      var left := RemoveIds(t, set i | i in ids);
      (left, Success(|t| - |left|, NatToString(|t| - |left|) + " inquiry(ies) deleted successfully"))
  }

  /** A deleted inquiry can no longer be read, and the count is the number of stored
      inquiries whose id was listed. */
  lemma BulkDeletedAreGone(t: Inquiries, f: Formats, ids: seq<Id>, id: Id)
    requires id in ids && f.isCuid(id)
    ensures GetById(BulkDelete(t, ids).0, f, id) == Failure(InquiryNotFound)
    ensures BulkDelete(t, ids).1.data == Count(t, (r: Row<Inquiry>) => r.id in ids)
  {
    var s := set i | i in ids;
    CountExt(t, IdIn(s), (r: Row<Inquiry>) => r.id in ids);
  }

  // ------------------------------------------------------------------
  // getInquiryStatistics
  // ------------------------------------------------------------------

  datatype InquiryStats = InquiryStats(
    totalInquiries: nat,
    newInquiries: nat,
    inProgress: nat,
    resolved: nat,
    closed: nat,
    admissionInquiry: nat,
    generalSupport: nat,
    feedback: nat,
    complaint: nat)

  function AboutSubject(s: Subject): Row<Inquiry> -> bool
  {
    (r: Row<Inquiry>) => r.data.contact.subject == s
  }

  /** The four states cover every inquiry. */
  lemma {:induction false} StatusCountsAddUp(t: Inquiries)
    ensures Count(t, HasStatus(New)) + Count(t, HasStatus(InProgress)) + Count(t, HasStatus(Resolved))
            + Count(t, HasStatus(Closed)) == |t|
  {
    if |t| > 0 {
      StatusCountsAddUp(t[1..]);
    }
  }

  /** The five subjects cover every inquiry. */
  lemma {:induction false} SubjectCountsAddUp(t: Inquiries)
    ensures Count(t, AboutSubject(AdmissionInquiry)) + Count(t, AboutSubject(GeneralSupport))
            + Count(t, AboutSubject(Feedback)) + Count(t, AboutSubject(Complaint))
            + Count(t, AboutSubject(Others)) == |t|
  {
    if |t| > 0 {
      SubjectCountsAddUp(t[1..]);
    }
  }

  /** `getInquiryStatistics`: the four status counts add up to the total; the subject counts
      leave out OTHERS, and what they miss is exactly the inquiries about other matters. */
  function Statistics(t: Inquiries): (r: Response<InquiryStats>)
    ensures r.Success? && r.message == ""
    ensures r.data.totalInquiries == |t|
    ensures r.data.newInquiries == Count(t, HasStatus(New))
    ensures r.data.inProgress == Count(t, HasStatus(InProgress))
    ensures r.data.resolved == Count(t, HasStatus(Resolved))
    ensures r.data.closed == Count(t, HasStatus(Closed))
    ensures r.data.admissionInquiry == Count(t, AboutSubject(AdmissionInquiry))
    ensures r.data.generalSupport == Count(t, AboutSubject(GeneralSupport))
    ensures r.data.feedback == Count(t, AboutSubject(Feedback))
    ensures r.data.complaint == Count(t, AboutSubject(Complaint))
    ensures r.data.newInquiries + r.data.inProgress + r.data.resolved + r.data.closed == r.data.totalInquiries
    ensures r.data.admissionInquiry + r.data.generalSupport + r.data.feedback + r.data.complaint
            + Count(t, AboutSubject(Others)) == r.data.totalInquiries
  {
    StatusCountsAddUp(t);
    SubjectCountsAddUp(t);
    Success(InquiryStats(
      |t|,
      Count(t, HasStatus(New)), Count(t, HasStatus(InProgress)),
      Count(t, HasStatus(Resolved)), Count(t, HasStatus(Closed)),
      Count(t, AboutSubject(AdmissionInquiry)), Count(t, AboutSubject(GeneralSupport)),
      Count(t, AboutSubject(Feedback)), Count(t, AboutSubject(Complaint))), "")
  }

  // ------------------------------------------------------------------
  // getRecentInquiries
  // ------------------------------------------------------------------

  function ByCreatedAt(r: Row<Inquiry>): SortKey { Num(r.createdAt) }

  /** `getRecentInquiries(limit = 5)`: the newest NEW inquiries, at most `limit`; when fewer
      are waiting, all of them. */
  function Recent(t: Inquiries, limit: Option<nat>): (r: Response<seq<Row<Inquiry>>>)
    ensures r.Success? && r.message == ""
    ensures var n := if limit.Some? then limit.value else 5;
      |r.data| == if n <= Count(t, HasStatus(New)) then n else Count(t, HasStatus(New))
    ensures forall i :: 0 <= i < |r.data| ==> r.data[i] in t && r.data[i].data.status == New
    ensures forall i, j :: 0 <= i < j < |r.data| ==> r.data[i].createdAt >= r.data[j].createdAt
    ensures var n := if limit.Some? then limit.value else 5;
      Count(t, HasStatus(New)) <= n ==> multiset(r.data) == multiset(Filter(t, HasStatus(New)))
    ensures forall x :: x in t && x.data.status == New && x !in r.data ==>
              forall i :: 0 <= i < |r.data| ==> r.data[i].createdAt >= x.createdAt
  {
    var rows := Top(t, HasStatus(New), ByCreatedAt, Desc, if limit.Some? then limit.value else 5);
    NewestFirst(rows);
    forall x | x in t && x.data.status == New && x !in rows
      ensures forall i :: 0 <= i < |rows| ==> rows[i].createdAt >= x.createdAt
    {
      OmittedIsOlder(t, if limit.Some? then limit.value else 5, x);
    }
    Success(rows, "")
  }

  /** A NEW inquiry the cut leaves out is no newer than any it keeps. */
  lemma OmittedIsOlder(t: Inquiries, n: nat, x: Row<Inquiry>)
    requires x in t && x.data.status == New
    requires x !in Top(t, HasStatus(New), ByCreatedAt, Desc, n)
    ensures var rows := Top(t, HasStatus(New), ByCreatedAt, Desc, n);
      forall i :: 0 <= i < |rows| ==> rows[i].createdAt >= x.createdAt
  {
    var rows := Top(t, HasStatus(New), ByCreatedAt, Desc, n);
    assert x in Filter(t, HasStatus(New));
    forall i | 0 <= i < |rows| ensures rows[i].createdAt >= x.createdAt {
      assert InOrder(Desc, ByCreatedAt(rows[i]), ByCreatedAt(x));
    }
  }

  /** An inquiry submitted after every stored one heads the feed of new inquiries, whatever
      positive limit the feed is given. */
  lemma SubmittedIsRecent(t: Inquiries, f: Formats, x: ContactInput, ip: Option<string>, newId: Id, now: int, limit: Option<nat>)
    requires Create(t, f, x, ip, newId, now).1.Success?
    requires forall i :: 0 <= i < |t| ==> t[i].createdAt < now
    requires limit.None? || limit.value >= 1
    ensures var out := Create(t, f, x, ip, newId, now);
      out.1.data in Recent(out.0, limit).data
  {
    var out := Create(t, f, x, ip, newId, now);
    var row := out.1.data;
    forall y | y in out.0 && y != row ensures y.createdAt < row.createdAt {
      var j :| 0 <= j < |out.0| && out.0[j] == y;
      assert j < |t|;
    }
    NewestHeadsFeed(out.0, if limit.Some? then limit.value else 5, row);
  }

  /** A NEW inquiry strictly newer than every other one is kept by any positive cut. */
  lemma NewestHeadsFeed(t: Inquiries, n: nat, x: Row<Inquiry>)
    requires x in t && x.data.status == New && n >= 1
    requires forall y :: y in t && y != x ==> y.createdAt < x.createdAt
    ensures x in Top(t, HasStatus(New), ByCreatedAt, Desc, n)
  {
    var rows := Top(t, HasStatus(New), ByCreatedAt, Desc, n);
    if x !in rows {
      assert x in Filter(t, HasStatus(New));
      OmittedIsOlder(t, n, x);
    }
  }

  lemma NewestFirst(rows: Inquiries)
    requires SortedBy(rows, ByCreatedAt, Desc)
    ensures forall i, j :: 0 <= i < j < |rows| ==> rows[i].createdAt >= rows[j].createdAt
  {
    forall i, j | 0 <= i < j < |rows| ensures rows[i].createdAt >= rows[j].createdAt {
      assert InOrder(Desc, ByCreatedAt(rows[i]), ByCreatedAt(rows[j]));
    }
  }
}

=== FILE: inquiry_schemas.dfy ===
/** The input schemas of the contact-inquiry actions: the public contact form, the status
    update and the listing query. */
module InquirySchemas {
  import opened Wrappers
  import opened Text
  import opened Ordering
  import opened Pagination
  import AdmissionSchemas

  datatype Subject = AdmissionInquiry | GeneralSupport | Feedback | Complaint | Others

  function SubjectName(s: Subject): string
  {
    match s
    case AdmissionInquiry => "ADMISSION_INQUIRY"
    case GeneralSupport => "GENERAL_SUPPORT"
    case Feedback => "FEEDBACK"
    case Complaint => "COMPLAINT"
    case Others => "OTHERS"
  }

  function ParseSubject(s: string): (r: Parsed<Subject>)
    ensures r.Valid? ==> SubjectName(r.value) == s
    ensures r.Invalid? ==> forall t: Subject :: SubjectName(t) != s
  {
    if s == "ADMISSION_INQUIRY" then Valid(AdmissionInquiry)
    else if s == "GENERAL_SUPPORT" then Valid(GeneralSupport)
    else if s == "FEEDBACK" then Valid(Feedback)
    else if s == "COMPLAINT" then Valid(Complaint)
    else if s == "OTHERS" then Valid(Others)
    else Invalid
  }

  /** The handling state of an inquiry. */
  datatype InquiryStatus = New | InProgress | Resolved | Closed

  function StatusName(s: InquiryStatus): string
  {
    match s
    case New => "NEW"
    case InProgress => "IN_PROGRESS"
    case Resolved => "RESOLVED"
    case Closed => "CLOSED"
  }

  function ParseStatus(s: string): (r: Parsed<InquiryStatus>)
    ensures r.Valid? ==> StatusName(r.value) == s
    ensures r.Invalid? ==> forall t: InquiryStatus :: StatusName(t) != s
  {
    if s == "NEW" then Valid(New)
    else if s == "IN_PROGRESS" then Valid(InProgress)
    else if s == "RESOLVED" then Valid(Resolved)
    else if s == "CLOSED" then Valid(Closed)
    else Invalid
  }

  lemma EnumRoundTrips(s: Subject, t: InquiryStatus)
    ensures ParseSubject(SubjectName(s)) == Valid(s)
    ensures ParseStatus(StatusName(t)) == Valid(t)
  {
  }

  /** `phone: .regex(phoneRegex).nullable().optional().or(z.literal(""))`: absent, null, the
      empty string, or a ten-digit mobile number starting with 6 to 9 (the same pattern as
      on the admission form). */
  predicate ContactPhoneOk(phone: Option<string>)
  {
    phone.None? || phone.value == "" || AdmissionSchemas.IsPhone(phone.value)
  }

  /** The accepted phones, spelled out: nothing, the empty string, or ten digits of which the
      first is at least six. */
  lemma ContactPhoneCases(phone: Option<string>)
    ensures ContactPhoneOk(phone) <==>
      || phone.None?
      || phone == Some("")
      || (|phone.value| == 10 && AllDigits(phone.value) && phone.value[0] >= '6')
    ensures ContactPhoneOk(Some("9876543210")) && !ContactPhoneOk(Some("5876543210"))
    ensures !ContactPhoneOk(Some("98765 43210"))
  {
    assert "5876543210"[0] == '5';
    assert !IsDigit("98765 43210"[5]);
  }

  datatype ContactInput = ContactInput(
    fullName: string, email: string, phone: Option<string>, subject: string, message: string)

  datatype Contact = Contact(
    fullName: string, email: string, phone: Option<string>, subject: Subject, message: string)

  /** `contactInquirySchema` */
  function ParseContact(f: Formats, x: ContactInput): (r: Parsed<Contact>)
    ensures r.Valid? <==>
      && 2 <= |x.fullName| <= 150
      && f.isEmail(x.email) && |x.email| <= 100
      && ContactPhoneOk(x.phone)
      && ParseSubject(x.subject).Valid?
      && 10 <= |x.message| <= 2000
    ensures r.Valid? ==>
      && r.value.fullName == x.fullName && r.value.email == x.email && r.value.phone == x.phone
      && SubjectName(r.value.subject) == x.subject && r.value.message == x.message
  {
    var subject := ParseSubject(x.subject);
    if && 2 <= |x.fullName| <= 150 && f.isEmail(x.email) && |x.email| <= 100
       && ContactPhoneOk(x.phone) && subject.Valid? && 10 <= |x.message| <= 2000
    then Valid(Contact(x.fullName, x.email, x.phone, subject.value, x.message))
    else Invalid
  }

  datatype StatusUpdateInput = StatusUpdateInput(id: string, status: string, response: Field<string>, respondedBy: string)

  datatype StatusUpdate = StatusUpdate(id: string, status: InquiryStatus, response: Field<string>, respondedBy: string)

  /** `updateInquiryStatusSchema`: one of the four statuses, an optional response of at most
      2000 characters, and a non-empty responder. */
  function ParseStatusUpdate(f: Formats, x: StatusUpdateInput): (r: Parsed<StatusUpdate>)
    ensures r.Valid? <==>
      && f.isCuid(x.id)
      && ParseStatus(x.status).Valid?
      && (x.response.Present? ==> |x.response.value| <= 2000)
      && |x.respondedBy| >= 1
    ensures r.Valid? ==>
      && r.value.id == x.id && StatusName(r.value.status) == x.status
      && r.value.response == x.response && r.value.respondedBy == x.respondedBy
  {
    var st := ParseStatus(x.status);
    if f.isCuid(x.id) && st.Valid? && (x.response.Present? ==> |x.response.value| <= 2000) && |x.respondedBy| >= 1 then
      Valid(StatusUpdate(x.id, st.value, x.response, x.respondedBy))
    else Invalid
  }

  datatype InquirySortField = SortByCreatedAt | SortByUpdatedAt

  function InquirySortFieldName(field: InquirySortField): string
  {
    match field
    case SortByCreatedAt => "createdAt"
    case SortByUpdatedAt => "updatedAt"
  }

  function ParseInquirySortField(raw: Option<string>): (r: Parsed<InquirySortField>)
    ensures raw.None? ==> r == Valid(SortByCreatedAt)
    ensures raw.Some? ==> (r.Valid? <==> raw.value == "createdAt" || raw.value == "updatedAt")
    ensures raw.Some? && r.Valid? ==> InquirySortFieldName(r.value) == raw.value
  {
    match raw
    case None => Valid(SortByCreatedAt)
    case Some(s) =>
      if s == "createdAt" then Valid(SortByCreatedAt)
      else if s == "updatedAt" then Valid(SortByUpdatedAt)
      else Invalid
  }

  datatype InquiryQueryInput = InquiryQueryInput(
    page: Option<Number>,
    limit: Option<Number>,
    status: Option<string>,
    subject: Option<string>,
    searchQuery: Option<string>,
    sortBy: Option<string>,
    sortOrder: Option<string>)

  datatype InquiryQuery = InquiryQuery(
    page: int,
    limit: int,
    status: Option<InquiryStatus>,
    subject: Option<Subject>,
    searchQuery: Option<string>,
    sortBy: InquirySortField,
    sortOrder: Direction)

  /** `getInquiriesQuerySchema`. A missing query object is rejected. */
  function ParseInquiryQuery(raw: Option<InquiryQueryInput>): (r: Parsed<InquiryQuery>)
    ensures raw.None? ==> r.Invalid?
    ensures r.Valid? <==>
      && raw.Some?
      && ParsePage(raw.value.page).Valid? && ParseLimit(raw.value.limit).Valid?
      && (raw.value.status.Some? ==> ParseStatus(raw.value.status.value).Valid?)
      && (raw.value.subject.Some? ==> ParseSubject(raw.value.subject.value).Valid?)
      && ParseInquirySortField(raw.value.sortBy).Valid? && ParseOrder(raw.value.sortOrder).Valid?
    ensures r.Valid? ==> r.value.page >= 1 && 1 <= r.value.limit <= 100
    ensures r.Valid? ==> r.value.page as real == if raw.value.page.Some? then raw.value.page.value else 1.0
    ensures r.Valid? ==> r.value.limit as real == if raw.value.limit.Some? then raw.value.limit.value else 10.0
    ensures r.Valid? ==> if raw.value.sortBy.Some? then InquirySortFieldName(r.value.sortBy) == raw.value.sortBy.value
                         else r.value.sortBy == SortByCreatedAt
    ensures r.Valid? ==> (r.value.sortOrder == Asc <==> raw.value.sortOrder == Some("asc"))
    ensures r.Valid? ==> r.value.searchQuery == raw.value.searchQuery
    ensures r.Valid? ==> (r.value.status.Some? <==> raw.value.status.Some?) && (r.value.subject.Some? <==> raw.value.subject.Some?)
    ensures r.Valid? && r.value.status.Some? ==> StatusName(r.value.status.value) == raw.value.status.value
    ensures r.Valid? && r.value.subject.Some? ==> SubjectName(r.value.subject.value) == raw.value.subject.value
    ensures raw.Some? && raw.value.page.None? && raw.value.limit.None? && raw.value.status.None?
            && raw.value.subject.None? && raw.value.sortBy.None? && raw.value.sortOrder.None? ==>
      r.Valid? && r.value.page == 1 && r.value.limit == 10
      && r.value.sortBy == SortByCreatedAt && r.value.sortOrder == Desc
  {
    match raw
    case None => Invalid
    case Some(q) =>
      var page := ParsePage(q.page);
      var limit := ParseLimit(q.limit);
      var status := if q.status.None? then Valid(None)
        else match ParseStatus(q.status.value)
          case Valid(v) => Valid(Some(v))
          case Invalid => Invalid;
      var subject := if q.subject.None? then Valid(None)
        else match ParseSubject(q.subject.value)
          case Valid(v) => Valid(Some(v))
          case Invalid => Invalid;
      var sortBy := ParseInquirySortField(q.sortBy);
      var order := ParseOrder(q.sortOrder);
      if page.Valid? && limit.Valid? && status.Valid? && subject.Valid? && sortBy.Valid? && order.Valid? then
        Valid(InquiryQuery(page.value, limit.value, status.value, subject.value, q.searchQuery, sortBy.value, order.value))
      else Invalid
  }

  /** The query as a caller would write it, every field spelled out. */
  function InquiryQueryInputOf(q: InquiryQuery): InquiryQueryInput
  {
    InquiryQueryInput(Some(q.page as real), Some(q.limit as real),
                      if q.status.Some? then Some(StatusName(q.status.value)) else None,
                      if q.subject.Some? then Some(SubjectName(q.subject.value)) else None,
                      q.searchQuery, Some(InquirySortFieldName(q.sortBy)), Some(OrderName(q.sortOrder)))
  }

  /** Every query the schema can produce parses back from its written form. */
  lemma InquiryQueryRoundTrip(q: InquiryQuery)
    requires q.page >= 1 && 1 <= q.limit <= 100
    ensures ParseInquiryQuery(Some(InquiryQueryInputOf(q))) == Valid(q)
  {
    PagingRoundTrips(q.page, q.limit, q.sortOrder);
    if q.status.Some? {
      EnumRoundTrips(Others, q.status.value);
    }
    if q.subject.Some? {
      EnumRoundTrips(q.subject.value, New);
    }
  }

  /** The same query asking for page `k`. */
  function AtPage(raw: Option<InquiryQueryInput>, k: int): Option<InquiryQueryInput>
  {
    if raw.Some? then Some(raw.value.(page := Some(k as real))) else None
  }

  /** Asking for another page changes only the parsed page. */
  lemma AtPageMovesOnlyPage(raw: Option<InquiryQueryInput>, k: int)
    requires ParseInquiryQuery(raw).Valid? && k >= 1
    ensures ParseInquiryQuery(AtPage(raw, k)) == Valid(ParseInquiryQuery(raw).value.(page := k))
  {
    PagingRoundTrips(k, 1, Asc);
  }
}

=== FILE: listing.dfy ===
/** The shape every paged listing action shares: filter the table by the `where` clause,
    count the matches, order them by `orderBy`, skip `(page - 1) * limit` and take `limit`. */
module Listing {
  import opened Table
  import opened Ordering
  import opened Pagination

  datatype Page<T> = Page(items: seq<T>, pagination: PageInfo)

  /** Any contiguous run of a sorted sequence is sorted. */
  lemma SliceSorted<T>(s: seq<T>, key: T -> SortKey, dir: Direction, a: int, b: int)
    requires SortedBy(s, key, dir) && 0 <= a <= b <= |s|
    ensures SortedBy(s[a..b], key, dir)
  {
    assert forall i :: 0 <= i < b - a ==> s[a..b][i] == s[a + i];
  }

  /** A contiguous run of a sequence draws its elements from it. */
  lemma SliceSubMultiset<T>(s: seq<T>, a: int, b: int)
    requires 0 <= a <= b <= |s|
    ensures multiset(s[a..b]) <= multiset(s)
  {
    assert s == s[..a] + s[a..b] + s[b..];
  }

  /** A page cut from a sorted sequence is sorted and draws its elements from it. */
  lemma PageOfSorted<T>(s: seq<T>, key: T -> SortKey, dir: Direction, page: int, limit: int)
    requires SortedBy(s, key, dir) && page >= 1 && limit >= 1
    ensures SortedBy(TakePage(s, page, limit), key, dir)
    ensures multiset(TakePage(s, page, limit)) <= multiset(s)
  {
    var from := Skip(page, limit);
    MulMonotone(0, page - 1, limit);
    if from < |s| {
      var to := if from + limit <= |s| then from + limit else |s|;
      assert TakePage(s, page, limit) == s[from..to];
      SliceSorted(s, key, dir, from, to);
      SliceSubMultiset(s, from, to);
    }
  }

  /** Elements drawn from the rows a filter keeps are rows that pass it. */
  lemma DrawnFromFilter<T>(items: seq<T>, rows: seq<T>, p: T -> bool)
    requires multiset(items) <= multiset(Filter(rows, p))
    ensures forall i :: 0 <= i < |items| ==> items[i] in rows && p(items[i])
  {
    var matching := Filter(rows, p);
    forall i | 0 <= i < |items| ensures items[i] in rows && p(items[i]) {
      assert items[i] in multiset(items);
      assert items[i] in multiset(matching);
      var j :| 0 <= j < |matching| && matching[j] == items[i];
    }
  }

  /** The rows matching `p` in the requested order: the one sequence every page of a
      listing is cut from. */
  function Ordered<T>(rows: seq<T>, p: T -> bool, key: T -> SortKey, dir: Direction): (o: seq<T>)
    ensures multiset(o) == multiset(Filter(rows, p))
    ensures |o| == Count(rows, p)
    ensures SortedBy(o, key, dir)
  {
    var matching := Filter(rows, p);
    var ordered := Sort(matching, key, dir);
    assert |ordered| == |matching| by {
      assert |multiset(ordered)| == |multiset(matching)|;
    }
    ordered
  }

  /** One page of the rows matching `p`, ordered by `key` in direction `dir`, with its
      pagination metadata: the `limit` rows of the ordered matches that follow the first
      `(page - 1) * limit`. */
  function ListPage<T>(rows: seq<T>, p: T -> bool, key: T -> SortKey, dir: Direction, page: int, limit: int): (r: Page<T>)
    requires page >= 1 && limit >= 1
    ensures r.pagination == Paginate(page, limit, Count(rows, p))
    ensures r.items == TakePage(Ordered(rows, p, key, dir), page, limit)
    ensures forall i :: 0 <= i < |r.items| ==> r.items[i] in rows && p(r.items[i])
    ensures multiset(r.items) <= multiset(Filter(rows, p))
    ensures SortedBy(r.items, key, dir)
    ensures |r.items| == PageSize(page, limit, Count(rows, p))
  {
    var ordered := Ordered(rows, p, key, dir);
    var items := TakePage(ordered, page, limit);
    PageOfSorted(ordered, key, dir, page, limit);
    DrawnFromFilter(items, rows, p);
    Page(items, Paginate(page, limit, Count(rows, p)))
  }

  /** Walking the pages from 1 to the announced `totalPages` visits every matching row
      exactly once, in the requested order. */
  lemma PagesCoverMatches<T>(rows: seq<T>, p: T -> bool, key: T -> SortKey, dir: Direction, limit: int)
    requires limit >= 1
    ensures var all := PagesOf(Ordered(rows, p, key, dir), limit, ListPage(rows, p, key, dir, 1, limit).pagination.totalPages);
      multiset(all) == multiset(Filter(rows, p)) && SortedBy(all, key, dir)
  {
    AllPagesAreRows(Ordered(rows, p, key, dir), limit);
  }

  /** The database breaks ties between rows with equal keys as it pleases, possibly
      differently for each page query. When no two matching rows share a key, every sorted
      arrangement of the matches is `Ordered`, so each page query returns the model's page
      and the coverage lemmas hold whatever tie order the database uses. */
  lemma TieFreeOrderIsForced<T>(rows: seq<T>, p: T -> bool, key: T -> SortKey, dir: Direction, o: seq<T>)
    requires multiset(o) == multiset(Filter(rows, p)) && SortedBy(o, key, dir)
    requires forall x, y :: x in rows && p(x) && y in rows && p(y) && key(x) == key(y) ==> x == y
    ensures o == Ordered(rows, p, key, dir)
  {
    var matching := Filter(rows, p);
    forall x | x in o ensures x in rows && p(x) {
      assert x in multiset(o);
      assert x in matching;
      var i :| 0 <= i < |matching| && matching[i] == x;
    }
    SortedUnique(o, Ordered(rows, p, key, dir), key, dir);
  }

  /** Every row on a page may precede every row on any later page. */
  lemma LaterPagesFollow<T>(rows: seq<T>, p: T -> bool, key: T -> SortKey, dir: Direction, limit: int, k: int, m: int)
    requires limit >= 1 && 1 <= k < m
    ensures var early := ListPage(rows, p, key, dir, k, limit).items;
      var late := ListPage(rows, p, key, dir, m, limit).items;
      forall i, j :: 0 <= i < |early| && 0 <= j < |late| ==> InOrder(dir, key(early[i]), key(late[j]))
  {
    LaterPageFollows(Ordered(rows, p, key, dir), key, dir, limit, k, m);
  }

  /** Every matching row is on one of the announced pages. */
  lemma EveryMatchOnSomePage<T>(rows: seq<T>, p: T -> bool, key: T -> SortKey, dir: Direction, limit: int, x: T)
    requires limit >= 1
    requires x in rows && p(x)
    ensures exists k :: 1 <= k <= ListPage(rows, p, key, dir, 1, limit).pagination.totalPages
                        && x in ListPage(rows, p, key, dir, k, limit).items
  {
    var o := Ordered(rows, p, key, dir);
    assert x in multiset(Filter(rows, p));
    assert x in o by {
      assert x in multiset(o);
    }
    var j :| 0 <= j < |o| && o[j] == x;
    RowOnSomePage(o, limit, j);
    assert x in ListPage(rows, p, key, dir, j / limit + 1, limit).items;
  }

  /** A row a prefix of a sorted sequence leaves out (counting repeats) comes after every
      row the prefix keeps. */
  lemma OmittedFollow<T>(o: seq<T>, key: T -> SortKey, dir: Direction, k: int, x: T)
    requires SortedBy(o, key, dir) && 0 <= k <= |o|
    requires multiset(o[..k])[x] < multiset(o)[x]
    ensures forall i :: 0 <= i < k ==> InOrder(dir, key(o[i]), key(x))
  {
    assert o == o[..k] + o[k..];
    assert multiset(o) == multiset(o[..k]) + multiset(o[k..]);
    assert x in multiset(o[k..]);
    var j :| 0 <= j < |o[k..]| && o[k..][j] == x;
    assert o[k + j] == x;
  }

  /** `findMany({ where, take: n, orderBy })` without `skip`: the first `n` matching rows in
      the requested order, or all of them when fewer match. */
  function Top<T>(rows: seq<T>, p: T -> bool, key: T -> SortKey, dir: Direction, n: nat): (r: seq<T>)
    ensures |r| == if n <= Count(rows, p) then n else Count(rows, p)
    ensures forall i :: 0 <= i < |r| ==> r[i] in rows && p(r[i])
    ensures multiset(r) <= multiset(Filter(rows, p))
    ensures Count(rows, p) <= n ==> multiset(r) == multiset(Filter(rows, p))
    ensures SortedBy(r, key, dir)
    ensures forall x :: x in rows && p(x) && multiset(r)[x] < multiset(Filter(rows, p))[x] ==>
              forall i :: 0 <= i < |r| ==> InOrder(dir, key(r[i]), key(x))
  {
    var ordered := Ordered(rows, p, key, dir);
    var k := if n <= |ordered| then n else |ordered|;
    SliceSorted(ordered, key, dir, 0, k);
    SliceSubMultiset(ordered, 0, k);
    DrawnFromFilter(ordered[..k], rows, p);
    assert k == |ordered| ==> ordered[..k] == ordered;
    forall x | x in rows && p(x) && multiset(ordered[..k])[x] < multiset(Filter(rows, p))[x]
      ensures forall i :: 0 <= i < k ==> InOrder(dir, key(ordered[..k][i]), key(x))
    {
      OmittedFollow(ordered, key, dir, k, x);
    }
    ordered[..k]
  }

  /** A feed of `n` rows is the first page of a listing `n` rows per page. */
  lemma TopIsFirstPage<T>(rows: seq<T>, p: T -> bool, key: T -> SortKey, dir: Direction, n: nat)
    requires n >= 1
    ensures Top(rows, p, key, dir, n) == ListPage(rows, p, key, dir, 1, n).items
  {
    var o := Ordered(rows, p, key, dir);
    assert Skip(1, n) == 0;
    assert n > |o| ==> o[..|o|] == o[0..];
  }

  /** The page flags agree with the items: a page after this one holds rows exactly when a
      next page is announced. */
  lemma NextPageAnnounced<T>(rows: seq<T>, p: T -> bool, key: T -> SortKey, dir: Direction, page: int, limit: int)
    requires page >= 1 && limit >= 1
    ensures ListPage(rows, p, key, dir, page, limit).pagination.hasNextPage <==>
            |ListPage(rows, p, key, dir, page + 1, limit).items| > 0
    ensures |ListPage(rows, p, key, dir, page, limit).items| > 0 <==>
            page <= ListPage(rows, p, key, dir, page, limit).pagination.totalPages
  {
    var n := Count(rows, p);
    var dummy := seq(n, _ => 0);
    PageFlagsMatchRows(dummy, page, limit);
  }
}

=== FILE: notice_actions.dfy ===
/** The notice server actions over the `notice` and `noticeAttachment` tables: creation and
    update under the slug rule, the paged listing and the lookups (each notice with its
    attachments), deletion with its cascade, attachments, the view counter, the pinned and
    recent feeds, the statistics, bulk deletion and the publish and pin toggles. */
module NoticeActions {
  import opened Wrappers
  import opened Text
  import opened Decimal
  import opened Table
  import opened Ordering
  import opened Pagination
  import opened Listing
  import opened NoticeSchemas

  /** A stored notice: its columns and the view counter, which only the counter action moves. */
  datatype Notice = Notice(data: NoticeData, views: nat)

  type Notices = seq<Row<Notice>>

  type Attachments = seq<Row<Attachment>>

  /** Both tables; an attachment points at its notice through `noticeId`. */
  datatype Store = Store(notices: Notices, attachments: Attachments)

  function SlugOf(n: Notice): string { n.data.slug }

  /** Every attachment belongs to a stored notice: the foreign key of `noticeAttachment`. */
  predicate NoOrphans(s: Store)
  {
    forall i :: 0 <= i < |s.attachments| ==> s.attachments[i].data.noticeId in IdsOf(s.notices)
  }

  /** The store's integrity constraints: unique notice ids and slugs, unique attachment ids,
      and no attachment without its notice. */
  predicate ValidStore(s: Store)
  {
    && DistinctIds(s.notices) && UniqueBy(s.notices, SlugOf)
    && DistinctIds(s.attachments) && NoOrphans(s)
  }

  const NoticeNotFound := "Notice not found"
  const InvalidNoticeId := "Invalid notice ID"
  const SlugTaken := "A notice with this slug already exists. Please use a different slug."
  const SlugConflict := "A notice with this slug already exists."
  const AddAttachmentFailed := "Failed to add attachment. Please try again."
  const ViewsFailed := "Failed to increment views"

  // ------------------------------------------------------------------
  // Reading a notice with its attachments
  // ------------------------------------------------------------------

  /** A notice as the reads return it, under `include: { attachments: true }`. */
  datatype NoticeWithAttachments = NoticeWithAttachments(notice: Row<Notice>, attachments: Attachments)

  /** `atts` are exactly the stored attachments of the notice `id`. */
  predicate IsAttachmentsOf(s: Store, id: Id, atts: Attachments)
  {
    && (forall j :: 0 <= j < |atts| ==> atts[j] in s.attachments && atts[j].data.noticeId == id)
    && (forall j :: 0 <= j < |s.attachments| && s.attachments[j].data.noticeId == id ==> s.attachments[j] in atts)
  }

  function BelongsTo(id: Id): Row<Attachment> -> bool
  {
    (a: Row<Attachment>) => a.data.noticeId == id
  }

  /** Each row paired with its attachments. */
  function Include(s: Store, rows: Notices): (r: seq<NoticeWithAttachments>)
    ensures |r| == |rows|
    ensures forall i :: 0 <= i < |r| ==> r[i].notice == rows[i] && IsAttachmentsOf(s, rows[i].id, r[i].attachments)
  {
    seq(|rows|, i requires 0 <= i < |rows| => NoticeWithAttachments(rows[i], Filter(s.attachments, BelongsTo(rows[i].id))))
  }

  // ------------------------------------------------------------------
  // createNotice
  // ------------------------------------------------------------------

  /** `createNotice`: validates, refuses a slug already in use, and stores the notice with no
      views. A clash the pre-check cannot see (the generated id) is the database's P2002,
      which the action also reports as a taken slug. */
  function Create(s: Store, now: Instant, x: NoticeInput, newId: Id): (out: (Store, Response<Row<Notice>>))
    ensures ParseNotice(now, x).Invalid? ==> out == (s, Failure(ValidationFailed))
    ensures out.1.Failure? ==> out.0 == s
    ensures ParseNotice(now, x).Valid? ==>
      (out.1.Success? <==> (forall i :: 0 <= i < |s.notices| ==> s.notices[i].data.data.slug != x.slug) && newId !in IdsOf(s.notices))
    ensures ParseNotice(now, x).Valid? && (exists i :: 0 <= i < |s.notices| && s.notices[i].data.data.slug == x.slug) ==>
      out.1 == Failure(SlugTaken)
    ensures (&& ParseNotice(now, x).Valid?
             && (forall i :: 0 <= i < |s.notices| ==> s.notices[i].data.data.slug != x.slug)
             && newId in IdsOf(s.notices)) ==> out.1 == Failure(SlugConflict)
    ensures out.1.Success? ==>
      var row := out.1.data;
      && out.0 == Store(s.notices + [row], s.attachments)
      && row.id == newId && row.createdAt == now && row.updatedAt == now
      && row.data.data == ParseNotice(now, x).value && row.data.views == 0
      && out.1.message == "Notice created successfully!"
  {
    match ParseNotice(now, x)
    case Invalid => (s, Failure(ValidationFailed))
    case Valid(d) =>
      if FindBy(s.notices, SlugOf, d.slug).Some? then (s, Failure(SlugTaken))
      else if newId in IdsOf(s.notices) then (s, Failure(SlugConflict))
      else
        var row := Row(newId, now, now, Notice(d, 0));
        (Store(s.notices + [row], s.attachments), Success(row, "Notice created successfully!"))
  }

  /** Appending a notice keeps every attachment's notice in the table. */
  lemma AppendKeepsAttached(s: Store, row: Row<Notice>)
    requires NoOrphans(s)
    ensures NoOrphans(Store(s.notices + [row], s.attachments))
  {
    forall id | id in IdsOf(s.notices) ensures id in IdsOf(s.notices + [row]) {
      var n :| n in s.notices && n.id == id;
      assert n in s.notices + [row];
    }
  }

  /** Creation keeps the store's integrity constraints. */
  lemma CreateKeepsValid(s: Store, now: Instant, x: NoticeInput, newId: Id)
    requires ValidStore(s)
    ensures ValidStore(Create(s, now, x, newId).0)
  {
    var out := Create(s, now, x, newId);
    if out.1.Success? {
      AppendKeepsUnique(s.notices, out.1.data, SlugOf);
      AppendKeepsAttached(s, out.1.data);
    }
  }

  /** A created notice is found again by its slug, with no attachments yet. */
  lemma CreatedIsFoundBySlug(s: Store, now: Instant, x: NoticeInput, newId: Id)
    requires ValidStore(s)
    requires Create(s, now, x, newId).1.Success?
    ensures var out := Create(s, now, x, newId);
      var found := GetBySlug(out.0, x.slug);
      found.Success? && found.data.notice == out.1.data && found.data.attachments == []
  {
    var out := Create(s, now, x, newId);
    CreateKeepsValid(s, now, x, newId);
    assert out.1.data == out.0.notices[|s.notices|];
    FindByUnique(out.0.notices, SlugOf, out.1.data);
    var found := GetBySlug(out.0, x.slug);
    assert LookupSlugOk(x.slug);
    assert found.Success?;
    assert found.data.notice == out.1.data;
    forall j | 0 <= j < |s.attachments| ensures s.attachments[j].data.noticeId != newId {
      assert s.attachments[j].data.noticeId in IdsOf(s.notices);
    }
    CountZero(s.attachments, BelongsTo(newId));
    assert found.data.attachments == Filter(s.attachments, BelongsTo(newId));
  }

  // ------------------------------------------------------------------
  // updateNotice
  // ------------------------------------------------------------------

  /** The update's pre-check: the notice `findUnique` returns for the slug is not the one
      being updated. */
  predicate SlugHolderIsOther(t: Notices, slug: string, id: Id)
  {
    var holder := FindBy(t, SlugOf, slug);
    holder.Some? && holder.value.id != id
  }

  /** Some notice other than `id` uses `slug`. */
  predicate SlugHeldByOther(t: Notices, slug: string, id: Id)
  {
    exists i :: 0 <= i < |t| && t[i].id != id && t[i].data.data.slug == slug
  }

  /** With unique slugs, looking the holder up and comparing ids is the same as asking
      whether another notice uses the slug. */
  lemma SlugHolderIsOtherIffHeld(t: Notices, slug: string, id: Id)
    requires UniqueBy(t, SlugOf)
    ensures SlugHolderIsOther(t, slug, id) <==> SlugHeldByOther(t, slug, id)
  {
    if SlugHeldByOther(t, slug, id) {
      var i :| 0 <= i < |t| && t[i].id != id && t[i].data.data.slug == slug;
      assert t[i] in t;
      FindByUnique(t, SlugOf, t[i]);
    }
    if SlugHolderIsOther(t, slug, id) {
      var h := FindBy(t, SlugOf, slug).value;
      var j :| 0 <= j < |t| && t[j] == h;
    }
  }

  /** The columns an update writes: each given field replaces the stored one, `content` and
      the two optional dates follow the ORM's rule for an omitted, null or given field. */
  function Revise(u: NoticeUpdate): Notice -> Notice
  {
    (n: Notice) => n.(data := n.data.(
      title := Default(u.title, n.data.title),
      description := Default(u.description, n.data.description),
      content := Apply(n.data.content, u.content),
      category := Default(u.category, n.data.category),
      priority := Default(u.priority, n.data.priority),
      publishDate := Default(u.publishDate, n.data.publishDate),
      expiryDate := Apply(n.data.expiryDate, u.expiryDate),
      eventDate := Apply(n.data.eventDate, u.eventDate),
      isPublished := Default(u.isPublished, n.data.isPublished),
      isPinned := Default(u.isPinned, n.data.isPinned),
      isActive := Default(u.isActive, n.data.isActive),
      slug := Default(u.slug, n.data.slug)))
  }

  /** `b` is `a` after the raw update `x`, field by field: a field that was sent is now the
      sent value (an enum by its name), one that was not sent is as before, and the author
      never changes. */
  predicate RevisedFrom(a: NoticeData, b: NoticeData, x: NoticeUpdateInput)
  {
    && (if x.title.Some? then b.title == x.title.value else b.title == a.title)
    && (if x.description.Some? then b.description == x.description.value else b.description == a.description)
    && (x.content.Absent? ==> b.content == a.content)
    && (x.content.Null? ==> b.content.None?)
    && (x.content.Present? ==> b.content == Some(x.content.value))
    && (if x.category.Some? then CategoryName(b.category) == x.category.value else b.category == a.category)
    && (if x.priority.Some? then PriorityName(b.priority) == x.priority.value else b.priority == a.priority)
    && (if x.publishDate.Some? then b.publishDate == x.publishDate.value else b.publishDate == a.publishDate)
    && (x.expiryDate.Absent? ==> b.expiryDate == a.expiryDate)
    && (x.expiryDate.Null? ==> b.expiryDate.None?)
    && (x.expiryDate.Present? ==> b.expiryDate == Some(x.expiryDate.value))
    && (x.eventDate.Absent? ==> b.eventDate == a.eventDate)
    && (x.eventDate.Null? ==> b.eventDate.None?)
    && (x.eventDate.Present? ==> b.eventDate == Some(x.eventDate.value))
    && (if x.isPublished.Some? then b.isPublished == x.isPublished.value else b.isPublished == a.isPublished)
    && (if x.isPinned.Some? then b.isPinned == x.isPinned.value else b.isPinned == a.isPinned)
    && (if x.isActive.Some? then b.isActive == x.isActive.value else b.isActive == a.isActive)
    && (if x.slug.Some? then b.slug == x.slug.value else b.slug == a.slug)
    && b.author == a.author
  }

  /** Writing a parsed update revises every field as the raw input says, and keeps the view
      counter. */
  lemma ReviseFollowsInput(f: Formats, x: NoticeUpdateInput, n: Notice)
    requires ParseNoticeUpdate(f, x).Valid?
    ensures RevisedFrom(n.data, Revise(ParseNoticeUpdate(f, x).value)(n).data, x)
    ensures Revise(ParseNoticeUpdate(f, x).value)(n).views == n.views
  {
  }

  /** The write step of the update, once the checks have passed: the notice at `i` (the one
      named by the update) is revised and returned, every other row is kept. */
  function WriteUpdate(s: Store, f: Formats, x: NoticeUpdateInput, now: Instant, i: nat): (out: (Store, Row<Notice>))
    requires ParseNoticeUpdate(f, x).Valid?
    requires i < |s.notices| && s.notices[i].id == x.id
    ensures out.0.attachments == s.attachments
    ensures |out.0.notices| == |s.notices|
    ensures forall k :: 0 <= k < |s.notices| && s.notices[k].id != x.id ==> out.0.notices[k] == s.notices[k]
    ensures forall k :: 0 <= k < |s.notices| && s.notices[k].id == x.id ==>
      && out.0.notices[k].id == x.id && out.0.notices[k].createdAt == s.notices[k].createdAt
      && out.0.notices[k].updatedAt == now
      && out.0.notices[k].data.views == s.notices[k].data.views
      && RevisedFrom(s.notices[k].data.data, out.0.notices[k].data.data, x)
    ensures out.1.id == x.id && out.1 in out.0.notices
  {
    var u := ParseNoticeUpdate(f, x).value;
    var t' := UpdateWhere(s.notices, {u.id}, Revise(u), now);
    forall k | 0 <= k < |s.notices| && s.notices[k].id == x.id
      ensures RevisedFrom(s.notices[k].data.data, t'[k].data.data, x) && t'[k].data.views == s.notices[k].data.views
    {
      ReviseFollowsInput(f, x, s.notices[k].data);
    }
    assert t'[i] in t';
    (Store(t', s.attachments), t'[i])
  }

  /** `updateNotice`: a new slug is refused when another notice holds it (the notice's own
      slug may be sent again); then the sent fields are written. The slug check comes first,
      so an unknown id with a taken slug reports the slug. The view counter, the author and
      the attachments are untouched. */
  function Update(s: Store, f: Formats, x: NoticeUpdateInput, now: Instant): (out: (Store, Response<Row<Notice>>))
    ensures ParseNoticeUpdate(f, x).Invalid? ==> out == (s, Failure(ValidationFailed))
    ensures out.1.Failure? ==> out.0 == s
    ensures ParseNoticeUpdate(f, x).Valid? ==>
      (out.1.Success? <==> !(x.slug.Some? && SlugHolderIsOther(s.notices, x.slug.value, x.id)) && x.id in IdsOf(s.notices))
    ensures ParseNoticeUpdate(f, x).Valid? && x.slug.Some? && SlugHolderIsOther(s.notices, x.slug.value, x.id) ==>
      out.1 == Failure(SlugTaken)
    ensures (&& ParseNoticeUpdate(f, x).Valid?
             && !(x.slug.Some? && SlugHolderIsOther(s.notices, x.slug.value, x.id))
             && x.id !in IdsOf(s.notices)) ==> out.1 == Failure(NoticeNotFound)
    ensures out.1.Success? ==>
      && out.1.message == "Notice updated successfully!"
      && out.0.attachments == s.attachments
      && |out.0.notices| == |s.notices|
      && (forall i :: 0 <= i < |s.notices| && s.notices[i].id != x.id ==> out.0.notices[i] == s.notices[i])
      && (forall i :: 0 <= i < |s.notices| && s.notices[i].id == x.id ==>
            && out.0.notices[i].id == x.id && out.0.notices[i].createdAt == s.notices[i].createdAt
            && out.0.notices[i].updatedAt == now
            && out.0.notices[i].data.views == s.notices[i].data.views
            && RevisedFrom(s.notices[i].data.data, out.0.notices[i].data.data, x))
      && out.1.data.id == x.id && out.1.data in out.0.notices
  {
    match ParseNoticeUpdate(f, x)
    case Invalid => (s, Failure(ValidationFailed))
    case Valid(u) =>
      if u.slug.Some? && SlugHolderIsOther(s.notices, u.slug.value, u.id) then (s, Failure(SlugTaken))
      else match Find(s.notices, u.id)
        case None => (s, Failure(NoticeNotFound))
        case Some(row) =>
          var i :| 0 <= i < |s.notices| && s.notices[i] == row;
          var w := WriteUpdate(s, f, x, now, i);
          (w.0, Success(w.1, "Notice updated successfully!"))
  }

  /** On a valid store the slug rule of the update is exactly: another notice holds the sent
      slug. */
  lemma UpdateSlugRule(s: Store, f: Formats, x: NoticeUpdateInput, now: Instant)
    requires ValidStore(s)
    requires ParseNoticeUpdate(f, x).Valid? && x.slug.Some?
    ensures Update(s, f, x, now).1 == Failure(SlugTaken) <==> SlugHeldByOther(s.notices, x.slug.value, x.id)
  {
    SlugHolderIsOtherIffHeld(s.notices, x.slug.value, x.id);
  }

  /** Sending a notice's own slug back is not mistaken for a clash. */
  lemma ResaveOwnSlug(s: Store, f: Formats, x: NoticeUpdateInput, now: Instant, i: int)
    requires ValidStore(s)
    requires ParseNoticeUpdate(f, x).Valid?
    requires 0 <= i < |s.notices| && s.notices[i].id == x.id
    requires x.slug == Some(s.notices[i].data.data.slug)
    ensures Update(s, f, x, now).1.Success?
  {
    assert s.notices[i] in s.notices;
    FindByUnique(s.notices, SlugOf, s.notices[i]);
  }

  /** An update keeps the store's integrity constraints: the new slug is either the notice's
      own or one nobody else holds. */
  lemma UpdateKeepsValid(s: Store, f: Formats, x: NoticeUpdateInput, now: Instant)
    requires ValidStore(s)
    ensures ValidStore(Update(s, f, x, now).0)
  {
    var out := Update(s, f, x, now);
    if out.1.Success? {
      var t, t' := s.notices, out.0.notices;
      UpdateKeepsIds(t, {x.id}, Revise(ParseNoticeUpdate(f, x).value), now);
      if x.slug.Some? {
        SlugHolderIsOtherIffHeld(t, x.slug.value, x.id);
      }
      forall i, j | 0 <= i < j < |t'| ensures SlugOf(t'[i].data) != SlugOf(t'[j].data) {
        if t[i].id == x.id {
          assert t[j].id != x.id;
        } else if t[j].id == x.id {
          assert t[i].id != x.id;
        }
      }
    }
  }

  // ------------------------------------------------------------------
  // getAllNotices, getNoticeById, getNoticeBySlug
  // ------------------------------------------------------------------

  /** A substring of the title, the description or the content (a notice without content
      does not match on it). */
  predicate MatchesSearch(d: NoticeData, q: string)
  {
    Contains(d.title, q) || Contains(d.description, q) || (d.content.Some? && Contains(d.content.value, q))
  }

  /** The `where` clause of the listing: each filter that is given, and the search. */
  function NoticeMatches(q: NoticeQuery): Row<Notice> -> bool
  {
    (r: Row<Notice>) =>
      && (q.category.None? || r.data.data.category == q.category.value)
      && (q.priority.None? || r.data.data.priority == q.priority.value)
      && (q.isPublished.None? || r.data.data.isPublished == q.isPublished.value)
      && (q.isPinned.None? || r.data.data.isPinned == q.isPinned.value)
      && (q.isActive.None? || r.data.data.isActive == q.isActive.value)
      && (!Given(q.searchQuery) || MatchesSearch(r.data.data, q.searchQuery.value))
  }

  function NoticeKey(field: NoticeSortField): Row<Notice> -> SortKey
  {
    (r: Row<Notice>) =>
      match field
      case SortByCreatedAt => Num(r.createdAt)
      case SortByUpdatedAt => Num(r.updatedAt)
      case SortByPublishDate => Num(r.data.data.publishDate)
      case SortByViews => Num(r.data.views)
  }

  /** Pairing rows with their attachments keeps their order. */
  lemma IncludeKeepsOrder(s: Store, rows: Notices, key: Row<Notice> -> SortKey, dir: Direction)
    requires SortedBy(rows, key, dir)
    ensures forall i, j :: 0 <= i < j < |Include(s, rows)| ==>
      InOrder(dir, key(Include(s, rows)[i].notice), key(Include(s, rows)[j].notice))
  {
  }

  /** What passing the listing's `where` clause says about a notice, filter by filter. */
  lemma MatchingNotices(q: NoticeQuery, items: seq<NoticeWithAttachments>)
    requires forall i :: 0 <= i < |items| ==> NoticeMatches(q)(items[i].notice)
    ensures forall i :: 0 <= i < |items| ==>
      && (q.category.Some? ==> items[i].notice.data.data.category == q.category.value)
      && (q.priority.Some? ==> items[i].notice.data.data.priority == q.priority.value)
      && (q.isPublished.Some? ==> items[i].notice.data.data.isPublished == q.isPublished.value)
      && (q.isPinned.Some? ==> items[i].notice.data.data.isPinned == q.isPinned.value)
      && (q.isActive.Some? ==> items[i].notice.data.data.isActive == q.isActive.value)
      && (Given(q.searchQuery) ==> MatchesSearch(items[i].notice.data.data, q.searchQuery.value))
  {
  }

  /** `getAllNotices`: one page of the matching notices, each with its attachments. */
  function ListNotices(s: Store, raw: Option<NoticeQueryInput>): (r: Response<Page<NoticeWithAttachments>>)
    ensures r.Failure? <==> ParseNoticeQuery(raw).Invalid?
    ensures r.Failure? ==> r.error == InvalidQuery
    ensures r.Success? ==>
      var q := ParseNoticeQuery(raw).value;
      var items := r.data.items;
      && r.data.pagination == Paginate(q.page, q.limit, Count(s.notices, NoticeMatches(q)))
      && items == Include(s, TakePage(Ordered(s.notices, NoticeMatches(q), NoticeKey(q.sortBy), q.sortOrder), q.page, q.limit))
      && |items| == PageSize(q.page, q.limit, Count(s.notices, NoticeMatches(q)))
      && (forall i, j :: 0 <= i < j < |items| ==> InOrder(q.sortOrder, NoticeKey(q.sortBy)(items[i].notice), NoticeKey(q.sortBy)(items[j].notice)))
      && (forall i :: 0 <= i < |items| ==>
            && items[i].notice in s.notices
            && IsAttachmentsOf(s, items[i].notice.id, items[i].attachments)
            && (q.category.Some? ==> items[i].notice.data.data.category == q.category.value)
            && (q.priority.Some? ==> items[i].notice.data.data.priority == q.priority.value)
            && (q.isPublished.Some? ==> items[i].notice.data.data.isPublished == q.isPublished.value)
            && (q.isPinned.Some? ==> items[i].notice.data.data.isPinned == q.isPinned.value)
            && (q.isActive.Some? ==> items[i].notice.data.data.isActive == q.isActive.value)
            && (Given(q.searchQuery) ==> MatchesSearch(items[i].notice.data.data, q.searchQuery.value)))
  {
    match ParseNoticeQuery(raw)
    case Invalid => Failure(InvalidQuery)
    case Valid(q) =>
      var p := ListPage(s.notices, NoticeMatches(q), NoticeKey(q.sortBy), q.sortOrder, q.page, q.limit);
      var items := Include(s, p.items);
      IncludeKeepsOrder(s, p.items, NoticeKey(q.sortBy), q.sortOrder);
      MatchingNotices(q, items);
      Success(Page(items, p.pagination), "")
  }

  /** Every notice the query matches is listed, with its attachments, on one of the pages
      the listing announces. */
  lemma EveryMatchingNoticeIsListed(s: Store, raw: Option<NoticeQueryInput>, x: Row<Notice>)
    requires ParseNoticeQuery(raw).Valid?
    requires x in s.notices && NoticeMatches(ParseNoticeQuery(raw).value)(x)
    ensures exists k :: 1 <= k <= ListNotices(s, raw).data.pagination.totalPages && ListedOn(s, raw, k, x)
  {
    var q := ParseNoticeQuery(raw).value;
    EveryMatchOnSomePage(s.notices, NoticeMatches(q), NoticeKey(q.sortBy), q.sortOrder, q.limit, x);
    var k :| 1 <= k <= ListPage(s.notices, NoticeMatches(q), NoticeKey(q.sortBy), q.sortOrder, 1, q.limit).pagination.totalPages
             && x in ListPage(s.notices, NoticeMatches(q), NoticeKey(q.sortBy), q.sortOrder, k, q.limit).items;
    PageAt(s, raw, k, x);
    assert ListNotices(s, raw).data.pagination.totalPages
        == ListPage(s.notices, NoticeMatches(q), NoticeKey(q.sortBy), q.sortOrder, 1, q.limit).pagination.totalPages;
  }

  /** Notice `x` is on page `k` of the listing for `raw`. */
  predicate ListedOn(s: Store, raw: Option<NoticeQueryInput>, k: int, x: Row<Notice>)
  {
    var r := ListNotices(s, AtPage(raw, k));
    r.Success? && exists i :: 0 <= i < |r.data.items| && r.data.items[i].notice == x
  }

  /** A row of listing page `k` is shown, with its attachments, on page `k` of the query. */
  lemma PageAt(s: Store, raw: Option<NoticeQueryInput>, k: int, x: Row<Notice>)
    requires ParseNoticeQuery(raw).Valid? && k >= 1
    requires var q := ParseNoticeQuery(raw).value;
      x in ListPage(s.notices, NoticeMatches(q), NoticeKey(q.sortBy), q.sortOrder, k, q.limit).items
    ensures ListedOn(s, raw, k, x)
  {
    var q := ParseNoticeQuery(raw).value;
    var rows := ListPage(s.notices, NoticeMatches(q), NoticeKey(q.sortBy), q.sortOrder, k, q.limit).items;
    var i :| 0 <= i < |rows| && rows[i] == x;
    AtPageMovesOnlyPage(raw, k);
    assert ListNotices(s, AtPage(raw, k)).data.items[i].notice == x;
  }

  /** `getNoticeById` */
  function GetById(s: Store, f: Formats, id: string): (r: Response<NoticeWithAttachments>)
    ensures !f.isCuid(id) ==> r == Failure(InvalidNoticeId)
    ensures f.isCuid(id) ==> (r.Success? <==> id in IdsOf(s.notices))
    ensures f.isCuid(id) && r.Failure? ==> r.error == NoticeNotFound
    ensures r.Success? ==>
      && r.data.notice in s.notices && r.data.notice.id == id
      && IsAttachmentsOf(s, id, r.data.attachments)
  {
    if !f.isCuid(id) then Failure(InvalidNoticeId)
    else match Find(s.notices, id)
      case None => Failure(NoticeNotFound)
      case Some(row) => Success(Include(s, [row])[0], "")
  }

  /** `getNoticeBySlug`: the slug is checked against the pattern and the lower bound only. */
  function GetBySlug(s: Store, slug: string): (r: Response<NoticeWithAttachments>)
    ensures !LookupSlugOk(slug) ==> r == Failure("Invalid slug format")
    ensures LookupSlugOk(slug) ==>
      (r.Success? <==> exists i :: 0 <= i < |s.notices| && s.notices[i].data.data.slug == slug)
    ensures LookupSlugOk(slug) && r.Failure? ==> r.error == NoticeNotFound
    ensures r.Success? ==>
      && r.data.notice in s.notices && r.data.notice.data.data.slug == slug
      && IsAttachmentsOf(s, r.data.notice.id, r.data.attachments)
  {
    if !LookupSlugOk(slug) then Failure("Invalid slug format")
    else match FindBy(s.notices, SlugOf, slug)
      case None => Failure(NoticeNotFound)
      case Some(row) => Success(Include(s, [row])[0], "")
  }

  // ------------------------------------------------------------------
  // deleteNotice, bulkDeleteNotices
  // ------------------------------------------------------------------

  /** The attachment rows left after the notices `ids` are deleted: the relation cascades. */
  function Detach(atts: Attachments, ids: set<Id>): (r: Attachments)
    ensures forall i :: 0 <= i < |r| ==> r[i] in atts && r[i].data.noticeId !in ids
    ensures forall i :: 0 <= i < |atts| && atts[i].data.noticeId !in ids ==> atts[i] in r
  {
    Filter(atts, (a: Row<Attachment>) => a.data.noticeId !in ids)
  }

  /** The store after deleting the notices `ids` and, through the cascade, their attachments. */
  function RemoveNotices(s: Store, ids: set<Id>): Store
  {
    Store(RemoveIds(s.notices, ids), Detach(s.attachments, ids))
  }

  /** Deleting notices keeps the constraints: the cascade leaves no attachment behind whose
      notice is gone. */
  lemma RemoveNoticesKeepsValid(s: Store, ids: set<Id>)
    requires ValidStore(s)
    ensures ValidStore(RemoveNotices(s, ids))
  {
    var s' := RemoveNotices(s, ids);
    FilterKeepsDistinct(s.notices, IdNotIn(ids));
    FilterKeepsUnique(s.notices, IdNotIn(ids), SlugOf);
    FilterKeepsDistinct(s.attachments, (a: Row<Attachment>) => a.data.noticeId !in ids);
    forall i | 0 <= i < |s'.attachments| ensures s'.attachments[i].data.noticeId in IdsOf(s'.notices) {
      var a := s'.attachments[i];
      var k :| 0 <= k < |s.attachments| && s.attachments[k] == a;
      var n :| n in s.notices && n.id == a.data.noticeId;
      var j :| 0 <= j < |s.notices| && s.notices[j] == n;
      assert n in s'.notices;
    }
  }

  /** `deleteNotice`: removes the notice and, by the cascade, its attachments. */
  function Delete(s: Store, f: Formats, id: string): (out: (Store, Response<()>))
    ensures !f.isCuid(id) ==> out == (s, Failure(InvalidNoticeId))
    ensures out.1.Failure? ==> out.0 == s
    ensures f.isCuid(id) ==> (out.1.Success? <==> id in IdsOf(s.notices))
    ensures f.isCuid(id) && id !in IdsOf(s.notices) ==> out.1 == Failure(NoticeNotFound)
    ensures out.1.Success? ==>
      && out.1.message == "Notice deleted successfully"
      && |out.0.notices| == |s.notices| - Count(s.notices, IdIn({id}))
      && (forall i :: 0 <= i < |out.0.notices| ==> out.0.notices[i] in s.notices && out.0.notices[i].id != id)
      && (forall i :: 0 <= i < |s.notices| && s.notices[i].id != id ==> s.notices[i] in out.0.notices)
      && (forall i :: 0 <= i < |out.0.attachments| ==> out.0.attachments[i] in s.attachments && out.0.attachments[i].data.noticeId != id)
      && (forall i :: 0 <= i < |s.attachments| && s.attachments[i].data.noticeId != id ==> s.attachments[i] in out.0.attachments)
  {
    if !f.isCuid(id) then (s, Failure(InvalidNoticeId))
    else if id !in IdsOf(s.notices) then (s, Failure(NoticeNotFound))
    else (RemoveNotices(s, {id}), Success((), "Notice deleted successfully"))
  }

  /** After a deletion the notice is gone and so are all its attachments. */
  lemma DeletedIsGone(s: Store, f: Formats, id: string)
    requires ValidStore(s)
    requires Delete(s, f, id).1.Success?
    ensures ValidStore(Delete(s, f, id).0)
    ensures GetById(Delete(s, f, id).0, f, id) == Failure(NoticeNotFound)
    ensures forall i :: 0 <= i < |Delete(s, f, id).0.attachments| ==> Delete(s, f, id).0.attachments[i].data.noticeId != id
  {
    RemoveNoticesKeepsValid(s, {id});
  }

  /** `bulkDeleteNotices`: the ids are a set; unknown ids are skipped, and the reported count
      is the number of notices removed. Their attachments go with them. */
  function BulkDelete(s: Store, ids: seq<Id>): (out: (Store, Response<nat>))
    ensures |ids| == 0 ==> out == (s, Failure("No notices selected"))
    ensures out.1.Failure? ==> out.0 == s
    ensures |ids| > 0 ==> out.1.Success?
    ensures out.1.Success? ==>
      && out.1.data == |s.notices| - |out.0.notices|
      && out.1.message == NatToString(out.1.data) + " notice(s) deleted successfully"
      && (forall i :: 0 <= i < |out.0.notices| ==> out.0.notices[i] in s.notices && out.0.notices[i].id !in ids)
      && (forall i :: 0 <= i < |s.notices| && s.notices[i].id !in ids ==> s.notices[i] in out.0.notices)
      && (forall i :: 0 <= i < |out.0.attachments| ==> out.0.attachments[i] in s.attachments && out.0.attachments[i].data.noticeId !in ids)
      && (forall i :: 0 <= i < |s.attachments| && s.attachments[i].data.noticeId !in ids ==> s.attachments[i] in out.0.attachments)
  {
    if |ids| == 0 then (s, Failure("No notices selected"))
    else
      var set_ := set i | i in ids;
      var s' := RemoveNotices(s, set_);
      (s', Success(|s.notices| - |s'.notices|, NatToString(|s.notices| - |s'.notices|) + " notice(s) deleted successfully"))
  }

  /** Bulk deletion keeps the store's integrity constraints, and the count is the number of
      stored notices whose id was listed. */
  lemma BulkDeleteKeepsValid(s: Store, ids: seq<Id>)
    requires ValidStore(s)
    ensures ValidStore(BulkDelete(s, ids).0)
    ensures BulkDelete(s, ids).1.Success? ==> BulkDelete(s, ids).1.data == Count(s.notices, (r: Row<Notice>) => r.id in ids)
  {
    if |ids| > 0 {
      var set_ := set i | i in ids;
      RemoveNoticesKeepsValid(s, set_);
      CountExt(s.notices, IdIn(set_), (r: Row<Notice>) => r.id in ids);
    }
  }

  // ------------------------------------------------------------------
  // addNoticeAttachment, deleteNoticeAttachment
  // ------------------------------------------------------------------

  /** `addNoticeAttachment`: a notice id that is well formed but unknown violates the foreign
      key (P2003) and is reported as a missing notice; a clash on the generated id falls to
      the catch-all message. */
  function AddAttachment(s: Store, f: Formats, x: AttachmentInput, newId: Id, now: Instant): (out: (Store, Response<Row<Attachment>>))
    ensures ParseAttachment(f, x).Invalid? ==> out == (s, Failure(ValidationFailed))
    ensures out.1.Failure? ==> out.0 == s
    ensures ParseAttachment(f, x).Valid? ==>
      (out.1.Success? <==> x.noticeId in IdsOf(s.notices) && newId !in IdsOf(s.attachments))
    ensures ParseAttachment(f, x).Valid? && x.noticeId !in IdsOf(s.notices) ==> out.1 == Failure(NoticeNotFound)
    ensures ParseAttachment(f, x).Valid? && x.noticeId in IdsOf(s.notices) && newId in IdsOf(s.attachments) ==>
      out.1 == Failure(AddAttachmentFailed)
    ensures out.1.Success? ==>
      var row := out.1.data;
      && out.0 == Store(s.notices, s.attachments + [row])
      && row.id == newId && row.createdAt == now && row.updatedAt == now
      && row.data == ParseAttachment(f, x).value && row.data.noticeId == x.noticeId
      && out.1.message == "Attachment added successfully!"
  {
    match ParseAttachment(f, x)
    case Invalid => (s, Failure(ValidationFailed))
    case Valid(a) =>
      if a.noticeId !in IdsOf(s.notices) then (s, Failure(NoticeNotFound))
      else if newId in IdsOf(s.attachments) then (s, Failure(AddAttachmentFailed))
      else
        var row := Row(newId, now, now, a);
        (Store(s.notices, s.attachments + [row]), Success(row, "Attachment added successfully!"))
  }

  /** Adding an attachment keeps the constraints, and the notice now lists it. */
  lemma AddedAttachmentIsListed(s: Store, f: Formats, x: AttachmentInput, newId: Id, now: Instant)
    requires ValidStore(s)
    requires AddAttachment(s, f, x, newId, now).1.Success?
    ensures var out := AddAttachment(s, f, x, newId, now);
      && ValidStore(out.0)
      && var shown := GetById(out.0, f, x.noticeId);
         shown.Success? && out.1.data in shown.data.attachments
  {
    var out := AddAttachment(s, f, x, newId, now);
    var row := out.1.data;
    var atts := s.attachments + [row];
    forall i, j | 0 <= i < j < |atts| ensures atts[i].id != atts[j].id {
      if j == |s.attachments| {
        assert atts[i] in s.attachments;
      }
    }
    forall i | 0 <= i < |atts| ensures atts[i].data.noticeId in IdsOf(s.notices) {
      if i < |s.attachments| {
        assert atts[i] == s.attachments[i];
      }
    }
    assert atts[|s.attachments|] == row;
  }

  /** `deleteNoticeAttachment` */
  function DeleteAttachment(s: Store, f: Formats, id: string): (out: (Store, Response<()>))
    ensures !f.isCuid(id) ==> out == (s, Failure("Invalid attachment ID"))
    ensures out.1.Failure? ==> out.0 == s
    ensures f.isCuid(id) ==> (out.1.Success? <==> id in IdsOf(s.attachments))
    ensures f.isCuid(id) && id !in IdsOf(s.attachments) ==> out.1 == Failure("Attachment not found")
    ensures out.1.Success? ==>
      && out.1.message == "Attachment deleted successfully"
      && out.0.notices == s.notices
      && (forall i :: 0 <= i < |out.0.attachments| ==> out.0.attachments[i] in s.attachments && out.0.attachments[i].id != id)
      && (forall i :: 0 <= i < |s.attachments| && s.attachments[i].id != id ==> s.attachments[i] in out.0.attachments)
  {
    if !f.isCuid(id) then (s, Failure("Invalid attachment ID"))
    else if id !in IdsOf(s.attachments) then (s, Failure("Attachment not found"))
    else (Store(s.notices, RemoveIds(s.attachments, {id})), Success((), "Attachment deleted successfully"))
  }

  /** Removing an attachment keeps the store's integrity constraints. */
  lemma DeleteAttachmentKeepsValid(s: Store, f: Formats, id: string)
    requires ValidStore(s)
    ensures ValidStore(DeleteAttachment(s, f, id).0)
  {
    var out := DeleteAttachment(s, f, id);
    if out.1.Success? {
      FilterKeepsDistinct(s.attachments, IdNotIn({id}));
      forall i | 0 <= i < |out.0.attachments| ensures out.0.attachments[i].data.noticeId in IdsOf(s.notices) {
        var k :| 0 <= k < |s.attachments| && s.attachments[k] == out.0.attachments[i];
      }
    }
  }

  // ------------------------------------------------------------------
  // incrementNoticeViews
  // ------------------------------------------------------------------

  function Bump(n: Notice): Notice { n.(views := n.views + 1) }

  /** `incrementNoticeViews`: adds one to the counter and reports the new count. Every error,
      a malformed or an unknown id included, has the one message. */
  function IncrementViews(s: Store, f: Formats, id: string, now: Instant): (out: (Store, Response<nat>))
    ensures out.1.Failure? ==> out == (s, Failure(ViewsFailed))
    ensures out.1.Success? <==> f.isCuid(id) && id in IdsOf(s.notices)
    ensures out.1.Success? ==>
      && out.0.attachments == s.attachments
      && |out.0.notices| == |s.notices|
      && (forall i :: 0 <= i < |s.notices| && s.notices[i].id != id ==> out.0.notices[i] == s.notices[i])
      && (forall i :: 0 <= i < |s.notices| && s.notices[i].id == id ==>
            && out.0.notices[i].id == id && out.0.notices[i].createdAt == s.notices[i].createdAt
            && out.0.notices[i].data.data == s.notices[i].data.data
            && out.0.notices[i].data.views == s.notices[i].data.views + 1)
      && (exists i :: 0 <= i < |s.notices| && s.notices[i].id == id && out.1.data == out.0.notices[i].data.views)
  {
    if !f.isCuid(id) then (s, Failure(ViewsFailed))
    else match Find(s.notices, id)
      case None => (s, Failure(ViewsFailed))
      case Some(row) =>
        (Store(UpdateWhere(s.notices, {id}, Bump, now), s.attachments), Success(row.data.views + 1, ""))
  }

  /** Counting a view keeps the constraints, and `k` successive views raise the counter by
      exactly `k`. */
  lemma ViewsAddUp(s: Store, f: Formats, id: string, now: Instant, i: int)
    requires ValidStore(s)
    requires f.isCuid(id) && 0 <= i < |s.notices| && s.notices[i].id == id
    ensures ValidStore(IncrementViews(s, f, id, now).0)
    ensures var s2 := IncrementViews(IncrementViews(s, f, id, now).0, f, id, now);
      s2.1.Success? && s2.1.data == s.notices[i].data.views + 2
  {
    var s1 := IncrementViews(s, f, id, now).0;
    assert s.notices[i] in s.notices;
    UpdateKeepsIds(s.notices, {id}, Bump, now);
    UpdateKeepsUnique(s.notices, {id}, Bump, now, SlugOf);
    assert s1.notices[i] in s1.notices;
    FindUnique(s1.notices, s1.notices[i]);
  }

  // ------------------------------------------------------------------
  // getPinnedNotices, getRecentNotices
  // ------------------------------------------------------------------

  /** What the public feeds show: published and active notices. */
  function IsLive(r: Row<Notice>): bool { r.data.data.isPublished && r.data.data.isActive }

  function IsPinnedLive(r: Row<Notice>): bool { r.data.data.isPinned && IsLive(r) }

  function ByPublishDate(r: Row<Notice>): SortKey { Num(r.data.data.publishDate) }

  /** The rows passing `p`, newest first, at most `n`, each with its attachments. */
  function Feed(s: Store, p: Row<Notice> -> bool, n: nat): (r: seq<NoticeWithAttachments>)
    ensures |r| == if n <= Count(s.notices, p) then n else Count(s.notices, p)
    ensures forall i :: 0 <= i < |r| ==>
      r[i].notice in s.notices && p(r[i].notice) && IsAttachmentsOf(s, r[i].notice.id, r[i].attachments)
    ensures forall i, j :: 0 <= i < j < |r| ==> r[i].notice.data.data.publishDate >= r[j].notice.data.data.publishDate
    ensures forall x :: x in s.notices && p(x) && Omits(r, x) ==>
              forall i :: 0 <= i < |r| ==> r[i].notice.data.data.publishDate >= x.data.data.publishDate
  {
    var rows := Top(s.notices, p, ByPublishDate, Desc, n);
    IncludeNewestFirst(s, rows);
    forall x | x in s.notices && p(x) && Omits(Include(s, rows), x)
      ensures forall i :: 0 <= i < |rows| ==> rows[i].data.data.publishDate >= x.data.data.publishDate
    {
      OmittedIsOlder(s, p, n, x);
    }
    Include(s, rows)
  }

  /** A notice the newest-first cut leaves out is no newer than any it keeps. */
  lemma OmittedIsOlder(s: Store, p: Row<Notice> -> bool, n: nat, x: Row<Notice>)
    requires x in s.notices && p(x)
    requires Omits(Include(s, Top(s.notices, p, ByPublishDate, Desc, n)), x)
    ensures var rows := Top(s.notices, p, ByPublishDate, Desc, n);
      forall i :: 0 <= i < |rows| ==> rows[i].data.data.publishDate >= x.data.data.publishDate
  {
    var rows := Top(s.notices, p, ByPublishDate, Desc, n);
    assert x in Filter(s.notices, p);
    assert x !in rows;
    forall i | 0 <= i < |rows| ensures rows[i].data.data.publishDate >= x.data.data.publishDate {
      assert InOrder(Desc, ByPublishDate(rows[i]), ByPublishDate(x));
    }
  }

  /** The feed leaves out notice `x`. */
  predicate Omits(r: seq<NoticeWithAttachments>, x: Row<Notice>)
  {
    forall i :: 0 <= i < |r| ==> r[i].notice != x
  }

  lemma IncludeNewestFirst(s: Store, rows: Notices)
    requires SortedBy(rows, ByPublishDate, Desc)
    ensures forall i, j :: 0 <= i < j < |Include(s, rows)| ==>
      Include(s, rows)[i].notice.data.data.publishDate >= Include(s, rows)[j].notice.data.data.publishDate
  {
    forall i, j | 0 <= i < j < |rows| ensures rows[i].data.data.publishDate >= rows[j].data.data.publishDate {
      assert InOrder(Desc, ByPublishDate(rows[i]), ByPublishDate(rows[j]));
    }
  }

  /** `getPinnedNotices(limit = 5)`: the newest pinned live notices, at most `limit`. */
  function Pinned(s: Store, limit: Option<nat>): (r: Response<seq<NoticeWithAttachments>>)
    ensures r.Success? && r.message == ""
    ensures var n := if limit.Some? then limit.value else 5;
      |r.data| == if n <= Count(s.notices, IsPinnedLive) then n else Count(s.notices, IsPinnedLive)
    ensures forall i :: 0 <= i < |r.data| ==>
      && r.data[i].notice in s.notices
      && r.data[i].notice.data.data.isPinned && r.data[i].notice.data.data.isPublished && r.data[i].notice.data.data.isActive
      && IsAttachmentsOf(s, r.data[i].notice.id, r.data[i].attachments)
    ensures forall i, j :: 0 <= i < j < |r.data| ==> r.data[i].notice.data.data.publishDate >= r.data[j].notice.data.data.publishDate
    ensures forall x :: x in s.notices && IsPinnedLive(x) && Omits(r.data, x) ==>
              forall i :: 0 <= i < |r.data| ==> r.data[i].notice.data.data.publishDate >= x.data.data.publishDate
  {
    Success(Feed(s, IsPinnedLive, if limit.Some? then limit.value else 5), "")
  }

  /** `getRecentNotices(limit = 10)`: the newest live notices, at most `limit`. */
  function Recent(s: Store, limit: Option<nat>): (r: Response<seq<NoticeWithAttachments>>)
    ensures r.Success? && r.message == ""
    ensures var n := if limit.Some? then limit.value else 10;
      |r.data| == if n <= Count(s.notices, IsLive) then n else Count(s.notices, IsLive)
    ensures forall i :: 0 <= i < |r.data| ==>
      && r.data[i].notice in s.notices
      && r.data[i].notice.data.data.isPublished && r.data[i].notice.data.data.isActive
      && IsAttachmentsOf(s, r.data[i].notice.id, r.data[i].attachments)
    ensures forall i, j :: 0 <= i < j < |r.data| ==> r.data[i].notice.data.data.publishDate >= r.data[j].notice.data.data.publishDate
    ensures forall x :: x in s.notices && IsLive(x) && Omits(r.data, x) ==>
              forall i :: 0 <= i < |r.data| ==> r.data[i].notice.data.data.publishDate >= x.data.data.publishDate
  {
    Success(Feed(s, IsLive, if limit.Some? then limit.value else 10), "")
  }

  /** Pinned live notices are live, so with the same limit the pinned feed is never longer
      than the recent one. */
  lemma PinnedWithinRecent(s: Store, n: nat)
    ensures |Pinned(s, Some(n)).data| <= |Recent(s, Some(n)).data|
  {
    CountMonotone(s.notices, IsPinnedLive, IsLive);
  }

  // ------------------------------------------------------------------
  // getNoticeStatistics
  // ------------------------------------------------------------------

  datatype NoticeStats = NoticeStats(
    totalNotices: nat,
    publishedNotices: nat,
    draftNotices: nat,
    pinnedNotices: nat,
    urgent: nat,
    admission: nat,
    examination: nat,
    event: nat)

  function IsActive(r: Row<Notice>): bool { r.data.data.isActive }

  function IsDraft(r: Row<Notice>): bool { !r.data.data.isPublished && r.data.data.isActive }

  function IsActivePinned(r: Row<Notice>): bool { r.data.data.isActive && r.data.data.isPinned }

  function IsActiveUrgent(r: Row<Notice>): bool { r.data.data.isActive && r.data.data.priority == Urgent }

  function InCategory(c: NoticeCategory): Row<Notice> -> bool
  {
    (r: Row<Notice>) => r.data.data.isActive && r.data.data.category == c
  }

  /** Three distinct categories among the active notices never outnumber them. */
  lemma {:induction false} CategoryCountsBounded(t: Notices, a: NoticeCategory, b: NoticeCategory, c: NoticeCategory)
    requires a != b && b != c && a != c
    ensures Count(t, InCategory(a)) + Count(t, InCategory(b)) + Count(t, InCategory(c)) <= Count(t, IsActive)
  {
    if |t| > 0 {
      CategoryCountsBounded(t[1..], a, b, c);
    }
  }

  /** `getNoticeStatistics`: every count is over the active notices only, so published and
      draft split the total, and the pinned, urgent and per-category counts stay within it. */
  function Statistics(s: Store): (r: Response<NoticeStats>)
    ensures r.Success? && r.message == ""
    ensures r.data.totalNotices == Count(s.notices, IsActive)
    ensures r.data.publishedNotices + r.data.draftNotices == r.data.totalNotices
    ensures r.data.publishedNotices == Count(s.notices, IsLive)
    ensures r.data.draftNotices == Count(s.notices, IsDraft)
    ensures r.data.pinnedNotices == Count(s.notices, IsActivePinned)
    ensures r.data.urgent == Count(s.notices, IsActiveUrgent)
    ensures r.data.admission == Count(s.notices, InCategory(Admission))
    ensures r.data.examination == Count(s.notices, InCategory(Examination))
    ensures r.data.event == Count(s.notices, InCategory(Event))
    ensures r.data.pinnedNotices <= r.data.totalNotices && r.data.urgent <= r.data.totalNotices
    ensures r.data.admission + r.data.examination + r.data.event <= r.data.totalNotices
  {
    var t := s.notices;
    CountPartition(t, IsActive, IsLive, IsDraft);
    CountMonotone(t, IsActivePinned, IsActive);
    CountMonotone(t, IsActiveUrgent, IsActive);
    CategoryCountsBounded(t, Admission, Examination, Event);
    Success(NoticeStats(
      Count(t, IsActive),
      Count(t, IsLive),
      Count(t, IsDraft),
      Count(t, IsActivePinned),
      Count(t, IsActiveUrgent),
      Count(t, InCategory(Admission)),
      Count(t, InCategory(Examination)),
      Count(t, InCategory(Event))), "")
  }

  // ------------------------------------------------------------------
  // toggleNoticePublishStatus, toggleNoticePinStatus
  // ------------------------------------------------------------------

  function FlipPublished(n: Notice): Notice { n.(data := n.data.(isPublished := !n.data.isPublished)) }

  function FlipPinned(n: Notice): Notice { n.(data := n.data.(isPinned := !n.data.isPinned)) }

  /** `toggleNoticePublishStatus`: the id is not validated, an unknown one is reported as a
      missing notice. Only `isPublished` changes. */
  function TogglePublish(s: Store, id: string, now: Instant): (out: (Store, Response<Row<Notice>>))
    ensures out.1.Failure? ==> out == (s, Failure(NoticeNotFound))
    ensures out.1.Success? <==> id in IdsOf(s.notices)
    ensures out.1.Success? ==>
      && out.1.message == (if out.1.data.data.data.isPublished then "Notice published successfully" else "Notice unpublished successfully")
      && out.1.data.id == id && out.1.data in out.0.notices
      && out.0.attachments == s.attachments
      && |out.0.notices| == |s.notices|
      && (forall i :: 0 <= i < |s.notices| ==>
            && out.0.notices[i].id == s.notices[i].id
            && out.0.notices[i].data.views == s.notices[i].data.views
            && out.0.notices[i].data.data.isPublished == (s.notices[i].data.data.isPublished != (s.notices[i].id == id))
            && out.0.notices[i].data.data == s.notices[i].data.data.(isPublished := out.0.notices[i].data.data.isPublished))
  {
    match Find(s.notices, id)
    case None => (s, Failure(NoticeNotFound))
    case Some(row) =>
      var t' := UpdateWhere(s.notices, {id}, FlipPublished, now);
      var i :| 0 <= i < |s.notices| && s.notices[i] == row;
      assert t'[i] in t';
      (Store(t', s.attachments),
       Success(t'[i], if t'[i].data.data.isPublished then "Notice published successfully" else "Notice unpublished successfully"))
  }

  /** `toggleNoticePinStatus`: as the publish toggle, for `isPinned`. */
  function TogglePin(s: Store, id: string, now: Instant): (out: (Store, Response<Row<Notice>>))
    ensures out.1.Failure? ==> out == (s, Failure(NoticeNotFound))
    ensures out.1.Success? <==> id in IdsOf(s.notices)
    ensures out.1.Success? ==>
      && out.1.message == (if out.1.data.data.data.isPinned then "Notice pinned successfully" else "Notice unpinned successfully")
      && out.1.data.id == id && out.1.data in out.0.notices
      && out.0.attachments == s.attachments
      && |out.0.notices| == |s.notices|
      && (forall i :: 0 <= i < |s.notices| ==>
            && out.0.notices[i].id == s.notices[i].id
            && out.0.notices[i].data.views == s.notices[i].data.views
            && out.0.notices[i].data.data.isPinned == (s.notices[i].data.data.isPinned != (s.notices[i].id == id))
            && out.0.notices[i].data.data == s.notices[i].data.data.(isPinned := out.0.notices[i].data.data.isPinned))
  {
    match Find(s.notices, id)
    case None => (s, Failure(NoticeNotFound))
    case Some(row) =>
      var t' := UpdateWhere(s.notices, {id}, FlipPinned, now);
      var i :| 0 <= i < |s.notices| && s.notices[i] == row;
      assert t'[i] in t';
      (Store(t', s.attachments),
       Success(t'[i], if t'[i].data.data.isPinned then "Notice pinned successfully" else "Notice unpinned successfully"))
  }

  /** Publishing twice restores every notice's columns and counter (only `updatedAt` moves). */
  lemma TogglePublishTwice(s: Store, id: string, now: Instant, later: Instant)
    ensures var s2 := TogglePublish(TogglePublish(s, id, now).0, id, later).0;
      |s2.notices| == |s.notices| && forall i :: 0 <= i < |s.notices| ==> s2.notices[i].id == s.notices[i].id && s2.notices[i].data == s.notices[i].data
  {
    var s1 := TogglePublish(s, id, now).0;
    var s2 := TogglePublish(s1, id, later).0;
    if id in IdsOf(s.notices) {
      var k :| 0 <= k < |s.notices| && s.notices[k].id == id;
      assert s1.notices[k] in s1.notices;
      forall i | 0 <= i < |s.notices| ensures s2.notices[i].id == s.notices[i].id && s2.notices[i].data == s.notices[i].data {
        var a, b, c := s.notices[i].data, s1.notices[i].data, s2.notices[i].data;
        assert b.data == a.data.(isPublished := b.data.isPublished) && b.views == a.views;
        assert c.data == b.data.(isPublished := c.data.isPublished) && c.views == b.views;
        assert c.data.isPublished == a.data.isPublished;
        assert c.data == a.data;
      }
    }
  }

  /** Pinning twice restores every notice's columns and counter (only `updatedAt` moves). */
  lemma TogglePinTwice(s: Store, id: string, now: Instant, later: Instant)
    ensures var s2 := TogglePin(TogglePin(s, id, now).0, id, later).0;
      |s2.notices| == |s.notices| && forall i :: 0 <= i < |s.notices| ==> s2.notices[i].id == s.notices[i].id && s2.notices[i].data == s.notices[i].data
  {
    var s1 := TogglePin(s, id, now).0;
    var s2 := TogglePin(s1, id, later).0;
    if id in IdsOf(s.notices) {
      var k :| 0 <= k < |s.notices| && s.notices[k].id == id;
      assert s1.notices[k] in s1.notices;
      forall i | 0 <= i < |s.notices| ensures s2.notices[i].id == s.notices[i].id && s2.notices[i].data == s.notices[i].data {
        var a, b, c := s.notices[i].data, s1.notices[i].data, s2.notices[i].data;
        assert b.data == a.data.(isPinned := b.data.isPinned) && b.views == a.views;
        assert c.data == b.data.(isPinned := c.data.isPinned) && c.views == b.views;
        assert c.data.isPinned == a.data.isPinned;
        assert c.data == a.data;
      }
    }
  }

  /** Neither toggle touches an id or a slug, so both keep the store's constraints. */
  lemma TogglesKeepValid(s: Store, id: string, now: Instant)
    requires ValidStore(s)
    ensures ValidStore(TogglePublish(s, id, now).0) && ValidStore(TogglePin(s, id, now).0)
  {
    UpdateKeepsIds(s.notices, {id}, FlipPublished, now);
    UpdateKeepsUnique(s.notices, {id}, FlipPublished, now, SlugOf);
    UpdateKeepsIds(s.notices, {id}, FlipPinned, now);
    UpdateKeepsUnique(s.notices, {id}, FlipPinned, now, SlugOf);
  }
}

=== FILE: notice_schemas.dfy ===
/** The input schemas of the notice actions: the URL slug, the notice form with its bounds and
    defaults, the partial update, attachments, and the listing query. */
module NoticeSchemas {
  import opened Wrappers
  import opened Text
  import opened Ordering
  import opened Pagination

  datatype NoticeCategory =
    | Admission | Examination | Holiday | Event | AcademicNotice | Sports | Cultural
    | GeneralNotice | Important | Result | Fee | Scholarship | Vacancy | Tender

  function CategoryName(c: NoticeCategory): string
  {
    match c
    case Admission => "ADMISSION"
    case Examination => "EXAMINATION"
    case Holiday => "HOLIDAY"
    case Event => "EVENT"
    case AcademicNotice => "ACADEMIC"
    case Sports => "SPORTS"
    case Cultural => "CULTURAL"
    case GeneralNotice => "GENERAL"
    case Important => "IMPORTANT"
    case Result => "RESULT"
    case Fee => "FEE"
    case Scholarship => "SCHOLARSHIP"
    case Vacancy => "VACANCY"
    case Tender => "TENDER"
  }

  function ParseCategory(s: string): (r: Parsed<NoticeCategory>)
    ensures r.Valid? ==> CategoryName(r.value) == s
    ensures r.Invalid? ==> forall c: NoticeCategory :: CategoryName(c) != s
  {
    if s == "ADMISSION" then Valid(Admission)
    else if s == "EXAMINATION" then Valid(Examination)
    else if s == "HOLIDAY" then Valid(Holiday)
    else if s == "EVENT" then Valid(Event)
    else if s == "ACADEMIC" then Valid(AcademicNotice)
    else if s == "SPORTS" then Valid(Sports)
    else if s == "CULTURAL" then Valid(Cultural)
    else if s == "GENERAL" then Valid(GeneralNotice)
    else if s == "IMPORTANT" then Valid(Important)
    else if s == "RESULT" then Valid(Result)
    else if s == "FEE" then Valid(Fee)
    else if s == "SCHOLARSHIP" then Valid(Scholarship)
    else if s == "VACANCY" then Valid(Vacancy)
    else if s == "TENDER" then Valid(Tender)
    else Invalid
  }

  datatype Priority = Low | Normal | High | Urgent

  function PriorityName(p: Priority): string
  {
    match p
    case Low => "LOW"
    case Normal => "NORMAL"
    case High => "HIGH"
    case Urgent => "URGENT"
  }

  function ParsePriority(s: string): (r: Parsed<Priority>)
    ensures r.Valid? ==> PriorityName(r.value) == s
    ensures r.Invalid? ==> forall p: Priority :: PriorityName(p) != s
  {
    if s == "LOW" then Valid(Low)
    else if s == "NORMAL" then Valid(Normal)
    else if s == "HIGH" then Valid(High)
    else if s == "URGENT" then Valid(Urgent)
    else Invalid
  }

  lemma EnumRoundTrips(c: NoticeCategory, p: Priority)
    ensures ParseCategory(CategoryName(c)) == Valid(c)
    ensures ParsePriority(PriorityName(p)) == Valid(p)
  {
  }

  // ------------------------------------------------------------------
  // Slugs
  // ------------------------------------------------------------------

  /** `[a-z0-9]` */
  predicate IsSlugChar(c: char)
  {
    IsLower(c) || IsDigit(c)
  }

  /** `[a-z0-9]+`: one hyphen-free group. */
  predicate IsGroup(g: string)
  {
    |g| >= 1 && forall i :: 0 <= i < |g| ==> IsSlugChar(g[i])
  }

  /** The groups joined by single hyphens. */
  function Join(groups: seq<string>): string
    requires |groups| >= 1
  {
    if |groups| == 1 then groups[0] else groups[0] + "-" + Join(groups[1..])
  }

  /** `^[a-z0-9]+(?:-[a-z0-9]+)*$` read as a grammar: one or more groups joined by hyphens. */
  ghost predicate SlugGrammar(s: string)
  {
    exists groups :: |groups| >= 1 && (forall k :: 0 <= k < |groups| ==> IsGroup(groups[k])) && Join(groups) == s
  }

  /** The same language as rules on characters: non-empty, lower-case letters, digits and
      hyphens only, no hyphen first or last and no two hyphens in a row. */
  predicate SlugShape(s: string)
  {
    && |s| >= 1
    && (forall i :: 0 <= i < |s| ==> IsSlugChar(s[i]) || s[i] == '-')
    && s[0] != '-' && s[|s| - 1] != '-'
    && (forall i :: 0 <= i < |s| - 1 ==> !(s[i] == '-' && s[i + 1] == '-'))
  }

  /** Joining well-formed groups gives a well-shaped slug. */
  lemma {:induction false} JoinHasShape(groups: seq<string>)
    requires |groups| >= 1 && forall k :: 0 <= k < |groups| ==> IsGroup(groups[k])
    ensures SlugShape(Join(groups))
    ensures Join(groups)[0] == groups[0][0]
  {
    if |groups| > 1 {
      var rest := groups[1..];
      JoinHasShape(rest);
      var g, t := groups[0], Join(rest);
      var s := g + "-" + t;
      assert rest[0] == groups[1];
      forall i | 0 <= i < |s| - 1 ensures !(s[i] == '-' && s[i + 1] == '-') {
        if i < |g| {
          assert s[i] == g[i];
        } else if i > |g| {
          assert s[i] == t[i - |g| - 1] && s[i + 1] == t[i - |g|];
        }
      }
      forall i | 0 <= i < |s| ensures IsSlugChar(s[i]) || s[i] == '-' {
        if i < |g| {
          assert s[i] == g[i];
        } else if i > |g| {
          assert s[i] == t[i - |g| - 1];
        }
      }
    }
  }

  /** The position of the first hyphen. */
  function FirstHyphen(s: string): (i: nat)
    requires exists k :: 0 <= k < |s| && s[k] == '-'
    ensures i < |s| && s[i] == '-'
    ensures forall k :: 0 <= k < i ==> s[k] != '-'
  {
    if s[0] == '-' then 0
    else
      assert exists k :: 0 <= k < |s[1..]| && s[1..][k] == '-' by {
        var k :| 0 <= k < |s| && s[k] == '-';
        assert s[1..][k - 1] == '-';
      }
      1 + FirstHyphen(s[1..])
  }

  /** Cutting a well-shaped slug at its first hyphen leaves a group before it and a
      well-shaped slug after it. */
  lemma CutAtHyphen(s: string, i: nat)
    requires SlugShape(s) && i < |s| && s[i] == '-'
    requires forall k :: 0 <= k < i ==> s[k] != '-'
    ensures IsGroup(s[..i])
    ensures SlugShape(s[i + 1..])
    ensures s == s[..i] + "-" + s[i + 1..]
  {
    var tail := s[i + 1..];
    assert i < |s| - 1;
    assert tail[0] == s[i + 1];
    assert tail[|tail| - 1] == s[|s| - 1];
    forall k | 0 <= k < |tail| - 1 ensures !(tail[k] == '-' && tail[k + 1] == '-') {
      assert tail[k] == s[i + 1 + k] && tail[k + 1] == s[i + 1 + k + 1];
    }
    forall k | 0 <= k < |tail| ensures IsSlugChar(tail[k]) || tail[k] == '-' {
      assert tail[k] == s[i + 1 + k];
    }
  }

  /** Cutting a well-shaped slug at its hyphens recovers groups that join back to it. */
  function Split(s: string): (groups: seq<string>)
    requires SlugShape(s)
    ensures |groups| >= 1 && forall k :: 0 <= k < |groups| ==> IsGroup(groups[k])
    ensures Join(groups) == s
    decreases |s|
  {
    if forall k :: 0 <= k < |s| ==> s[k] != '-' then [s]
    else
      var i := FirstHyphen(s);
      CutAtHyphen(s, i);
      var rest := Split(s[i + 1..]);
      var groups := [s[..i]] + rest;
      assert groups[1..] == rest;
      groups
  }

  /** The grammar and the character rules describe the same strings. */
  lemma SlugGrammarIffShape(s: string)
    ensures SlugGrammar(s) <==> SlugShape(s)
  {
    if SlugGrammar(s) {
      var groups :| |groups| >= 1 && (forall k :: 0 <= k < |groups| ==> IsGroup(groups[k])) && Join(groups) == s;
      JoinHasShape(groups);
    }
    if SlugShape(s) {
      var groups := Split(s);
      assert |groups| >= 1 && (forall k :: 0 <= k < |groups| ==> IsGroup(groups[k])) && Join(groups) == s;
    }
  }

  /** The slug pattern as a two-state scan: `afterHyphen` holds at the start and after each
      hyphen, where the next character must begin a group. */
  method MatchSlug(s: string) returns (ok: bool)
    ensures ok <==> SlugShape(s)
  {
    var afterHyphen := true;
    var i := 0;
    while i < |s|
      invariant 0 <= i <= |s|
      invariant forall k :: 0 <= k < i ==> IsSlugChar(s[k]) || s[k] == '-'
      invariant i > 0 ==> s[0] != '-'
      invariant forall k :: 0 <= k < i - 1 ==> !(s[k] == '-' && s[k + 1] == '-')
      invariant afterHyphen <==> i == 0 || s[i - 1] == '-'
    {
      var c := s[i];
      if c == '-' {
        if afterHyphen {
          return false;
        }
        afterHyphen := true;
      } else if IsSlugChar(c) {
        afterHyphen := false;
      } else {
        return false;
      }
      i := i + 1;
    }
    ok := !afterHyphen;
  }

  /** `slug: .min(3).max(200).regex(slugRegex)` */
  predicate SlugOk(s: string)
  {
    3 <= |s| <= 200 && SlugShape(s)
  }

  /** `getNoticeBySlugSchema`: the same pattern and lower bound, but no upper bound. */
  predicate LookupSlugOk(s: string)
  {
    |s| >= 3 && SlugShape(s)
  }

  /** Every slug a notice can be saved with can be looked up, but a lookup also accepts
      longer slugs that can never have been saved. */
  lemma LookupSlugIsLaxer()
    ensures forall s :: SlugOk(s) ==> LookupSlugOk(s)
    ensures LookupSlugOk(Repeat201) && !SlugOk(Repeat201)
    ensures !SlugShape("a--b") && !SlugShape("-ab") && !SlugShape("ab-") && SlugShape("a-b-c")
  {
    assert "a--b"[1] == '-' && "a--b"[2] == '-';
  }

  /** A 201-character slug. */
  const Repeat201: string := seq(201, _ => 'a')

  // ------------------------------------------------------------------
  // Notice form
  // ------------------------------------------------------------------

  predicate TitleOk(s: string) { 5 <= |s| <= 200 }
  predicate DescriptionOk(s: string) { 10 <= |s| <= 1000 }
  predicate ContentOk(s: string) { |s| <= 10000 }
  predicate AuthorOk(s: string) { 2 <= |s| <= 100 }

  /** Dates arrive already coerced, as instants. */
  type Instant = int

  datatype NoticeInput = NoticeInput(
    title: string,
    description: string,
    content: Option<string>,
    category: string,
    priority: Option<string>,
    publishDate: Option<Instant>,
    expiryDate: Option<Instant>,
    eventDate: Option<Instant>,
    isPublished: Option<bool>,
    isPinned: Option<bool>,
    isActive: Option<bool>,
    author: string,
    slug: string)

  /** The columns of a notice other than its view counter. */
  datatype NoticeData = NoticeData(
    title: string,
    description: string,
    content: Option<string>,
    category: NoticeCategory,
    priority: Priority,
    publishDate: Instant,
    expiryDate: Option<Instant>,
    eventDate: Option<Instant>,
    isPublished: bool,
    isPinned: bool,
    isActive: bool,
    author: string,
    slug: string)

  function Default<T>(o: Option<T>, d: T): T
  {
    if o.Some? then o.value else d
  }

  /** `noticeSchema`, with the current instant supplied for the `publishDate` default. */
  function ParseNotice(now: Instant, x: NoticeInput): (r: Parsed<NoticeData>)
    ensures r.Valid? <==>
      && TitleOk(x.title) && DescriptionOk(x.description)
      && (x.content.Some? ==> ContentOk(x.content.value))
      && ParseCategory(x.category).Valid?
      && (x.priority.Some? ==> ParsePriority(x.priority.value).Valid?)
      && AuthorOk(x.author) && SlugOk(x.slug)
    ensures r.Valid? ==>
      && r.value.title == x.title && r.value.description == x.description && r.value.content == x.content
      && r.value.slug == x.slug && r.value.author == x.author
      && r.value.expiryDate == x.expiryDate && r.value.eventDate == x.eventDate
      && CategoryName(r.value.category) == x.category
    ensures r.Valid? ==>
      && (if x.priority.Some? then PriorityName(r.value.priority) == x.priority.value else r.value.priority == Normal)
      && r.value.publishDate == (if x.publishDate.Some? then x.publishDate.value else now)
      && r.value.isPublished == (x.isPublished == Some(true))
      && r.value.isPinned == (x.isPinned == Some(true))
      && r.value.isActive == (x.isActive != Some(false))
  {
    var category := ParseCategory(x.category);
    var priority := if x.priority.None? then Valid(Normal) else ParsePriority(x.priority.value);
    if TitleOk(x.title) && DescriptionOk(x.description) && (x.content.Some? ==> ContentOk(x.content.value))
       && category.Valid? && priority.Valid? && AuthorOk(x.author) && SlugOk(x.slug)
    then
      Valid(NoticeData(
        x.title, x.description, x.content, category.value, priority.value,
        Default(x.publishDate, now), x.expiryDate, x.eventDate,
        Default(x.isPublished, false), Default(x.isPinned, false), Default(x.isActive, true),
        x.author, x.slug))
    else Invalid
  }

  /** The raw fields of an update: every field but the id may be left out; `content` and the
      two optional dates may also be cleared. */
  datatype NoticeUpdateInput = NoticeUpdateInput(
    id: string,
    title: Option<string>,
    description: Option<string>,
    content: Field<string>,
    category: Option<string>,
    priority: Option<string>,
    publishDate: Option<Instant>,
    expiryDate: Field<Instant>,
    eventDate: Field<Instant>,
    isPublished: Option<bool>,
    isPinned: Option<bool>,
    isActive: Option<bool>,
    slug: Option<string>)

  datatype NoticeUpdate = NoticeUpdate(
    id: string,
    title: Option<string>,
    description: Option<string>,
    content: Field<string>,
    category: Option<NoticeCategory>,
    priority: Option<Priority>,
    publishDate: Option<Instant>,
    expiryDate: Field<Instant>,
    eventDate: Field<Instant>,
    isPublished: Option<bool>,
    isPinned: Option<bool>,
    isActive: Option<bool>,
    slug: Option<string>)

  function ParseOptionalCategory(o: Option<string>): (r: Parsed<Option<NoticeCategory>>)
    ensures r.Valid? <==> o.None? || ParseCategory(o.value).Valid?
    ensures r.Valid? ==> (r.value.Some? <==> o.Some?) && (r.value.Some? ==> CategoryName(r.value.value) == o.value)
  {
    if o.None? then Valid(None)
    else match ParseCategory(o.value)
      case Valid(c) => Valid(Some(c))
      case Invalid => Invalid
  }

  function ParseOptionalPriority(o: Option<string>): (r: Parsed<Option<Priority>>)
    ensures r.Valid? <==> o.None? || ParsePriority(o.value).Valid?
    ensures r.Valid? ==> (r.value.Some? <==> o.Some?) && (r.value.Some? ==> PriorityName(r.value.value) == o.value)
  {
    if o.None? then Valid(None)
    else match ParsePriority(o.value)
      case Valid(p) => Valid(Some(p))
      case Invalid => Invalid
  }

  /** `updateNoticeSchema`: each field that is present obeys its bound from the notice form.
      The author and the view counter are not part of it. */
  function ParseNoticeUpdate(f: Formats, x: NoticeUpdateInput): (r: Parsed<NoticeUpdate>)
    ensures r.Valid? <==>
      && f.isCuid(x.id)
      && (x.title.Some? ==> TitleOk(x.title.value))
      && (x.description.Some? ==> DescriptionOk(x.description.value))
      && (x.content.Present? ==> ContentOk(x.content.value))
      && ParseOptionalCategory(x.category).Valid?
      && ParseOptionalPriority(x.priority).Valid?
      && (x.slug.Some? ==> SlugOk(x.slug.value))
    ensures r.Valid? ==>
      && r.value.id == x.id && r.value.title == x.title && r.value.description == x.description
      && r.value.content == x.content && r.value.slug == x.slug
      && r.value.publishDate == x.publishDate && r.value.expiryDate == x.expiryDate && r.value.eventDate == x.eventDate
      && r.value.isPublished == x.isPublished && r.value.isPinned == x.isPinned && r.value.isActive == x.isActive
    ensures r.Valid? ==>
      && (r.value.category.Some? <==> x.category.Some?)
      && (r.value.category.Some? ==> CategoryName(r.value.category.value) == x.category.value)
      && (r.value.priority.Some? <==> x.priority.Some?)
      && (r.value.priority.Some? ==> PriorityName(r.value.priority.value) == x.priority.value)
  {
    var category := ParseOptionalCategory(x.category);
    var priority := ParseOptionalPriority(x.priority);
    if && f.isCuid(x.id)
       && (x.title.Some? ==> TitleOk(x.title.value))
       && (x.description.Some? ==> DescriptionOk(x.description.value))
       && (x.content.Present? ==> ContentOk(x.content.value))
       && category.Valid? && priority.Valid?
       && (x.slug.Some? ==> SlugOk(x.slug.value))
    then
      Valid(NoticeUpdate(x.id, x.title, x.description, x.content, category.value, priority.value,
        x.publishDate, x.expiryDate, x.eventDate, x.isPublished, x.isPinned, x.isActive, x.slug))
    else Invalid
  }

  /** An update that rewrites every field of a notice with values the notice form accepted. */
  function FullUpdate(id: string, x: NoticeInput): NoticeUpdateInput
  {
    NoticeUpdateInput(id, Some(x.title), Some(x.description),
      if x.content.Some? then Present(x.content.value) else Null,
      Some(x.category), x.priority, x.publishDate,
      if x.expiryDate.Some? then Present(x.expiryDate.value) else Null,
      if x.eventDate.Some? then Present(x.eventDate.value) else Null,
      x.isPublished, x.isPinned, x.isActive, Some(x.slug))
  }

  /** The update bounds are the form's: whatever the form accepts, an update of an existing
      notice accepts as well. */
  lemma FormFieldsUpdatable(f: Formats, now: Instant, id: string, x: NoticeInput)
    requires ParseNotice(now, x).Valid? && f.isCuid(id)
    ensures ParseNoticeUpdate(f, FullUpdate(id, x)).Valid?
  {
  }

  // ------------------------------------------------------------------
  // Attachments and the listing query
  // ------------------------------------------------------------------

  datatype AttachmentInput = AttachmentInput(noticeId: string, fileName: string, fileUrl: string, fileType: string, fileSize: Number)

  datatype Attachment = Attachment(noticeId: string, fileName: string, fileUrl: string, fileType: string, fileSize: int)

  /** `noticeAttachmentSchema` */
  function ParseAttachment(f: Formats, x: AttachmentInput): (r: Parsed<Attachment>)
    ensures r.Valid? <==>
      && f.isCuid(x.noticeId) && 1 <= |x.fileName| <= 255 && f.isUrl(x.fileUrl)
      && 1 <= |x.fileType| <= 50 && IsInteger(x.fileSize) && x.fileSize > 0.0
    ensures r.Valid? ==> r.value.fileSize >= 1 && r.value.fileSize as real == x.fileSize
    ensures r.Valid? ==>
      && r.value.noticeId == x.noticeId && r.value.fileName == x.fileName
      && r.value.fileUrl == x.fileUrl && r.value.fileType == x.fileType
  {
    if && f.isCuid(x.noticeId) && 1 <= |x.fileName| <= 255 && f.isUrl(x.fileUrl)
       && 1 <= |x.fileType| <= 50 && IsInteger(x.fileSize) && x.fileSize > 0.0
    then Valid(Attachment(x.noticeId, x.fileName, x.fileUrl, x.fileType, x.fileSize.Floor))
    else Invalid
  }

  datatype NoticeSortField = SortByCreatedAt | SortByUpdatedAt | SortByPublishDate | SortByViews

  function NoticeSortFieldName(field: NoticeSortField): string
  {
    match field
    case SortByCreatedAt => "createdAt"
    case SortByUpdatedAt => "updatedAt"
    case SortByPublishDate => "publishDate"
    case SortByViews => "views"
  }

  function ParseNoticeSortField(raw: Option<string>): (r: Parsed<NoticeSortField>)
    ensures raw.None? ==> r == Valid(SortByPublishDate)
    ensures raw.Some? ==> (r.Valid? <==> raw.value in ["createdAt", "updatedAt", "publishDate", "views"])
    ensures raw.Some? && r.Valid? ==> NoticeSortFieldName(r.value) == raw.value
  {
    match raw
    case None => Valid(SortByPublishDate)
    case Some(s) =>
      if s == "createdAt" then Valid(SortByCreatedAt)
      else if s == "updatedAt" then Valid(SortByUpdatedAt)
      else if s == "publishDate" then Valid(SortByPublishDate)
      else if s == "views" then Valid(SortByViews)
      else Invalid
  }

  datatype NoticeQueryInput = NoticeQueryInput(
    page: Option<Number>,
    limit: Option<Number>,
    category: Option<string>,
    priority: Option<string>,
    isPublished: Option<bool>,
    isPinned: Option<bool>,
    isActive: Option<bool>,
    searchQuery: Option<string>,
    sortBy: Option<string>,
    sortOrder: Option<string>)

  datatype NoticeQuery = NoticeQuery(
    page: int,
    limit: int,
    category: Option<NoticeCategory>,
    priority: Option<Priority>,
    isPublished: Option<bool>,
    isPinned: Option<bool>,
    isActive: Option<bool>,
    searchQuery: Option<string>,
    sortBy: NoticeSortField,
    sortOrder: Direction)

  /** `getNoticesQuerySchema`. A missing query object is rejected. */
  function ParseNoticeQuery(raw: Option<NoticeQueryInput>): (r: Parsed<NoticeQuery>)
    ensures raw.None? ==> r.Invalid?
    ensures r.Valid? <==>
      && raw.Some?
      && ParsePage(raw.value.page).Valid? && ParseLimit(raw.value.limit).Valid?
      && ParseOptionalCategory(raw.value.category).Valid? && ParseOptionalPriority(raw.value.priority).Valid?
      && ParseNoticeSortField(raw.value.sortBy).Valid? && ParseOrder(raw.value.sortOrder).Valid?
    ensures r.Valid? ==> r.value.page >= 1 && 1 <= r.value.limit <= 100
    ensures r.Valid? ==> r.value.page as real == if raw.value.page.Some? then raw.value.page.value else 1.0
    ensures r.Valid? ==> r.value.limit as real == if raw.value.limit.Some? then raw.value.limit.value else 10.0
    ensures r.Valid? ==> if raw.value.sortBy.Some? then NoticeSortFieldName(r.value.sortBy) == raw.value.sortBy.value
                         else r.value.sortBy == SortByPublishDate
    ensures r.Valid? ==> (r.value.sortOrder == Asc <==> raw.value.sortOrder == Some("asc"))
    ensures r.Valid? && r.value.category.Some? ==>
      raw.value.category.Some? && CategoryName(r.value.category.value) == raw.value.category.value
    ensures r.Valid? && r.value.priority.Some? ==>
      raw.value.priority.Some? && PriorityName(r.value.priority.value) == raw.value.priority.value
    ensures r.Valid? ==>
      && r.value.isPublished == raw.value.isPublished && r.value.isPinned == raw.value.isPinned
      && r.value.isActive == raw.value.isActive && r.value.searchQuery == raw.value.searchQuery
    ensures r.Valid? ==> (r.value.category.Some? <==> raw.value.category.Some?) && (r.value.priority.Some? <==> raw.value.priority.Some?)
    ensures raw.Some? && raw.value.page.None? && raw.value.limit.None? && raw.value.category.None?
            && raw.value.priority.None? && raw.value.sortBy.None? && raw.value.sortOrder.None? ==>
      r.Valid? && r.value.page == 1 && r.value.limit == 10
      && r.value.sortBy == SortByPublishDate && r.value.sortOrder == Desc
  {
    match raw
    case None => Invalid
    case Some(q) =>
      var page := ParsePage(q.page);
      var limit := ParseLimit(q.limit);
      var category := ParseOptionalCategory(q.category);
      var priority := ParseOptionalPriority(q.priority);
      var sortBy := ParseNoticeSortField(q.sortBy);
      var order := ParseOrder(q.sortOrder);
      if page.Valid? && limit.Valid? && category.Valid? && priority.Valid? && sortBy.Valid? && order.Valid? then
        Valid(NoticeQuery(page.value, limit.value, category.value, priority.value, q.isPublished, q.isPinned,
                          q.isActive, q.searchQuery, sortBy.value, order.value))
      else Invalid
  }

  /** The query as a caller would write it, every field spelled out. */
  function NoticeQueryInputOf(q: NoticeQuery): NoticeQueryInput
  {
    NoticeQueryInput(Some(q.page as real), Some(q.limit as real),
                     if q.category.Some? then Some(CategoryName(q.category.value)) else None,
                     if q.priority.Some? then Some(PriorityName(q.priority.value)) else None,
                     q.isPublished, q.isPinned, q.isActive, q.searchQuery,
                     Some(NoticeSortFieldName(q.sortBy)), Some(OrderName(q.sortOrder)))
  }

  /** Every query the schema can produce parses back from its written form. */
  lemma NoticeQueryRoundTrip(q: NoticeQuery)
    requires q.page >= 1 && 1 <= q.limit <= 100
    ensures ParseNoticeQuery(Some(NoticeQueryInputOf(q))) == Valid(q)
  {
    PagingRoundTrips(q.page, q.limit, q.sortOrder);
    if q.category.Some? {
      EnumRoundTrips(q.category.value, Low);
    }
    if q.priority.Some? {
      EnumRoundTrips(GeneralNotice, q.priority.value);
    }
  }

  /** The same query asking for page `k`. */
  function AtPage(raw: Option<NoticeQueryInput>, k: int): Option<NoticeQueryInput>
  {
    if raw.Some? then Some(raw.value.(page := Some(k as real))) else None
  }

  /** Asking for another page changes only the parsed page. */
  lemma AtPageMovesOnlyPage(raw: Option<NoticeQueryInput>, k: int)
    requires ParseNoticeQuery(raw).Valid? && k >= 1
    ensures ParseNoticeQuery(AtPage(raw, k)) == Valid(ParseNoticeQuery(raw).value.(page := k))
  {
    PagingRoundTrips(k, 1, Asc);
  }
}

=== FILE: ordering.dfy ===
/** The `orderBy: { [sortBy]: sortOrder }` clause of the listing queries: a total preorder on
    column values and a stable sort of the matching rows by it. */
module Ordering {

  /** The value of the column a listing sorts by. `Missing` is a null column (`lastLogin`
      of an account that never logged in); it sorts before every value. */
  datatype SortKey = Missing | Num(n: int) | Str(s: string)

  datatype Direction = Asc | Desc

  /** Code-unit lexicographic order on strings. */
  predicate LexLeq(a: string, b: string)
    decreases |a|
  {
    |a| == 0 || (|b| > 0 && (a[0] < b[0] || (a[0] == b[0] && LexLeq(a[1..], b[1..]))))
  }

  lemma {:induction false} LexTotal(a: string, b: string)
    ensures LexLeq(a, b) || LexLeq(b, a)
    decreases |a|
  {
    if |a| > 0 && |b| > 0 && a[0] == b[0] {
      LexTotal(a[1..], b[1..]);
    }
  }

  lemma {:induction false} LexTransitive(a: string, b: string, c: string)
    requires LexLeq(a, b) && LexLeq(b, c)
    ensures LexLeq(a, c)
    decreases |a|
  {
    if |a| > 0 && a[0] == b[0] && b[0] == c[0] {
      LexTransitive(a[1..], b[1..], c[1..]);
    }
  }

  lemma {:induction false} LexAntisymmetric(a: string, b: string)
    requires LexLeq(a, b) && LexLeq(b, a)
    ensures a == b
    decreases |a|
  {
    if |a| > 0 {
      LexAntisymmetric(a[1..], b[1..]);
      assert a == [a[0]] + a[1..] && b == [b[0]] + b[1..];
    }
  }

  function Rank(k: SortKey): nat
  {
    match k
    case Missing => 0
    case Num(_) => 1
    case Str(_) => 2
  }

  /** `a` may precede `b` in ascending order. */
  predicate KeyLeq(a: SortKey, b: SortKey)
  {
    if Rank(a) != Rank(b) then Rank(a) < Rank(b)
    else match (a, b)
      case (Num(x), Num(y)) => x <= y
      case (Str(x), Str(y)) => LexLeq(x, y)
      case _ => true
  }

  /** `a` may precede `b` in the requested direction. */
  predicate InOrder(dir: Direction, a: SortKey, b: SortKey)
  {
    if dir == Asc then KeyLeq(a, b) else KeyLeq(b, a)
  }

  /** The order is total and transitive in both directions, so sorting by it is meaningful. */
  lemma InOrderTotalPreorder(dir: Direction, a: SortKey, b: SortKey, c: SortKey)
    ensures InOrder(dir, a, b) || InOrder(dir, b, a)
    ensures InOrder(dir, a, b) && InOrder(dir, b, c) ==> InOrder(dir, a, c)
  {
    if a.Str? && b.Str? {
      LexTotal(a.s, b.s);
    }
    if a.Str? && b.Str? && c.Str? {
      if LexLeq(a.s, b.s) && LexLeq(b.s, c.s) {
        LexTransitive(a.s, b.s, c.s);
      }
      if LexLeq(c.s, b.s) && LexLeq(b.s, a.s) {
        LexTransitive(c.s, b.s, a.s);
      }
    }
  }

  /** Two keys that may each precede the other are the same key. */
  lemma InOrderAntisymmetric(dir: Direction, a: SortKey, b: SortKey)
    requires InOrder(dir, a, b) && InOrder(dir, b, a)
    ensures a == b
  {
    if a.Str? && b.Str? {
      LexAntisymmetric(a.s, b.s);
    }
  }

  /** Every earlier element may precede every later one. */
  predicate SortedBy<T>(s: seq<T>, key: T -> SortKey, dir: Direction)
  {
    forall i, j :: 0 <= i < j < |s| ==> InOrder(dir, key(s[i]), key(s[j]))
  }

  /** Insert `x` before the first element it may precede. */
  function Insert<T>(x: T, s: seq<T>, key: T -> SortKey, dir: Direction): (r: seq<T>)
    requires SortedBy(s, key, dir)
    ensures |r| == |s| + 1
    ensures multiset(r) == multiset(s) + multiset{x}
    ensures SortedBy(r, key, dir)
  {
    if |s| == 0 then [x]
    else if InOrder(dir, key(x), key(s[0])) then
      forall j | 0 <= j < |s| ensures InOrder(dir, key(x), key(s[j])) {
        InOrderTotalPreorder(dir, key(x), key(s[0]), key(s[j]));
      }
      [x] + s
    else
      var t := Insert(x, s[1..], key, dir);
      assert s == [s[0]] + s[1..];
      InOrderTotalPreorder(dir, key(x), key(s[0]), key(x));
      forall j | 0 <= j < |t| ensures InOrder(dir, key(s[0]), key(t[j])) {
        assert t[j] in multiset(s[1..]) + multiset{x};
        if t[j] != x {
          assert t[j] in s[1..];
        }
      }
      [s[0]] + t
  }

  /** Stable insertion sort: a permutation of `s`, ordered by `key` in direction `dir`. */
  function Sort<T>(s: seq<T>, key: T -> SortKey, dir: Direction): (r: seq<T>)
    ensures multiset(r) == multiset(s)
    ensures SortedBy(r, key, dir)
  {
    if |s| == 0 then []
    else
      assert s == [s[0]] + s[1..];
      Insert(s[0], Sort(s[1..], key, dir), key, dir)
  }

  /** Removing equal heads from two permutations of each other leaves permutations. */
  lemma TailsPermute<T>(a: seq<T>, b: seq<T>)
    requires |a| > 0 && |b| > 0 && a[0] == b[0]
    requires multiset(a) == multiset(b)
    ensures multiset(a[1..]) == multiset(b[1..])
  {
    assert a == [a[0]] + a[1..] && b == [b[0]] + b[1..];
    assert multiset(a) == multiset([a[0]]) + multiset(a[1..]);
    assert multiset(b) == multiset([b[0]]) + multiset(b[1..]);
    forall x ensures multiset(a[1..])[x] == multiset(b[1..])[x] {
      assert multiset(a)[x] == multiset([a[0]])[x] + multiset(a[1..])[x];
      assert multiset(b)[x] == multiset([b[0]])[x] + multiset(b[1..])[x];
    }
  }

  /** Two sorted permutations of each other start with elements of the same key. */
  lemma HeadsShareKey<T>(a: seq<T>, b: seq<T>, key: T -> SortKey, dir: Direction)
    requires |a| > 0 && multiset(a) == multiset(b)
    requires SortedBy(a, key, dir) && SortedBy(b, key, dir)
    ensures |b| > 0 && key(a[0]) == key(b[0])
  {
    assert a[0] in multiset(b);
    assert b[0] in multiset(a);
    var i :| 0 <= i < |a| && a[i] == b[0];
    var j :| 0 <= j < |b| && b[j] == a[0];
    InOrderTotalPreorder(dir, key(a[0]), key(a[0]), key(a[0]));
    assert InOrder(dir, key(a[0]), key(b[0])) by {
      if i > 0 { assert InOrder(dir, key(a[0]), key(a[i])); }
    }
    assert InOrder(dir, key(b[0]), key(a[0])) by {
      if j > 0 { assert InOrder(dir, key(b[0]), key(b[j])); }
    }
    InOrderAntisymmetric(dir, key(a[0]), key(b[0]));
  }

  /** When no two distinct elements share a key, there is only one sorted arrangement:
      any two sorted permutations of the same elements are equal, whatever tie-breaking
      produced them. */
  lemma {:induction false} SortedUnique<T>(a: seq<T>, b: seq<T>, key: T -> SortKey, dir: Direction)
    requires multiset(a) == multiset(b)
    requires SortedBy(a, key, dir) && SortedBy(b, key, dir)
    requires forall x, y :: x in a && y in a && key(x) == key(y) ==> x == y
    ensures a == b
  {
    assert |a| == |multiset(a)| == |multiset(b)| == |b|;
    if |a| > 0 {
      HeadsShareKey(a, b, key, dir);
      assert b[0] in multiset(a);
      assert a[0] in a && b[0] in a;
      TailsPermute(a, b);
      assert forall x :: x in a[1..] ==> x in a;
      SortedUnique(a[1..], b[1..], key, dir);
      assert a == [a[0]] + a[1..] && b == [b[0]] + b[1..];
    }
  }
}

=== FILE: pagination.dfy ===
/** The paging fields every listing schema shares (`page`, `limit`, `sortOrder`) and the
    pagination arithmetic every listing action repeats: `skip = (page - 1) * limit`,
    `take: limit`, `totalPages = Math.ceil(totalCount / limit)`, `hasNextPage = page <
    totalPages`, `hasPreviousPage = page > 1`. */
module Pagination {
  import opened Wrappers
  import opened Ordering

  /** A number as it arrives from the caller (a JavaScript number; `NaN` and infinities are
      not modelled). */
  type Number = real

  predicate IsInteger(x: Number) { x == x.Floor as real }

  /** `z.number().int().positive().default(1)` */
  function ParsePage(raw: Option<Number>): (r: Parsed<int>)
    ensures raw.None? ==> r == Valid(1)
    ensures raw.Some? ==> (r.Valid? <==> IsInteger(raw.value) && raw.value > 0.0)
    ensures raw.Some? && r.Valid? ==> r.value as real == raw.value
    ensures r.Valid? ==> r.value >= 1
  {
    match raw
    case None => Valid(1)
    case Some(x) => if IsInteger(x) && x > 0.0 then Valid(x.Floor) else Invalid
  }

  /** `z.number().int().positive().max(100).default(10)` */
  function ParseLimit(raw: Option<Number>): (r: Parsed<int>)
    ensures raw.None? ==> r == Valid(10)
    ensures raw.Some? ==> (r.Valid? <==> IsInteger(raw.value) && 0.0 < raw.value <= 100.0)
    ensures raw.Some? && r.Valid? ==> r.value as real == raw.value
    ensures r.Valid? ==> 1 <= r.value <= 100
  {
    match raw
    case None => Valid(10)
    case Some(x) => if IsInteger(x) && 0.0 < x <= 100.0 then Valid(x.Floor) else Invalid
  }

  /** `z.enum(["asc", "desc"]).default("desc")` */
  function ParseOrder(raw: Option<string>): (r: Parsed<Direction>)
    ensures raw.None? ==> r == Valid(Desc)
    ensures raw.Some? ==> (r.Valid? <==> raw.value == "asc" || raw.value == "desc")
    ensures r == Valid(Asc) <==> raw == Some("asc")
  {
    match raw
    case None => Valid(Desc)
    case Some(s) => if s == "asc" then Valid(Asc) else if s == "desc" then Valid(Desc) else Invalid
  }

  function OrderName(d: Direction): string
  {
    if d == Asc then "asc" else "desc"
  }

  /** A page number, a page size and a direction each parse back from how they are written. */
  lemma PagingRoundTrips(page: int, limit: int, d: Direction)
    requires page >= 1 && 1 <= limit <= 100
    ensures ParsePage(Some(page as real)) == Valid(page)
    ensures ParseLimit(Some(limit as real)) == Valid(limit)
    ensures ParseOrder(Some(OrderName(d))) == Valid(d)
  {
  }

  /** JavaScript truthiness of an optional string filter: `if (searchQuery)` skips both an
      absent value and the empty string. */
  predicate Given(o: Option<string>)
  {
    o.Some? && o.value != ""
  }

  /** The page-size arithmetic of a listing that matched `totalCount` rows. */
  datatype PageInfo = PageInfo(
    currentPage: int,
    totalPages: nat,
    totalCount: nat,
    limit: int,
    hasNextPage: bool,
    hasPreviousPage: bool)

  /** `(page - 1) * limit` */
  function Skip(page: int, limit: int): int
  {
    (page - 1) * limit
  }

  /** `Math.ceil(total / limit)`: the least number of pages of `limit` rows that holds
      `total` rows. */
  function CeilDiv(total: nat, limit: int): (r: nat)
    requires limit >= 1
    ensures r * limit >= total
    ensures r == 0 || (r - 1) * limit < total
    ensures r == 0 <==> total == 0
  {
    (total + limit - 1) / limit
  }

  function Paginate(page: int, limit: int, totalCount: nat): (info: PageInfo)
    requires page >= 1 && limit >= 1
    ensures info.totalCount == totalCount && info.currentPage == page && info.limit == limit
    ensures info.totalPages * limit >= totalCount
    ensures info.totalPages == 0 || (info.totalPages - 1) * limit < totalCount
    ensures totalCount == 0 ==> info.totalPages == 0 && !info.hasNextPage
    ensures info.hasPreviousPage <==> Skip(page, limit) > 0
  {
    var totalPages := CeilDiv(totalCount, limit);
    PageInfo(page, totalPages, totalCount, limit, page < totalPages, page > 1)
  }

  /** How many of `total` rows page `page` holds: `limit`, fewer on the last page, none
      past it. */
  function PageSize(page: int, limit: int, total: nat): nat
    requires limit >= 1
  {
    if Skip(page, limit) >= total then 0
    else if Skip(page, limit) + limit <= total then limit
    else total - Skip(page, limit)
  }

  /** `skip` then `take`: the rows of one page. */
  function TakePage<T>(rows: seq<T>, page: int, limit: int): (r: seq<T>)
    requires page >= 1 && limit >= 1
    ensures |r| <= limit
    ensures |r| == PageSize(page, limit, |rows|)
    ensures Skip(page, limit) >= |rows| ==> r == []
    ensures Skip(page, limit) < |rows| ==> r == rows[Skip(page, limit)..if Skip(page, limit) + limit <= |rows| then Skip(page, limit) + limit else |rows|]
  {
    var from := Skip(page, limit);
    if from >= |rows| then []
    else if from + limit <= |rows| then rows[from..from + limit]
    else rows[from..]
  }

  /** The page flags agree with the rows: a next page is announced exactly when rows remain
      after this page, and a page holds rows exactly when it is one of the announced pages. */
  lemma PageFlagsMatchRows<T>(rows: seq<T>, page: int, limit: int)
    requires page >= 1 && limit >= 1
    ensures Paginate(page, limit, |rows|).hasNextPage <==> page * limit < |rows|
    ensures Paginate(page, limit, |rows|).hasNextPage <==> |TakePage(rows, page + 1, limit)| > 0
    ensures |TakePage(rows, page, limit)| > 0 <==> page <= Paginate(page, limit, |rows|).totalPages
  {
    var n := |rows|;
    var t := CeilDiv(n, limit);
    if page < t {
      assert page <= t - 1;
      MulMonotone(page, t - 1, limit);
    } else {
      MulMonotone(t, page, limit);
    }
    if page <= t {
      if t > 0 {
        MulMonotone(page - 1, t - 1, limit);
      }
    } else {
      MulMonotone(t, page - 1, limit);
    }
  }

  /** Each page starts where the previous one ends. */
  lemma SkipNext(page: int, limit: int)
    ensures Skip(page + 1, limit) == Skip(page, limit) + limit
  {
    assert page * limit == (page - 1) * limit + limit;
  }

  /** A later page starts after the whole of an earlier one. */
  lemma SkipLater(k: int, m: int, limit: int)
    requires k < m && limit >= 0
    ensures Skip(k, limit) + limit <= Skip(m, limit)
  {
    SkipNext(k, limit);
    MulMonotone(k, m - 1, limit);
  }

  /** The row at position `j` is on page `j / limit + 1`, which is one of the
      `CeilDiv(|rows|, limit)` announced pages. */
  lemma PageOfPosition(total: nat, limit: int, j: int)
    requires limit >= 1 && 0 <= j < total
    ensures Skip(j / limit + 1, limit) <= j < Skip(j / limit + 1, limit) + limit
    ensures 1 <= j / limit + 1 <= CeilDiv(total, limit)
  {
    var k := j / limit + 1;
    assert Skip(k, limit) == (j / limit) * limit;
    SkipNext(k, limit);
    var n := CeilDiv(total, limit);
    if k > n {
      MulMonotone(n, k - 1, limit);
    }
  }

  /** Pages 1 to `n` of `rows`, one after another. */
  function PagesOf<T>(rows: seq<T>, limit: int, n: nat): seq<T>
    requires limit >= 1
  {
    if n == 0 then [] else PagesOf(rows, limit, n - 1) + TakePage(rows, n, limit)
  }

  /** Pages 1 to `n` together are the rows before the start of page `n + 1` (all of them
      once they run out): consecutive pages neither overlap nor leave a gap. */
  lemma {:induction false} PagesOfArePrefix<T>(rows: seq<T>, limit: int, n: nat)
    requires limit >= 1
    ensures PagesOf(rows, limit, n) == rows[..if Skip(n + 1, limit) <= |rows| then Skip(n + 1, limit) else |rows|]
  {
    if n > 0 {
      var a := Skip(n, limit);
      var b := Skip(n + 1, limit);
      MulMonotone(0, n - 1, limit);
      SkipNext(n, limit);
      assert 0 <= a && b == a + limit;
      PagesOfArePrefix(rows, limit, n - 1);
      PrefixThenSlice(rows, PagesOf(rows, limit, n - 1), TakePage(rows, n, limit), a, b);
    } else {
      assert Skip(1, limit) == 0;
    }
  }

  /** The rows before `a`, followed by the rows from `a` up to `b`, are the rows before `b`
      (each bound clipped to the end of the rows). */
  lemma PrefixThenSlice<T>(rows: seq<T>, prefix: seq<T>, next: seq<T>, a: int, b: int)
    requires 0 <= a <= b
    requires prefix == rows[..if a <= |rows| then a else |rows|]
    requires a >= |rows| ==> next == []
    requires a < |rows| ==> next == rows[a..if b <= |rows| then b else |rows|]
    ensures prefix + next == rows[..if b <= |rows| then b else |rows|]
  {
    if a < |rows| {
      var upto := if b <= |rows| then b else |rows|;
      assert rows[..upto] == rows[..a] + rows[a..upto];
    }
  }

  /** The announced pages together hold every row exactly once, in order. */
  lemma AllPagesAreRows<T>(rows: seq<T>, limit: int)
    requires limit >= 1
    ensures PagesOf(rows, limit, CeilDiv(|rows|, limit)) == rows
  {
    var n := CeilDiv(|rows|, limit);
    PagesOfArePrefix(rows, limit, n);
    SkipNext(n, limit);
    assert rows[..|rows|] == rows;
  }

  /** The `i`-th row of a page is the row `i` places after the page's start. */
  lemma PageEntry<T>(rows: seq<T>, page: int, limit: int, i: int)
    requires page >= 1 && limit >= 1
    requires 0 <= i < |TakePage(rows, page, limit)|
    ensures 0 <= Skip(page, limit) + i < |rows|
    ensures TakePage(rows, page, limit)[i] == rows[Skip(page, limit) + i]
  {
    var x := Skip(page, limit);
    assert x < |rows|;
    assert TakePage(rows, page, limit) == rows[x..if x + limit <= |rows| then x + limit else |rows|];
  }

  /** Every row of a page precedes, in `rows`, every row of a later page. */
  lemma LaterPageLater<T>(rows: seq<T>, limit: int, k: int, m: int, i: int, j: int) returns (a: int, b: int)
    requires limit >= 1 && 1 <= k < m
    requires 0 <= i < |TakePage(rows, k, limit)| && 0 <= j < |TakePage(rows, m, limit)|
    ensures 0 <= a < b < |rows|
    ensures TakePage(rows, k, limit)[i] == rows[a]
    ensures TakePage(rows, m, limit)[j] == rows[b]
  {
    PageEntry(rows, k, limit, i);
    PageEntry(rows, m, limit, j);
    SkipLater(k, m, limit);
    assert i < limit;
    a, b := Skip(k, limit) + i, Skip(m, limit) + j;
  }

  /** In a sorted sequence, every row of a page may precede every row of a later page. */
  lemma LaterPageFollows<T>(rows: seq<T>, key: T -> SortKey, dir: Direction, limit: int, k: int, m: int)
    requires SortedBy(rows, key, dir)
    requires limit >= 1 && 1 <= k < m
    ensures var early, late := TakePage(rows, k, limit), TakePage(rows, m, limit);
      forall i, j :: 0 <= i < |early| && 0 <= j < |late| ==> InOrder(dir, key(early[i]), key(late[j]))
  {
    var early, late := TakePage(rows, k, limit), TakePage(rows, m, limit);
    forall i, j | 0 <= i < |early| && 0 <= j < |late|
      ensures InOrder(dir, key(early[i]), key(late[j]))
    {
      var a, b := LaterPageLater(rows, limit, k, m, i, j);
      assert InOrder(dir, key(rows[a]), key(rows[b]));
    }
  }

  /** The row at position `j` is on one of the announced pages. */
  lemma RowOnSomePage<T>(rows: seq<T>, limit: int, j: int)
    requires limit >= 1 && 0 <= j < |rows|
    ensures 1 <= j / limit + 1 <= CeilDiv(|rows|, limit)
    ensures rows[j] in TakePage(rows, j / limit + 1, limit)
  {
    var k := j / limit + 1;
    PageOfPosition(|rows|, limit, j);
    assert TakePage(rows, k, limit)[j - Skip(k, limit)] == rows[j];
  }

  lemma MulMonotone(a: int, b: int, c: int)
    requires a <= b && c >= 0
    ensures a * c <= b * c
  {
  }
}

=== FILE: table.dfy ===
/** An in-memory relational table: the rows of one model in insertion order, each with
    the identifier and timestamps the ORM maintains. Counting, filtering, lookup, update
    and deletion here are the store operations the actions are built from. */
module Table {
  import opened Wrappers

  type Id = string

  /** One stored row: a generated primary key, `createdAt`, `updatedAt` and the columns. */
  datatype Row<D> = Row(id: Id, createdAt: int, updatedAt: int, data: D)

  /** Primary keys are unique. */
  predicate DistinctIds<D>(rows: seq<Row<D>>)
  {
    forall i, j :: 0 <= i < j < |rows| ==> rows[i].id != rows[j].id
  }

  /** A column declared unique: no two rows share a key. */
  predicate UniqueBy<D, K(==)>(rows: seq<Row<D>>, key: D -> K)
  {
    forall i, j :: 0 <= i < j < |rows| ==> key(rows[i].data) != key(rows[j].data)
  }

  function IdsOf<D(==)>(rows: seq<Row<D>>): set<Id>
  {
    set r | r in rows :: r.id
  }

  /** `count({ where })`: how many elements satisfy `p`. */
  function Count<T>(s: seq<T>, p: T -> bool): (n: nat)
    ensures n <= |s|
  {
    if |s| == 0 then 0 else (if p(s[0]) then 1 else 0) + Count(s[1..], p)
  }

  /** `findMany({ where })` before ordering: the elements satisfying `p`, in table order. */
  function Filter<T>(s: seq<T>, p: T -> bool): (r: seq<T>)
    ensures |r| == Count(s, p)
    ensures forall i :: 0 <= i < |r| ==> r[i] in s && p(r[i])
    ensures forall i :: 0 <= i < |s| && p(s[i]) ==> s[i] in r
  {
    if |s| == 0 then []
    else if p(s[0]) then [s[0]] + Filter(s[1..], p)
    else Filter(s[1..], p)
  }

  lemma {:induction false} CountAppend<T>(a: seq<T>, b: seq<T>, p: T -> bool)
    ensures Count(a + b, p) == Count(a, p) + Count(b, p)
  {
    if |a| == 0 {
      assert a + b == b;
    } else {
      assert (a + b)[1..] == a[1..] + b;
      CountAppend(a[1..], b, p);
    }
  }

  /** When every element satisfying `p` satisfies exactly one of `a` and `b`, and nothing
      else does, the counts add up. */
  lemma {:induction false} CountPartition<T>(s: seq<T>, p: T -> bool, a: T -> bool, b: T -> bool)
    requires forall i :: 0 <= i < |s| ==> (p(s[i]) <==> a(s[i]) || b(s[i]))
    requires forall i :: 0 <= i < |s| ==> !(a(s[i]) && b(s[i]))
    ensures Count(s, p) == Count(s, a) + Count(s, b)
  {
    if |s| > 0 {
      assert forall i :: 0 <= i < |s[1..]| ==> s[1..][i] == s[i + 1];
      CountPartition(s[1..], p, a, b);
    }
  }

  /** Counting is monotone in the predicate. */
  lemma {:induction false} CountMonotone<T>(s: seq<T>, p: T -> bool, q: T -> bool)
    requires forall i :: 0 <= i < |s| ==> p(s[i]) ==> q(s[i])
    ensures Count(s, p) <= Count(s, q)
  {
    if |s| > 0 {
      assert forall i :: 0 <= i < |s[1..]| ==> s[1..][i] == s[i + 1];
      CountMonotone(s[1..], p, q);
    }
  }

  /** Predicates that agree on every element count the same. */
  lemma CountExt<T>(s: seq<T>, p: T -> bool, q: T -> bool)
    requires forall i :: 0 <= i < |s| ==> (p(s[i]) <==> q(s[i]))
    ensures Count(s, p) == Count(s, q)
  {
    CountMonotone(s, p, q);
    CountMonotone(s, q, p);
  }

  /** Counting `q` among the rows a filter keeps is counting `c` among all rows, where
      `c` is the conjunction of the two. */
  lemma {:induction false} CountOfFilter<T>(s: seq<T>, p: T -> bool, q: T -> bool, c: T -> bool)
    requires forall i :: 0 <= i < |s| ==> (c(s[i]) <==> p(s[i]) && q(s[i]))
    ensures Count(Filter(s, p), q) == Count(s, c)
  {
    if |s| > 0 {
      assert forall i :: 0 <= i < |s[1..]| ==> s[1..][i] == s[i + 1];
      CountOfFilter(s[1..], p, q, c);
      if p(s[0]) {
        assert ([s[0]] + Filter(s[1..], p))[1..] == Filter(s[1..], p);
      }
    }
  }

  /** A count is zero exactly when no element qualifies. */
  lemma {:induction false} CountZero<T>(s: seq<T>, p: T -> bool)
    ensures Count(s, p) == 0 <==> forall i :: 0 <= i < |s| ==> !p(s[i])
  {
    if |s| > 0 {
      assert forall i :: 0 <= i < |s[1..]| ==> s[1..][i] == s[i + 1];
      CountZero(s[1..], p);
      if Count(s, p) == 0 {
        forall i | 0 <= i < |s| ensures !p(s[i]) {
          if i > 0 {
            assert s[i] == s[1..][i - 1];
          }
        }
      }
    }
  }

  /** Every element qualifies exactly when the count is the length. */
  lemma {:induction false} CountAll<T>(s: seq<T>, p: T -> bool)
    ensures Count(s, p) == |s| <==> forall i :: 0 <= i < |s| ==> p(s[i])
  {
    if |s| > 0 {
      assert forall i :: 0 <= i < |s[1..]| ==> s[1..][i] == s[i + 1];
      CountAll(s[1..], p);
      if Count(s, p) == |s| {
        forall i | 0 <= i < |s| ensures p(s[i]) {
          if i > 0 {
            assert s[i] == s[1..][i - 1];
          }
        }
      }
    }
  }

  /** `findUnique({ where: { id } })` */
  function Find<D>(rows: seq<Row<D>>, id: Id): (r: Option<Row<D>>)
    ensures r.Some? ==> r.value in rows && r.value.id == id
    ensures r.None? <==> id !in IdsOf(rows)
  {
    if |rows| == 0 then None
    else if rows[0].id == id then Some(rows[0])
    else
      Find(rows[1..], id)
  }

  /** With unique primary keys, a row in the table is the one `Find` returns. */
  lemma FindUnique<D>(rows: seq<Row<D>>, r: Row<D>)
    requires DistinctIds(rows) && r in rows
    ensures Find(rows, r.id) == Some(r)
  {
    var i :| 0 <= i < |rows| && rows[i] == r;
    var f := Find(rows, r.id).value;
    var j :| 0 <= j < |rows| && rows[j] == f;
    assert i == j;
  }

  /** `findUnique({ where: { <unique column>: k } })`: the first row whose key is `k`. */
  function FindBy<D, K(==)>(rows: seq<Row<D>>, key: D -> K, k: K): (r: Option<Row<D>>)
    ensures r.Some? ==> r.value in rows && key(r.value.data) == k
    ensures r.None? <==> forall i :: 0 <= i < |rows| ==> key(rows[i].data) != k
  {
    if |rows| == 0 then None
    else if key(rows[0].data) == k then Some(rows[0])
    else
      var r := FindBy(rows[1..], key, k);
      assert forall i :: 0 < i < |rows| ==> rows[i] == rows[1..][i - 1];
      r
  }

  /** With a unique column, a row in the table is the one looked up by its key. */
  lemma FindByUnique<D, K>(rows: seq<Row<D>>, key: D -> K, r: Row<D>)
    requires UniqueBy(rows, key) && r in rows
    ensures FindBy(rows, key, key(r.data)) == Some(r)
  {
    var i :| 0 <= i < |rows| && rows[i] == r;
    var f := FindBy(rows, key, key(r.data)).value;
    var j :| 0 <= j < |rows| && rows[j] == f;
    assert i == j;
  }

  /** An update that never writes the key keeps a unique column unique. */
  lemma UpdateKeepsUnique<D, K>(rows: seq<Row<D>>, ids: set<Id>, f: D -> D, now: int, key: D -> K)
    requires UniqueBy(rows, key)
    requires forall d :: key(f(d)) == key(d)
    ensures UniqueBy(UpdateWhere(rows, ids, f, now), key)
  {
  }

  /** Appending a row with a fresh id and a fresh key keeps both unique. */
  lemma AppendKeepsUnique<D, K>(rows: seq<Row<D>>, row: Row<D>, key: D -> K)
    requires DistinctIds(rows) && UniqueBy(rows, key)
    requires row.id !in IdsOf(rows)
    requires forall i :: 0 <= i < |rows| ==> key(rows[i].data) != key(row.data)
    ensures DistinctIds(rows + [row]) && UniqueBy(rows + [row], key)
  {
    forall i | 0 <= i < |rows| ensures rows[i].id != row.id {
      assert rows[i] in rows;
    }
  }

  function HasId<D>(id: Id): Row<D> -> bool
  {
    (r: Row<D>) => r.id == id
  }

  function IdIn<D>(ids: set<Id>): Row<D> -> bool
  {
    (r: Row<D>) => r.id in ids
  }

  function IdNotIn<D>(ids: set<Id>): Row<D> -> bool
  {
    (r: Row<D>) => r.id !in ids
  }

  /** `deleteMany({ where: { id: { in: ids } } })`: the rows left behind. */
  function RemoveIds<D>(rows: seq<Row<D>>, ids: set<Id>): (r: seq<Row<D>>)
    ensures forall i :: 0 <= i < |r| ==> r[i] in rows && r[i].id !in ids
    ensures forall i :: 0 <= i < |rows| && rows[i].id !in ids ==> rows[i] in r
    ensures |rows| - |r| == Count(rows, IdIn(ids))
  {
    CountPartition(rows, _ => true, IdIn(ids), IdNotIn(ids));
    CountAll(rows, _ => true);
    Filter(rows, IdNotIn(ids))
  }

  /** The table after writing `f` over every row whose id is in `ids`, stamping `updatedAt`. */
  function UpdateWhere<D>(rows: seq<Row<D>>, ids: set<Id>, f: D -> D, now: int): (r: seq<Row<D>>)
    ensures |r| == |rows|
    ensures forall i :: 0 <= i < |rows| ==>
      r[i] == if rows[i].id in ids then rows[i].(data := f(rows[i].data), updatedAt := now) else rows[i]
  {
    seq(|rows|, i requires 0 <= i < |rows| =>
      if rows[i].id in ids then rows[i].(data := f(rows[i].data), updatedAt := now) else rows[i])
  }

  /** The update of the rows after the first is the tail of the update. */
  lemma UpdateWhereTail<D>(rows: seq<Row<D>>, ids: set<Id>, f: D -> D, now: int)
    requires |rows| > 0
    ensures UpdateWhere(rows, ids, f, now)[1..] == UpdateWhere(rows[1..], ids, f, now)
  {
  }

  /** An update can stop at most as many rows satisfying `p` as it touches. */
  lemma {:induction false} CountUpdateBound<D>(rows: seq<Row<D>>, ids: set<Id>, f: D -> D, now: int, p: Row<D> -> bool)
    ensures Count(UpdateWhere(rows, ids, f, now), p) + Count(rows, IdIn(ids)) >= Count(rows, p)
  {
    if |rows| > 0 {
      UpdateWhereTail(rows, ids, f, now);
      CountUpdateBound(rows[1..], ids, f, now, p);
    }
  }

  /** An update under which every touched row that satisfied `p` still does keeps the count
      from dropping. */
  lemma {:induction false} CountUpdateKeeps<D>(rows: seq<Row<D>>, ids: set<Id>, f: D -> D, now: int, p: Row<D> -> bool)
    requires forall i :: 0 <= i < |rows| && rows[i].id in ids && p(rows[i]) ==>
      p(rows[i].(data := f(rows[i].data), updatedAt := now))
    ensures Count(UpdateWhere(rows, ids, f, now), p) >= Count(rows, p)
  {
    if |rows| > 0 {
      UpdateWhereTail(rows, ids, f, now);
      assert forall i :: 0 <= i < |rows[1..]| ==> rows[1..][i] == rows[i + 1];
      CountUpdateKeeps(rows[1..], ids, f, now, p);
    }
  }

  /** With unique primary keys at most one row carries a given id. */
  lemma {:induction false} AtMostOneWithId<D>(rows: seq<Row<D>>, id: Id)
    requires DistinctIds(rows)
    ensures Count(rows, IdIn({id})) <= 1
  {
    if |rows| > 0 {
      AtMostOneWithId(rows[1..], id);
      if rows[0].id == id {
        CountZero(rows[1..], IdIn({id}));
        forall i | 0 <= i < |rows[1..]| ensures !IdIn({id})(rows[1..][i]) {
          assert rows[1..][i] == rows[i + 1];
        }
      }
    }
  }

  /** Removing rows keeps the primary keys distinct. */
  lemma {:induction false} FilterKeepsDistinct<D>(rows: seq<Row<D>>, p: Row<D> -> bool)
    requires DistinctIds(rows)
    ensures DistinctIds(Filter(rows, p))
  {
    if |rows| > 0 {
      FilterKeepsDistinct(rows[1..], p);
      var t := Filter(rows[1..], p);
      if p(rows[0]) {
        forall j | 0 <= j < |t| ensures t[j].id != rows[0].id {
          assert t[j] in rows[1..];
        }
      }
    }
  }

  /** Removing rows keeps a unique column unique. */
  lemma {:induction false} FilterKeepsUnique<D, K>(rows: seq<Row<D>>, p: Row<D> -> bool, key: D -> K)
    requires UniqueBy(rows, key)
    ensures UniqueBy(Filter(rows, p), key)
  {
    if |rows| > 0 {
      FilterKeepsUnique(rows[1..], p, key);
      var t := Filter(rows[1..], p);
      if p(rows[0]) {
        forall j | 0 <= j < |t| ensures key(t[j].data) != key(rows[0].data) {
          assert t[j] in rows[1..];
        }
      }
    }
  }

  /** Updating keeps the primary keys (an update never writes the id). */
  lemma UpdateKeepsIds<D>(rows: seq<Row<D>>, ids: set<Id>, f: D -> D, now: int)
    ensures IdsOf(UpdateWhere(rows, ids, f, now)) == IdsOf(rows)
    ensures DistinctIds(rows) ==> DistinctIds(UpdateWhere(rows, ids, f, now))
  {
    var r := UpdateWhere(rows, ids, f, now);
    forall x | x in IdsOf(r) ensures x in IdsOf(rows) {
      var i :| 0 <= i < |r| && r[i].id == x;
      assert rows[i] in rows;
    }
    forall x | x in IdsOf(rows) ensures x in IdsOf(r) {
      var i :| 0 <= i < |rows| && rows[i].id == x;
      assert r[i] in r;
    }
  }
}

=== FILE: text.dfy ===
/** Character classes and string operations the validators and filters rely on.
    Strings are sequences of UTF-16 code units, as in JavaScript. */
module Text {

  /** `\d` of a JavaScript regular expression without the `u` flag: ASCII digits only. */
  predicate IsDigit(c: char) { '0' <= c <= '9' }

  predicate IsLower(c: char) { 'a' <= c <= 'z' }

  predicate IsUpper(c: char) { 'A' <= c <= 'Z' }

  /** `[a-zA-Z]` */
  predicate IsLetter(c: char) { IsLower(c) || IsUpper(c) }

  /** `\s` of a JavaScript regular expression, which is also the set `String.prototype.trim`
      strips: the ECMAScript WhiteSpace and LineTerminator code points. */
  predicate IsWhitespace(c: char)
  {
    var u := c as int;
    || u == 0x09 || u == 0x0A || u == 0x0B || u == 0x0C || u == 0x0D || u == 0x20
    || u == 0xA0 || u == 0x1680 || (0x2000 <= u <= 0x200A) || u == 0x2028 || u == 0x2029
    || u == 0x202F || u == 0x205F || u == 0x3000 || u == 0xFEFF
  }

  predicate AllDigits(s: string)
  {
    forall i :: 0 <= i < |s| ==> IsDigit(s[i])
  }

  predicate StartsWith(s: string, prefix: string)
  {
    |prefix| <= |s| && s[..|prefix|] == prefix
  }

  /** `sub` occurs in `s` at position `i`. */
  predicate OccursAt(s: string, sub: string, i: int)
  {
    0 <= i && i + |sub| <= |s| && s[i..i + |sub|] == sub
  }

  /** Substring search as the database's `contains` filter performs it: try every start
      position from the left. */
  predicate Contains(s: string, sub: string)
    decreases |s|
  {
    StartsWith(s, sub) || (|s| > 0 && Contains(s[1..], sub))
  }

  /** The scan finds `sub` exactly when it occurs somewhere in `s`. */
  lemma {:induction false} ContainsIffOccurs(s: string, sub: string)
    ensures Contains(s, sub) <==> exists i :: OccursAt(s, sub, i)
    decreases |s|
  {
    if StartsWith(s, sub) {
      assert OccursAt(s, sub, 0);
    } else if |s| == 0 {
      forall i | OccursAt(s, sub, i) ensures false {
      }
    } else {
      ContainsIffOccurs(s[1..], sub);
      if exists i :: OccursAt(s[1..], sub, i) {
        var i :| OccursAt(s[1..], sub, i);
        assert s[1..][i..i + |sub|] == s[i + 1..i + 1 + |sub|];
        assert OccursAt(s, sub, i + 1);
      }
      if exists i :: OccursAt(s, sub, i) {
        var i :| OccursAt(s, sub, i);
        if i == 0 {
          assert false;
        }
        assert s[1..][i - 1..i - 1 + |sub|] == s[i..i + |sub|];
        assert OccursAt(s[1..], sub, i - 1);
      }
    }
  }

  /** The empty string is contained in every string. */
  lemma ContainsEmpty(s: string)
    ensures Contains(s, "")
  {
    assert s[..0] == "";
  }

  /** Every character of `s` is JavaScript whitespace. */
  predicate IsBlank(s: string)
  {
    forall i :: 0 <= i < |s| ==> IsWhitespace(s[i])
  }

  /** `String.prototype.trimStart` */
  function TrimStart(s: string): (r: string)
    ensures |r| <= |s| && r == s[|s| - |r|..]
    ensures |r| > 0 ==> !IsWhitespace(r[0])
    ensures IsBlank(s[..|s| - |r|])
    decreases |s|
  {
    if |s| > 0 && IsWhitespace(s[0]) then
      var r := TrimStart(s[1..]);
      assert s[1..][..|s[1..]| - |r|] == s[1..|s| - |r|];
      r
    else s
  }

  /** `String.prototype.trimEnd` */
  function TrimEnd(s: string): (r: string)
    ensures |r| <= |s| && r == s[..|r|]
    ensures |r| > 0 ==> !IsWhitespace(r[|r| - 1])
    ensures IsBlank(s[|r|..])
    decreases |s|
  {
    if |s| > 0 && IsWhitespace(s[|s| - 1]) then
      var r := TrimEnd(s[..|s| - 1]);
      assert s[..|s| - 1][|r|..] == s[|r|..|s| - 1];
      r
    else s
  }

  /** `String.prototype.trim` */
  function Trim(s: string): string
  {
    TrimEnd(TrimStart(s))
  }

  /** `s.trim() === ""` exactly when `s` consists of whitespace only. */
  lemma TrimEmptyIffBlank(s: string)
    ensures Trim(s) == "" <==> IsBlank(s)
  {
    var t := TrimStart(s);
    if Trim(s) == "" {
      assert IsBlank(t[0..]);
      assert s == s[..|s| - |t|] + t;
    } else {
      var e := TrimEnd(t);
      assert !IsWhitespace(e[|e| - 1]);
      assert t[|e| - 1] == e[|e| - 1];
      assert s[|s| - |t| + |e| - 1] == t[|e| - 1];
    }
  }

  /** The string formats the validation library defines and this model leaves abstract:
      `.email()`, `.cuid()` and `.url()`. */
  datatype Formats = Formats(isEmail: string -> bool, isCuid: string -> bool, isUrl: string -> bool)

  /** The library's e-mail pattern ignores letter case, so lower-casing keeps an address valid. */
  ghost predicate EmailIgnoresCase(f: Formats)
  {
    forall s :: f.isEmail(s) ==> f.isEmail(ToLower(s))
  }

  /** `String.prototype.toLowerCase` restricted to the ASCII letters. */
  function LowerChar(c: char): char
  {
    if IsUpper(c) then (c as int + 32) as char else c
  }

  function ToLower(s: string): (r: string)
    ensures |r| == |s|
    ensures forall i :: 0 <= i < |s| ==> r[i] == LowerChar(s[i])
  {
    seq(|s|, i requires 0 <= i < |s| => LowerChar(s[i]))
  }

  /** Lower-casing leaves no upper-case letter, keeps every other character, and a
      second pass changes nothing. */
  lemma ToLowerNormalises(s: string)
    ensures forall i :: 0 <= i < |s| ==> !IsUpper(ToLower(s)[i])
    ensures forall i :: 0 <= i < |s| && !IsUpper(s[i]) ==> ToLower(s)[i] == s[i]
    ensures ToLower(ToLower(s)) == ToLower(s)
  {
  }
}

=== FILE: wrappers.dfy ===
/** Shared result shapes of the server actions. */
module Wrappers {

  /** A value that may be missing (a nullable column, an optional argument). */
  datatype Option<+T> = None | Some(value: T)

  /** An optional, nullable input field as the ORM sees it: an absent field
      (`undefined`) leaves the column untouched, `null` clears it and a value
      overwrites it. */
  datatype Field<+T> = Absent | Null | Present(value: T)

  /** The outcome of a schema parse: the validated (and defaulted, transformed) value, or a
      rejection. */
  datatype Parsed<+T> = Valid(value: T) | Invalid

  /** The uniform `{ success, data?, message?, error? }` envelope every action returns. */
  datatype Response<+T> =
    | Success(data: T, message: string)
    | Failure(error: string)

  /** The error every mutating action reports when its input schema rejects the input. */
  const ValidationFailed := "Validation failed"

  /** The error every listing action reports when its query schema rejects the query. */
  const InvalidQuery := "Invalid query parameters"

  /** The column value after writing `f` over `current`. */
  function Apply<T>(current: Option<T>, f: Field<T>): (r: Option<T>)
    ensures f.Absent? ==> r == current
    ensures f.Null? ==> r.None?
    ensures f.Present? ==> r == Some(f.value)
  {
    match f
    case Absent => current
    case Null => None
    case Present(v) => Some(v)
  }

  /** The field as it was handed over, as a nullable value (absent and null both read as null). */
  function ToOption<T>(f: Field<T>): Option<T>
  {
    if f.Present? then Some(f.value) else None
  }
}
